=== FILE: README.md ===
# Marketplace ledger model

A Dafny model of the server side of a property marketplace, an Express and
Prisma back end. Users list properties for rent or sale. Other users save
listings, chat with owners, pay through a card gateway, book stays and
review owners.

The database is one immutable value, `Ledger.Ledger`. It holds one sequence
of rows per table: users, profiles, listings, listing details, images,
saved listings, payments, bookings, cards, reviews, chats and messages.
Every HTTP handler is a pure function from a ledger and the request to a
`Step`: the ledger afterwards and either a value or a `Failure` carrying
the status class and a message. Where the controller sends a fixed text,
the message is that text. Where it forwards an error from the store or
the runtime, the model has the handler's fallback text instead.

Things outside the process are parameters:

- The payment gateway's `paymentIntents.retrieve` is a function from an
  intent id to an intent or an unreachable outcome.
- Its other calls are plain outcome values.
- bcrypt is a `hash` or `verify` function.
- The clock is a millisecond `now`.

The signed-in user is `requester: nat`, where 0 means no valid token.

Modules follow the controllers:

- `Common`: options, results, the `parseInt` view of request ids and JavaScript truthiness.
- `Text`: trimming, case, digits, `parseInt`, `split`.
- `Ledger`: the rows.
- `Validation`: the payment and card field validators.
- `Payments` and `Cards`: the payment controller.
- `Posts`, `Reviews`, `Users`, `Chats`, `Messages` and `Auth`.

Main invariants proved:

- No two holding bookings of a listing overlap. Confirmation and the stale-payment sweep both keep this.
- A user has at most one default card.
- A reviewer has one review per listing.
- A (listing, buyer, seller) triple has one chat.
- Usernames and emails stay distinct.
- Each (user, listing) pair is saved at most once.

Behaviour of the code that a reader may not expect, modelled as written:

- A date conflict in `confirmPayment` is thrown inside the transaction. It therefore answers 500 "Selected dates are not available".
- `createReview` trims `comment` before any check, outside its `try`. A request without a comment throws before the authentication check. The model answers that throw with 500, which is what an Express version that forwards async errors to its default handler sends (see Left out).
- `deleteReview` reads `req.adminId`, which no middleware sets (see Findings).
- `deleteUser` and `updateUser` have no ownership check (see Findings).
- `getSingleChat` answers with the chat as it was before the read time was recorded. `readChat` answers with the updated chat but with the messages as they were before marking.

## Model

| member | source | states |
|---|---|---|
| Common.ZeroTextIsTruthy | controllers/postController.js:511 | JavaScript truthiness: the text "0" is truthy while the number 0 and an absent value are not, and a non-zero number is truthy exactly when it is a valid id |
| Common.FindIsFirst | controllers/reviewController.js:173-181 | the `findFirst` lookup returns the earliest matching row: no row before it matches |
| Text.Trim | controllers/messageController.js:19-23 | `trim` removes exactly the leading and trailing JavaScript whitespace: the result is a slice of the input that does not start or end with whitespace |
| Text.BlankIffAllSpace | controllers/messageController.js:19-23 | text is blank after trimming exactly when every character is whitespace |
| Text.TrimIdempotent | controllers/reviewController.js:5-14 | trimming twice is trimming once |
| Text.UpperOfLower | controllers/paymentController.js:42-43 | upper-casing forgets an earlier lower-casing, so the currency code survives the gateway's lower case |
| Text.ParseIntOfDigits | controllers/postController.js:447-448 | `parseInt` reads a decimal spelling back as its value |
| Text.ParseIntOfHex | controllers/postController.js:447-448 | `parseInt` reads a `0x` prefix followed by hex digits as that hexadecimal value |
| Text.JoinSplit | controllers/postController.js:441 | joining the pieces of `split("-")` with the separator rebuilds the text |
| Ledger.Midnight | controllers/paymentController.js:290-293 | `setHours(0,0,0,0)` gives the start of the day containing the instant: no later than it and less than a day before |
| Validation.DecimalPositive | controllers/paymentController.js:41 | a number read by `parseFloat` is above 0 exactly when it is not negated and some mantissa digit is non-zero |
| Validation.AmountTextValid | controllers/paymentController.js:41 | `parseFloat(amount) > 0` accepts text exactly when its longest decimal prefix is unsigned with a non-zero digit, or, with no decimal prefix, when it starts with `Infinity` or `+Infinity` |
| Validation.SignedInfinity | controllers/paymentController.js:41 | `parseFloat` reads `Infinity` with an optional sign and any suffix as a signed infinity, which the amount check accepts unless negative |
| Validation.LowerCaseInfinityRefused | controllers/paymentController.js:41 | `infinity` in lower case is not a number, so the amount is refused |
| Validation.MinorUnits | controllers/paymentController.js:185 | `Math.round(x * 100)` is the integer within half a unit of `x * 100` |
| Validation.CurrencyCaseInsensitive | controllers/paymentController.js:42-43 | the currency check ignores case, and only three-letter codes pass |
| Validation.CardNumberShape | controllers/paymentController.js:53 | a card number passes exactly when it holds only digits and whitespace and 13 to 19 digits |
| Validation.ExpiryMonthMeaning | controllers/paymentController.js:54 | the month pattern accepts exactly the two-digit spellings of 1 to 12 |
| Validation.CardExamples | controllers/paymentController.js:54-59 | "09" is a month and "9" and "13" are not; "123" is a security code and "12a" is not |
| Payments.IntentGuards | controllers/paymentController.js:151-181 | the guards in order: 401 without a token, 400 "Valid amount is required", 404 for a missing listing and 403 for the requester's own listing; it passes exactly when the amount is valid and a truthy `postId` (the text "0" included) names another user's listing |
| Payments.IntentRequestFor | controllers/paymentController.js:184-193 | the gateway request: a finite amount becomes `Math.round(x*100)` minor units, positive unless the amount is below half a minor unit, and `Infinity` stays infinite; the currency is the lower-cased code or "ngn" and upper-cases back to the sent code; the metadata carries the requester, the parsed `postId` only when it is truthy, and the booking dates |
| Payments.CreatePaymentIntent | controllers/paymentController.js:146-212 | guard failures pass through unchanged; success means the guards passed and the gateway created the intent for exactly that request, and conversely a created intent after passing guards is returned with the gateway's client secret; a card error answers 400 with the gateway's own message and any other gateway failure answers 500 "Failed to create payment intent" |
| Payments.RefusedIntentSkipsGateway | controllers/paymentController.js:151-181 | when a guard refuses, the answer does not depend on the gateway at all |
| Payments.IntentCurrencyRoundTrip | controllers/paymentController.js:186 | any currency text is passed on unchecked, up to case |
| Payments.ExactMatchSubsumed | controllers/paymentController.js:299-308 | for a well-ordered range the exact-match clause adds nothing to the overlap clause |
| Payments.ExactMatchCatchesInvertedRange | controllers/paymentController.js:290-309 | start <= end is never checked, and for an inverted range only the exact-match clause finds the clash |
| Payments.BackToBackStaysConflict | controllers/paymentController.js:300-303 | a stay that begins on the day another ends is refused: the overlap test is inclusive |
| Payments.MarkPaid | controllers/paymentController.js:280-285 | only the `isPaid` column changes; afterwards a listing is paid exactly when it was paid before or it is the sold listing |
| Payments.Settle | controllers/paymentController.js:257-333 | the transaction fails exactly for a rental whose dates are an Invalid Date (500 "Failed to confirm payment") or whose day range meets a holding booking (500 "Selected dates are not available"), and then nothing is written; the metadata column holds a truthy `purchaseOptions` and null for a falsy one; otherwise exactly one completed payment is added, plus a confirmed booking linked to it for a rental; the transaction type is rental iff booking data was sent |
| Payments.ConfirmPayment | controllers/paymentController.js:213-347 | guards in order (401; 400 when the intent id is missing or `postId` is falsy, while the text "0" goes on to the gateway; 400 gateway status; 404; 403) leave the ledger unchanged; an unreachable gateway answers 500, and a non-numeric `postId` after a paid intent answers 500 "Failed to confirm payment"; when every guard passes the step is exactly the transaction's, and success means every guard passed |
| Payments.PaymentOnlyOnGatewaySuccess | controllers/paymentController.js:229-277 | a payment row is added exactly when the call succeeds; success needs the gateway's "succeeded", and the row carries the gateway's id and its amount over 100 |
| Payments.StoredAmountRoundTrip | controllers/paymentController.js:257-329 | the stored amount rounds back to the gateway's minor units, and a booking's total equals its payment's amount |
| Payments.RecordedAmountNearRequested | controllers/paymentController.js:184-347 | end to end: when an intent is created for a valid amount and the gateway later reports that intent's minor-unit amount, the payment `confirmPayment` records is within half a minor unit of the amount first requested, and the requested amount was finite |
| Payments.SaleMarksOnlyThatPostPaid | controllers/paymentController.js:279-285 | a sale always settles, marks exactly the bought listing paid and adds no booking |
| Payments.SettleKeepsNoDoubleBooking | controllers/paymentController.js:289-329 | the transaction keeps "no two holding bookings of a listing overlap" |
| Payments.ConfirmKeepsNoDoubleBooking | controllers/paymentController.js:213-347 | the whole handler keeps the no-double-booking invariant |
| Payments.ConflictAbortsEverything | controllers/paymentController.js:296-315 | a clash with any holding booking of the listing aborts with no payment, no booking and no paid flag |
| Payments.InvalidDateAbortsEverything | controllers/paymentController.js:289-315 | a rental whose requested dates do not parse passes every guard, is charged by the gateway, and then rolls back with 500 "Failed to confirm payment" and nothing written |
| Payments.MetadataOf | controllers/paymentController.js:270 | the metadata column is set exactly when `purchaseOptions` is truthy, and then holds its serialised text |
| Payments.FalsyOptionsStoredAsNull | controllers/paymentController.js:270 | through the whole transaction, absent or empty purchase options are stored as null and any other value as sent |
| Payments.SameIntentTwiceGivesTwoPayments | controllers/paymentController.js:257-277 | there is no duplicate check: settling one intent twice leaves two payments with the same transaction id |
| Payments.HandleWebhook | controllers/paymentController.js:349-376 | the ledger never changes; a verified event of any type is acknowledged and a rejected signature gives 400 |
| Payments.WebhookIgnoresLedger | controllers/paymentController.js:349-376 | the webhook's answer does not depend on the ledger and it writes nothing |
| Payments.CleanupStalePayments | controllers/paymentController.js:532-588 | the sweep fails exactly when an expiring payment links a booking that does not exist (the update throws and the transaction rolls back), and then nothing is written; otherwise exactly the expiring payments become failed |
| Payments.SweepTouchesOnlyExpired | controllers/paymentController.js:542-577 | a payment changes exactly when it is pending, an hour old, has a transaction id and the gateway does not report it succeeded; only its status changes |
| Payments.SweepCancelsLinkedBookings | controllers/paymentController.js:554-558 | a booking changes exactly when an expiring payment's `bookingId` names it, and then it is cancelled at `now` |
| Payments.SweepKeepsNoDoubleBooking | controllers/paymentController.js:542-577 | cancelling only releases dates, so the no-double-booking invariant holds afterwards |
| Payments.SweepIdempotent | controllers/paymentController.js:534-577 | a second sweep at the same instant with the same gateway answers changes nothing |
| Payments.ConfirmedPaymentsSurviveSweep | controllers/paymentController.js:534-540 | a payment made by confirmation is completed, so no sweep ever touches it |
| Cards.CallFailure | controllers/paymentController.js:477-485 | a card error answers 400 with the gateway's message; any other failed call answers 500 "Failed to add payment card" |
| Cards.ActiveCardsOf | controllers/paymentController.js:386-393 | the listing query selects exactly the requester's active cards |
| Cards.DefaultsFirst | controllers/paymentController.js:390 | the listing order is a permutation of the cards with every default card before every other |
| Cards.GetUserCards | controllers/paymentController.js:378-401 | no identity gives 401; otherwise each listed card is masked to its last four digits, and the cards listed are the active cards, defaults first |
| Cards.ListingIsExactlyActiveCards | controllers/paymentController.js:386-393 | a card is listed exactly when it is an active card of the requester |
| Cards.SetCustomerId | controllers/paymentController.js:425-434 | only the `stripeCustomerId` column changes, the requester's row gets the new customer id and every other account is unchanged |
| Cards.ClearDefaults | controllers/paymentController.js:454-458 | only the `isDefault` flag changes, none of the user's cards stays default and other users' cards are unchanged |
| Cards.NewCard | controllers/paymentController.js:459-462 | the new card is the requester's, active, default as asked, with the gateway's method id and last four digits and a fresh id |
| Cards.StoreCard | controllers/paymentController.js:454-462 | the new card is appended; a default card first takes the flag off the requester's other cards |
| Cards.AddPaymentCard | controllers/paymentController.js:403-486 | 401 and 400 guards, 500 for a missing user; once the customer exists a failed attach answers with that call's failure, and when attach and any default-setting call succeed the answer is the new card; only user and card rows change, no other user's row changes, and at most one card is added |
| Cards.DefaultCardIsTheOnlyDefault | controllers/paymentController.js:449-462 | a card added as default is afterwards the requester's only default card |
| Cards.AddKeepsSingleDefault | controllers/paymentController.js:449-462 | adding a card never gives any user a second default card |
| Cards.CustomerIdOutlivesAttachFailure | controllers/paymentController.js:419-452 | the steps are not one transaction: a new customer id stays on the user even when attaching the card fails |
| Cards.DeletePaymentCard | controllers/paymentController.js:488-531 | 401, then 404 unless the card is the requester's; success removes exactly that card |
| Cards.DeleteIgnoresDetachOutcome | controllers/paymentController.js:508-517 | the gateway detach is best effort: its outcome changes neither the answer nor the ledger |
| Cards.ForeignCardNotDeleted | controllers/paymentController.js:499-506 | another user's card is never deleted: the answer is 404 and nothing changes |
| Posts.MergePost | controllers/postController.js:153-193 | per field: identity, state and rating columns are kept; a text field takes a non-empty sent value and keeps the stored one otherwise; a numeric field takes `parseInt` of a truthy sent value (the text "0" included) and keeps the stored one for an absent value or the number 0; an images array replaces the stored one whenever it is sent |
| Posts.MergeNothingKeepsPost | controllers/postController.js:153-193 | an empty update leaves the listing exactly as it was |
| Posts.MergePostIdempotent | controllers/postController.js:153-193 | applying an update twice equals applying it once |
| Posts.FalsyNeverErases | controllers/postController.js:157-191 | an empty title or a numeric 0 price keeps the stored value, but the text "0" sets the price to 0 and a non-empty title always replaces |
| Posts.MergeDetail | controllers/postController.js:195-276 | per field: text fields take a non-empty sent value, numeric fields take `parseInt` of a truthy sent value, nullable fields do the same over null, and a boolean flag takes any sent value, `false` included; the listing id is kept |
| Posts.FalseFlagOverridesEmptyTextDoesNot | controllers/postController.js:217-236 | a sent `false` clears a stored flag while a sent "" keeps the stored description |
| Posts.MergeNothingKeepsDetail | controllers/postController.js:195-276 | an empty detail update keeps the detail row |
| Posts.NewDetail | controllers/postController.js:277-319 | a new detail row is the schema default row with the sent fields merged by the update rules, so `wifi` is on only when sent as true and `utilities` and `pet` default to "owner" and "allowed" |
| Posts.EmptyDetailDefaults | controllers/postController.js:277-319 | a detail created from an empty body is exactly the default row |
| Posts.UpsertDetail | controllers/postController.js:195-320 | with a detail row for the listing every row for it is merged in place and the rest stay; without one a new row is appended |
| Posts.UpsertDetailRows | controllers/postController.js:195-320 | after the upsert the listing has a detail row; other listings' rows are exactly kept; each row for the listing is the merge of an old one, or the new default-based row when there was none |
| Posts.UpsertKeepsOneDetail | controllers/postController.js:195-320 | the upsert keeps one detail row per listing and adds a row only when the listing had none |
| Posts.OwnedPost | controllers/postController.js:121-151 | guards in order: invalid id 400, no identity 401, missing 404, not owner 403; passing returns the requester's own listing |
| Posts.UpdatePost | controllers/postController.js:116-362 | ownership failures pass through; a field that `parseInt` cannot read makes the store refuse the write (500 "Failed to update post"); an owned listing with readable numbers is always updated; on success the listing row is the merge of the stored one and the detail row is upserted, and nothing else changes |
| Posts.UpdateTouchesOnlyThatPost | controllers/postController.js:153-193 | every other listing is unchanged |
| Posts.Cascade | controllers/postController.js:399-407 | the listing and exactly the saved, image, detail, chat, review and booking rows with its id are removed; other tables are untouched |
| Posts.DeletePost | controllers/postController.js:364-421 | succeeds exactly when the guards pass, and then removes the listing with its cascade including images |
| Posts.AdminDeletePost | controllers/postController.js:636-676 | no identity or owner check: 400 invalid id, 404 missing, otherwise the cascade without images |
| Posts.AdminDeleteKeepsImages | controllers/postController.js:655-662 | the admin delete equals the owner's delete except that image rows stay |
| Posts.EarliestEnd | controllers/postController.js:55-70 | the least end date among the listing's upcoming confirmed or active bookings, none exactly when there is none |
| Posts.NextAvailableDate | controllers/postController.js:55-75 | none exactly for a listing that is not a rental; else the earliest upcoming end, or `availableFrom`, or now |
| Posts.GetSinglePost | controllers/postController.js:4-115 | invalid id 400, missing 404, otherwise the listing with its detail, next available date, booking history and whether the viewer saved it |
| Posts.NumberOf | controllers/postController.js:441 | `Number` of a bound is a non-negative integer when it is read |
| Posts.IntOr | controllers/postController.js:447-448 | `parseInt(v) || fallback` is never 0 unless the fallback is |
| Posts.IntOrReadsHex | controllers/postController.js:447-448 | a `0x` page or limit is read as hexadecimal |
| Posts.Reverse | controllers/postController.js:471 | position i of the reversal is position n-1-i of the input |
| Posts.Catalogue | controllers/postController.js:426-445 | a listing is in the catalogue exactly when it is active and matches every supplied filter |
| Posts.PageCount | controllers/postController.js:488 | `ceil(total/limit)`: the fewest pages of `limit` rows that hold all rows |
| Posts.Page | controllers/postController.js:449-473 | page p holds the rows from (p-1)*limit on, at most `limit` of them, and is full when enough rows follow |
| Posts.PagesCoverAll | controllers/postController.js:447-473 | every row is on exactly the page its position selects |
| Posts.GetAllPosts | controllers/postController.js:423-499 | page defaults to 1 and limit to 12; the answer is that page of the catalogue, the total count and the page count |
| Posts.ReverseNewestFirst | controllers/postController.js:471 | reversing an oldest-first sequence gives a newest-first one |
| Posts.CatalogueNewestFirst | controllers/postController.js:471 | with rows stored in creation order, the catalogue is newest first |
| Posts.FilterKeepsOrder | controllers/postController.js:451-474 | filtering keeps creation order |
| Posts.NewPost | controllers/postController.js:525-550 | the created row: title, city and `parseInt(price)` as sent; `type` "rent", `property` "apartment", one bedroom and bathroom, empty texts and nulls as the defaults for fields not sent or falsy; images default to the empty list |
| Posts.AddPost | controllers/postController.js:501-634 | 401 without a token; 400 "Missing required fields" when title, price or city is falsy (a price of the text "0" passes); 400 "Description is required"; 500 when the owner is gone or a number cannot be read; a request passing all of these is always stored; on success the listing and its detail row are appended under a fresh id |
| Posts.BlankDescriptionRefused | controllers/postController.js:517-522 | a whitespace-only description is refused with 400 once the required fields are present |
| Posts.ZeroPriceTextCreates | controllers/postController.js:511-528 | a price sent as the text "0" passes the required-field check and creates a listing priced 0, while the number 0 is refused as missing |
| Posts.AddPostKeepsKeys | controllers/postController.js:525-550 | creating a listing keeps listing ids distinct, one detail row per listing and every detail row attached to a listing, and the new listing has its detail row |
| Reviews.TrimOrNull | controllers/reviewController.js:8-12 | absent or empty text becomes null; other text is trimmed |
| Reviews.TrimOrNullStable | controllers/reviewController.js:8-12 | text that is not blank is trimmed once and for all |
| Reviews.SanitizeReview | controllers/reviewController.js:5-14 | the body is sanitised exactly when a comment is present; the comment is trimmed |
| Reviews.SanitizeTwice | controllers/reviewController.js:5-14 | with a title and reason that are not blank, sanitising twice equals sanitising once |
| Reviews.BlankTitleNeedsTwoPasses | controllers/reviewController.js:8 | a blank title becomes "" and only a second pass makes it null |
| Reviews.SumBounds | controllers/reviewController.js:269-270 | the sum of n ratings in [lo, hi] lies in [n*lo, n*hi] |
| Reviews.MeanWithinBounds | controllers/reviewController.js:269-270 | the mean of ratings in [lo, hi] lies in [lo, hi] |
| Reviews.ApprovedRatings | controllers/reviewController.js:260-266 | the ratings of exactly the listing's approved reviews, empty exactly when it has none |
| Reviews.UpdatePostRating | controllers/reviewController.js:259-277 | only the reviewed listing's `rating` changes; with approved reviews it becomes their mean (rating times count equals their sum) and without any the ledger is unchanged |
| Reviews.UpdatePostRatingIdempotent | controllers/reviewController.js:259-277 | recomputing the rating twice is recomputing it once |
| Reviews.RatingStaysInScale | controllers/reviewController.js:259-277 | with all approved ratings between 1 and 5, the stored average is between 1 and 5 |
| Reviews.Verify | controllers/reviewController.js:169-210 | a rental review naming a booking needs a completed, ended stay of the reviewer; a sale review naming a payment needs a completed payment of the reviewer; otherwise 400; verified exactly when such evidence was named and found |
| Reviews.ReviewGuards | controllers/reviewController.js:103-167 | in order: no comment 500, no identity 401, an earlier review 400, missing reviewee 404, missing listing 404, reviewee not the owner 400 |
| Reviews.CreateReview | controllers/reviewController.js:103-257 | success appends one approved review, approved at now, by the requester about the owner, with the sanitised title, the trimmed comment and the parsed payment and booking links, then recomputes the listing's rating; a link that cannot be read makes the insert fail with 500, and once guards and verification pass with a numeric rating and readable links the review is always created; a refusal changes nothing |
| Reviews.CreateKeepsOneReviewPerPost | controllers/reviewController.js:122-134 | creating a review keeps "one review per reviewer per listing" |
| Reviews.SecondReviewRefused | controllers/reviewController.js:122-134 | a second review of the same listing by the same reviewer gives 400 and no new row |
| Reviews.UpdateReviewStatus | controllers/reviewController.js:279-325 | a status other than pending, approved or rejected gives 400; a missing review gives 404; an unreadable id, or a non-pending status without a moderator, gives 500; otherwise the update succeeds; the moderator is unset exactly for pending, and the approval time is set exactly for approved |
| Reviews.BackToPendingClearsModeration | controllers/reviewController.js:296-301 | sending a review back to pending clears both the moderator and the approval time |
| Reviews.ModerationKeepsReviews | controllers/reviewController.js:279-325 | moderation keeps every review's id, author, listing and rating in place, and keeps ids distinct, one review per listing and ratings in scale |
| Reviews.RemoveReview | controllers/reviewController.js:352-355 | the review is removed and its listing's average recomputed |
| Reviews.DeleteReviewAsWritten | controllers/reviewController.js:327-367 | only the author may delete: 401, 404, then 403 for anyone else |
| Reviews.DeleteReview | controllers/reviewController.js:327-367 | the review is deleted exactly when the requester is its author or an administrator |
| Reviews.AdminDeleteRefusedAsWritten | controllers/reviewController.js:345-350 | as written, an administrator deleting another user's review gets 403 and the review stays |
| Reviews.AsWrittenAgreesForNonAdmins | controllers/reviewController.js:345-350 | for requesters who are not administrators both versions give the same answer |
| Reviews.GetUserReviews | controllers/reviewController.js:369-420 | an id `parseInt` cannot read fails; "received" lists exactly the approved reviews of the user, with a count and an average that is absent for none and otherwise times the count equals the ratings' sum; any other kind lists exactly the reviews the user wrote, without a summary |
| Reviews.ReceivedAverageInScale | controllers/reviewController.js:397-413 | with ratings from 1 to 5 the received average lies between 1 and 5 |
| Reviews.AdminRoute | middleware/verifyToken.js:4-53 | 401 "Not authenticated" without a token, 401 "User not found" when the account is gone, and then `shouldBeAdmin` on the stored role: passage exactly for an administrator or support account |
| Reviews.DeleteReviewRoute | routes/reviewRoute.js:32 | the delete route is the administrator gate followed by `deleteReview` as written |
| Reviews.RoutedDeleteOnlyByAdminAuthor | routes/reviewRoute.js:32 | through the route a review is deleted exactly when the requester is an administrator who wrote it |
| Reviews.ModerateRoute | routes/reviewRoute.js:34 | the status route is the administrator gate followed by `updateReviewStatus` |
| Reviews.RoutedModerationNamesAdmin | routes/reviewRoute.js:34 | through the route every recorded moderator is the requester, an administrator |
| Users.SavedEntry | controllers/userController.js:294-300 | the saved row of the pair, when there is one |
| Users.SavePost | controllers/userController.js:269-338 | 401, 400 invalid id, 404 missing listing; otherwise the pair is removed if saved (answer false) or added (answer true) |
| Users.RemoveEntryPairs | controllers/userController.js:302-305 | removing the pair's row removes exactly that pair |
| Users.SaveKeepsKeys | controllers/userController.js:294-329 | the toggle keeps saved row ids and (user, listing) pairs distinct |
| Users.ToggleTwiceRestores | controllers/userController.js:294-329 | two toggles restore the saved pairs, and the two answers differ |
| Common.OrKept | controllers/userController.js:127-161 | a sent field replaces the stored one even when empty or `false`; only a field left out keeps the stored value |
| Users.UpsertProfile | controllers/userController.js:127-161 | an existing profile takes every sent field; a new one is created with "" for fields not sent |
| Users.UpdatedAccount | controllers/userController.js:110-125 | only username, email, avatar and password hash change; each non-empty sent field replaces its column (the password hashed); with nothing sent the account is unchanged |
| Users.UpdatedAccountIdempotent | controllers/userController.js:110-125 | applying the same update twice is applying it once |
| Users.UpdateUser | controllers/userController.js:70-186 | an id `parseInt` cannot read makes the store lookup fail (500); 404 for a missing account; 400 for a username, then an email, already taken by another account; success exactly when none of these apply, writing the updated account and upserting the profile, nothing else |
| Users.UpdateKeepsAccountKeys | controllers/userController.js:88-108 | an update never lets two accounts share a username or email |
| Users.EmptyFieldsKeepAccount | controllers/userController.js:110-125 | fields sent as empty text leave the account row unchanged |
| Users.UpdateOwnAccount | controllers/userController.js:70-186 | 401 without a token; 403 when the URL names another account; for the holder the result is exactly `updateUser`'s; success only for the holder |
| Users.RemoveAccount | controllers/userController.js:203-220 | the user, its profile, its saved rows and its listings are removed; nothing else |
| Users.RemoveAccountKeepsKeys | controllers/userController.js:203-220 | deleting an account keeps usernames, emails and ids distinct and each saved pair unique, and no account with that id remains |
| Users.DeleteUser | controllers/userController.js:188-229 | a bad id 500, missing 404, otherwise the account and its rows are removed, whoever asks |
| Users.DeleteOwnAccount | controllers/userController.js:188-229 | the delete with an owner check: anyone but the holder gets 403 |
| Users.StrangerDeletesAccount | controllers/userController.js:188-229 | as written, any signed-in user deletes another user's account |
| Users.StrangerRenamesAccount | controllers/userController.js:70-186 | as written, any signed-in user renames another user's account |
| Chats.ReceiverIsTheOtherSide | controllers/chatController.js:96-99 | in a chat between two people, each participant's receiver is the other one |
| Chats.ChatFor | controllers/chatController.js:51-79 | the chat with the id exactly when the user is its buyer or seller |
| Chats.MessagesOf | controllers/chatController.js:60-70 | exactly the messages of the chat |
| Chats.GetAllChats | controllers/chatController.js:3-37 | 401 without identity; otherwise exactly the chats the requester takes part in, each with its receiver |
| Chats.OpenChat | controllers/chatController.js:42-79 | 401, 400 invalid id, then 404 unless the requester takes part |
| Chats.MarkRead | controllers/chatController.js:81-94 | the reader's read time becomes now; other entries are kept |
| Chats.GetSingleChat | controllers/chatController.js:39-110 | after the guards, only the requester's read time in that chat changes |
| Chats.GetSingleChatOnlyMovesReadTime | controllers/chatController.js:39-110 | reading a chat changes only the requester's read time on that chat; reading it again later shows the same chat and messages |
| Chats.ReadChat | controllers/chatController.js:254-351 | after the guards, the requester's read time is set and only the chat's unread messages from others are marked |
| Chats.ReadChatLeavesNothingUnread | controllers/chatController.js:321-331 | afterwards no message another participant sent in that chat is unread |
| Chats.ReadChatTwiceKeepsMessages | controllers/chatController.js:321-331 | reading again later changes no message |
| Chats.AddChatGuards | controllers/chatController.js:115-167 | guards in order: 401; 400 when `postId` or `receiverId` is falsy (the text "0" passes); 400 when one cannot be read as a number; 404 listing; 404 receiver; 400 for a chat with oneself; 400 "Receiver must be the post owner" when neither side owns the listing; on the remaining inputs it passes exactly when the requester or the receiver owns the listing |
| Chats.IntendedRolesPairOwnerWithOther | controllers/chatController.js:159-167 | with the intended role assignment the owner is seller and the other party buyer, so both take part |
| Chats.WrittenRolesDropOwner | controllers/chatController.js:159-161 | as written, an owner-started chat names the receiver on both sides and not the owner |
| Chats.ExistingChat | controllers/chatController.js:168-178 | the chat of the listing with that buyer and seller, if any |
| Chats.AddChatWith | controllers/chatController.js:168-200 | an existing chat is returned unchanged; otherwise one chat is appended with empty read times |
| Chats.AddChatAsWritten | controllers/chatController.js:112-252 | as written: an owner who opens a chat gets buyer = seller = receiver |
| Chats.AddChat | controllers/chatController.js:112-252 | whoever opens a chat takes part in it: an owner stays seller and the receiver becomes buyer |
| Chats.AddChatReuses | controllers/chatController.js:168-194 | opening a chat keeps one chat per (listing, buyer, seller), and opening it again returns the same chat |
| Chats.OwnerLockedOutAsWritten | controllers/chatController.js:159-161 | as written, an owner who opens a chat cannot read it afterwards (404); with the correction they can |
| Messages.Touch | controllers/messageController.js:54-67 | sending moves the chat's `updatedAt` to now and records the sender's read time as now, leaving every other participant's read time and every other field unchanged |
| Messages.AddMessage | controllers/messageController.js:4-123 | 401, 400 invalid chat id, 400 missing or blank content, 404 unless the requester takes part; success stores the trimmed, unread message seen only by its sender and touches the chat |
| Messages.BlankMessageRefused | controllers/messageController.js:19-23 | whitespace-only content gives 400 and stores nothing |
| Messages.SentMessageShape | controllers/messageController.js:41-48 | a stored message is not blank, has no surrounding whitespace and goes to the other participant |
| Messages.OwnMessageStaysUnmarked | controllers/messageController.js:41-67 | the sender's own message is unchanged when the sender reads the chat afterwards |
| Auth.IndexOf | controllers/authControllers.js:15 | the first position of the character, none exactly when absent |
| Auth.EmailValidSound | controllers/authControllers.js:15-19 | every address the check accepts matches `^[^\s@]+@[^\s@]+\.[^\s@]+$` |
| Auth.EmailValidComplete | controllers/authControllers.js:15-19 | every address that matches the pattern passes the check |
| Auth.EmailValidMatches | controllers/authControllers.js:15-19 | the check accepts exactly the addresses the pattern matches |
| Auth.EmailExamples | controllers/authControllers.js:15-19 | "a@b.co" passes; "a@b", "@b.co", "a b@c.de" and "a@b@c.de" fail |
| Auth.ViewOf | controllers/authControllers.js:68 | the account as answered, without its password hash |
| Auth.AdminGate | controllers/testController.js:11-24 | 403 "Admin access required" exactly for roles other than admin and support |
| Auth.UserByKey | controllers/authControllers.js:30-43 | the lookup by username or by email: an account holding that value if there is one, and None exactly when no account does |
| Auth.Register | controllers/authControllers.js:6-88 | in order: 400 missing fields, bad email, short password, taken username, taken email; success adds one "user" account with a hashed password and an empty profile |
| Auth.RegisterKeepsAccountKeys | controllers/authControllers.js:29-66 | registration keeps ids, usernames and emails distinct |
| Auth.Login | controllers/authControllers.js:90-152 | 400 for a missing field; 401 "Invalid credentials" for an unknown name or a wrong password; success returns the account without its hash and `isAdmin` exactly for admin or support |
| Auth.LoginFailuresAlike | controllers/authControllers.js:108-120 | an unknown user and a wrong password get the identical answer |
| Auth.AdminLoginPassesGate | controllers/authControllers.js:146 | whoever logs in as an administrator passes the administrator gate |
| Auth.RegisterThenLogin | controllers/authControllers.js:51-146 | after registering, logging in with the same password succeeds as a non-administrator |

## Left out

- Gateway calls (`paymentIntents.create/retrieve`, `customers.create/update`, `paymentMethods.attach/detach`, `webhooks.constructEvent`) are oracle parameters or outcome values. Their network behaviour is not modelled.
- The AES-256-GCM `encrypt`/`decrypt` helpers (controllers/paymentController.js:10-37) are not modelled. No handler calls them.
- Concurrency and transaction isolation are not modelled. Each handler is one atomic step, so two concurrent confirmations cannot race in the model.
- jwt signing and verification, bcrypt hashing and comparison, cookies, socket.io emits and the JSON response shapes are left out. Status codes are collapsed into a `Status` class plus the exact message.
- Timezones are left out. `setHours(0,0,0,0)` is midnight on one UTC millisecond timeline. `new Date()` is the `now` parameter.
- Floating point is not modelled. `parseFloat` and the payment amounts are exact rationals plus a signed `Infinity`, and the rating mean is an exact `real`. NaN appears only as a failed read. The `parseFloat` listing fields (coordinates, fees, taxes) are not modelled.
- `getAllPayments`, `getSinglePayment`, `getUsers`, `getSingleUser`, `profilePosts`, `getAllReviews`, `getSingleReview` and `logout` are left out. They are read-only queries or cookie clearing with no rule beyond the query.
- `adminDeleteUser` is left out. Its deletion steps are those of `deleteUser`, modelled as `Users.RemoveAccount`.
- The booking, sale and notification controllers, the config files and most routes are left out. They are wiring or one-field queries. The review routes' administrator gate is modelled (`Reviews.AdminRoute`), because it changes who may delete or moderate.
- Token validity is folded into `requester`: a token that fails `jwt.verify` (403 "Invalid Token") is not modelled separately from a missing one.
- Error messages forwarded from the store or the runtime (`error.message`) are replaced by the handler's fallback text. Card errors from the gateway keep the gateway's message.
- Posts.GetAllPosts: the database's `createdAt` ordering is taken to be the ledger's insertion order. `Posts.CatalogueNewestFirst` proves the order by creation time only under that assumption.
- Posts.NumberOf: `Number()` of a price bound is modelled only for blank text (0) and digit strings. Signs, decimals and exponents give "no bound".
- Text.Contains: Prisma's `contains` filter is modelled as case-sensitive substring search. Case-insensitive collations are not modelled.
- Text.ToUpper: `toUpperCase` and `toLowerCase` are modelled on ASCII letters only.
- Posts.GetAllPosts: a page below 1 gives a negative `skip`, which the store rejects (500). The model also answers 500 "Failed to get posts" for a negative limit, whereas the store reads a negative `take` on page 1 backwards from the end; that backward read is not modelled.
- Reviews.GetUserReviews: paging and the `createdAt` ordering of the list are not modelled. The list and summary cover every matching review.
- Chats.GetAllChats: the `updatedAt` ordering of the list is not modelled.
- Reviews.UpdateReviewStatus: the moderator id comes from `req.userId`. An absent one is modelled as the database rejecting the write (500 "Failed to update review").
- Auth.Register: the profile created by `userProfile: { create: {} }` takes the schema's column defaults. The schema is not part of this model, so they are taken to be empty text.
- Auth.Register: password length counts characters, not UTF-16 code units.
- Posts.Cascade: chat messages of a deleted listing's chats are not deleted by the code, and the model keeps them too.
- Reviews.CreateReview: the rating is stored as sent. The code has no range check, so `Reviews.RatingStaysInScale` assumes ratings 1 to 5.
- Payments.CreatePaymentIntent: `paymentMethod` and `description` are read but never validated by this handler, and neither is the currency. The model ignores all three.
- Payments.Settle: turning the client's `startDate` and `endDate` into instants (`new Date`) is not modelled. The model receives either an instant or an Invalid Date. `JSON.stringify` of `purchaseOptions` is not modelled either: the parameter is the serialised text of a truthy value.
- Reviews.ReviewGuards: the answer to a missing comment assumes Express 5, which forwards the rejected async handler to its default error handler (500). Under Express 4, which the server does not rule out, no response is sent and Node ends the process on the unhandled rejection.
- Payments.CleanupStalePayments: the sweep is one atomic step. It runs as an interactive transaction (controllers/paymentController.js:542-577), which Prisma aborts after 5 seconds by default. That timeout is not modelled, so the model never shows an aborted sweep or the 500 "Failed to clean up payments" answer it would cause.
- Users.RemoveAccount: the store is assumed to accept every delete in the sequence. Foreign-key refusals and the schema's referential actions are not modelled, because the schema is not part of this model, so the 500 "Failed to delete user!" path is never taken.
- Users.DeleteUser: inherits the `Users.RemoveAccount` assumption. It answers 200 for an account with listings even where a schema without cascading deletes would refuse the write with 500.
- Posts.NewPost: `isActive` true, `isPaid` false and `rating` 0 are the schema's column defaults, which the code does not set. The schema is not part of this model, so these values are taken as given.
- Posts.NumbersRead: a numeric field that `parseInt` cannot read gives NaN. The model takes the store to refuse NaN in an integer column, answering 500.
- Validation.HolderNameValid: the holder name's length is counted in characters, not UTF-16 code units.

## Findings

| source | as written | input that shows it | evidently intended | confidence | as-written member | corrected member |
|---|---|---|---|---|---|---|
| controllers/reviewController.js:345-350 | the administrator override tests `req.adminId`, which the token middleware never sets (middleware/verifyToken.js:44-46 sets only `userId`, `userRole` and `user`) | an administrator deletes a review written by someone else: 403 "Not authorized to delete this review" | the author or an administrator may delete | not executed | Reviews.AdminDeleteRefusedAsWritten | Reviews.DeleteReview |
| controllers/userController.js:188-229 | `deleteUser` deletes the account named in the URL for any signed-in requester; the routes keep a separate administrator delete (routes/userRoute.js:20-21) | user 2 deletes user 1's account: 200 and the account is gone | only the account's holder deletes through this route (403 otherwise) | not executed | Users.StrangerDeletesAccount | Users.DeleteOwnAccount |
| controllers/userController.js:70-186 | `updateUser` updates the account named in the URL for any signed-in requester | user 2 renames user 1: 200 and the name changes | only the account's holder updates it (403 otherwise) | not executed | Users.StrangerRenamesAccount | Users.UpdateOwnAccount |
| controllers/chatController.js:159-161 | when the requester owns the listing, both `buyerId` and `sellerId` are set to the receiver, so the requester is not a participant | the owner opens a chat with user 2, then reads it: 404 "Chat not found or you are not authorized" | the owner stays seller and the receiver becomes buyer | not executed | Chats.OwnerLockedOutAsWritten | Chats.AddChat |

=== FILE: auth.dfy ===
/** Registration and login (`controllers/authControllers.js`), with the
    role test that both the login response and the administrator gate
    use. Password hashing and its comparison are parameters. */
module Auth {
  import opened Common
  import opened Text
  import opened Ledger
  import opened Users

  // ---------------------------------------------------------------------
  // The e-mail pattern ^[^\s@]+@[^\s@]+\.[^\s@]+$
  // ---------------------------------------------------------------------

  /** Text that the class `[^\s@]` accepts at every position. */
  predicate Plain(t: string)
  {
    forall i :: 0 <= i < |t| ==> t[i] != '@' && !IsSpace(t[i])
  }

  /** The pattern's meaning: an '@' and a later '.' split the address into
      three non-empty plain parts. */
  predicate EmailMatches(s: string)
  {
    exists at, dot :: 0 < at && at + 1 < dot && dot + 1 < |s| && s[at] == '@' && s[dot] == '.'
      && Plain(s[..at]) && Plain(s[at + 1..dot]) && Plain(s[dot + 1..])
  }

  /** The first position of `c` in `s`. */
  function IndexOf(s: string, c: char): (r: Option<nat>)
    ensures r.Some? ==> r.value < |s| && s[r.value] == c && c !in s[..r.value]
    ensures r.None? ==> c !in s
  {
    if |s| == 0 then None
    else if s[0] == c then Some(0)
    else
      match IndexOf(s[1..], c)
      case None => None
      case Some(i) =>
        assert s[..i + 1] == [s[0]] + s[1..][..i];
        Some(i + 1)
  }

  /** The pattern as a check: everything before the first '@' is plain and
      non-empty, everything after it is plain, and a '.' sits strictly
      inside what follows. */
  predicate EmailValid(s: string)
  {
    match IndexOf(s, '@')
    case None => false
    case Some(at) =>
      var rest := s[at + 1..];
      at > 0 && Plain(s[..at]) && Plain(rest) && |rest| >= 3 && '.' in rest[1..|rest| - 1]
  }

  /** Every address the check accepts matches the pattern. */
  lemma EmailValidSound(s: string)
    requires EmailValid(s)
    ensures EmailMatches(s)
  {
    var at := IndexOf(s, '@').value;
    var rest := s[at + 1..];
    var middle := rest[1..|rest| - 1];
    var k :| 0 <= k < |middle| && middle[k] == '.';
    var dot := at + 2 + k;
    assert s[dot] == rest[k + 1] == '.';
    PlainSlice(rest, 0, k + 1);
    assert s[at + 1..dot] == rest[0..k + 1];
    PlainSlice(rest, k + 2, |rest|);
    assert s[dot + 1..] == rest[k + 2..|rest|];
    MatchesAt(s, at, dot);
  }

  /** A slice of plain text is plain. */
  lemma PlainSlice(t: string, i: nat, j: nat)
    requires Plain(t) && i <= j <= |t|
    ensures Plain(t[i..j])
  {
    forall k | 0 <= k < j - i
      ensures t[i..j][k] != '@' && !IsSpace(t[i..j][k])
    {
      assert t[i..j][k] == t[i + k];
    }
  }

  /** An '@' and a later '.' that split the address into three non-empty
      plain parts make a match. */
  lemma MatchesAt(s: string, at: nat, dot: nat)
    requires 0 < at && at + 1 < dot && dot + 1 < |s| && s[at] == '@' && s[dot] == '.'
    requires Plain(s[..at]) && Plain(s[at + 1..dot]) && Plain(s[dot + 1..])
    ensures EmailMatches(s)
  {
  }

  /** A match puts the first '@' at the match's '@'. */
  lemma MatchAtIsFirst(s: string, at: nat)
    requires at < |s| && s[at] == '@' && Plain(s[..at])
    ensures IndexOf(s, '@') == Some(at)
  {
    assert s[at] in s;
    assert forall i :: 0 <= i < at ==> s[..at][i] == s[i];
    var f := IndexOf(s, '@').value;
    assert f <= at by {
      assert forall i :: 0 <= i < f ==> s[..f][i] == s[i];
    }
  }

  /** Every address that matches the pattern passes the check. */
  lemma EmailValidComplete(s: string)
    requires EmailMatches(s)
    ensures EmailValid(s)
  {
    var at, dot :| 0 < at && at + 1 < dot && dot + 1 < |s| && s[at] == '@' && s[dot] == '.'
      && Plain(s[..at]) && Plain(s[at + 1..dot]) && Plain(s[dot + 1..]);
    ValidFromSplit(s, at, dot);
  }

  /** The check passes for an address split by a given '@' and '.'. */
  lemma ValidFromSplit(s: string, at: nat, dot: nat)
    requires 0 < at && at + 1 < dot && dot + 1 < |s| && s[at] == '@' && s[dot] == '.'
    requires Plain(s[..at]) && Plain(s[at + 1..dot]) && Plain(s[dot + 1..])
    ensures EmailValid(s)
  {
    var rest := s[at + 1..];
    assert rest[..dot - at - 1] == s[at + 1..dot];
    assert rest[dot - at..] == s[dot + 1..];
    MatchAtIsFirst(s, at);
    PlainAroundDot(rest, dot - at - 1);
    assert rest[1..|rest| - 1][dot - at - 2] == '.';
  }

  /** Two plain parts joined by a '.' are plain. */
  lemma PlainAroundDot(t: string, dot: nat)
    requires dot < |t| && t[dot] == '.' && Plain(t[..dot]) && Plain(t[dot + 1..])
    ensures Plain(t)
  {
    forall i | 0 <= i < |t|
      ensures t[i] != '@' && !IsSpace(t[i])
    {
      if i < dot {
        assert t[i] == t[..dot][i];
      } else if i > dot {
        assert t[i] == t[dot + 1..][i - dot - 1];
      }
    }
  }

  /** The check accepts exactly the addresses the pattern matches. */
  lemma EmailValidMatches(s: string)
    ensures EmailValid(s) <==> EmailMatches(s)
  {
    if EmailValid(s) {
      EmailValidSound(s);
    }
    if EmailMatches(s) {
      EmailValidComplete(s);
    }
  }

  /** Worked cases of the pattern. */
  lemma EmailExamples()
    ensures EmailValid("a@b.co")
    ensures !EmailValid("a@b") && !EmailValid("@b.co") && !EmailValid("a b@c.de") && !EmailValid("a@b@c.de")
  {
    assert IndexOf("a@b.co", '@') == Some(1);
    assert "a@b.co"[2..][1..3][0] == '.';
    assert IndexOf("a@b", '@') == Some(1);
    assert IndexOf("@b.co", '@') == Some(0);
    assert IndexOf("a b@c.de", '@') == Some(3);
    assert "a b@c.de"[..3][1] == ' ';
    assert IndexOf("a@b@c.de", '@') == Some(1);
    assert "a@b@c.de"[2..][1] == '@';
  }

  // ---------------------------------------------------------------------
  // Accounts as shown to clients
  // ---------------------------------------------------------------------

  /** An account without its password hash. */
  datatype AccountView = AccountView(id: nat, username: string, email: string, avatar: Option<string>, role: string)

  function ViewOf(u: User): (r: AccountView)
    ensures r.id == u.id && r.username == u.username && r.email == u.email && r.role == u.role
  {
    AccountView(u.id, u.username, u.email, u.avatar, u.role)
  }

  /** The roles that count as administrators, for the login response and
      for the administrator gate alike. */
  predicate IsAdmin(role: string)
  {
    role == "admin" || role == "support"
  }

  /** The administrator gate in front of moderation and deletion routes. */
  function AdminGate(role: string): (r: Result<()>)
    ensures r.Ok? <==> IsAdmin(role)
    ensures r.Err? ==> r == Fail(Forbidden, "Admin access required")
  {
    if role != "admin" && role != "support" then Fail(Forbidden, "Admin access required") else Ok(())
  }

  // ---------------------------------------------------------------------
  // register
  // ---------------------------------------------------------------------

  datatype Registration = Registration(username: Option<string>, email: Option<string>, password: Option<string>)

  /** The two unique account columns that `register` and `login` look up. */
  datatype AccountKey = Username | Email

  function KeyOf(u: User, key: AccountKey): string
  {
    match key
    case Username => u.username
    case Email => u.email
  }

  /** `findUnique` on a unique account column: the account holding `v`
      there, or None when no account does. */
  function UserByKey(l: Ledger, key: AccountKey, v: string): (r: Option<User>)
    ensures r.Some? ==> r.value in l.users && KeyOf(r.value, key) == v
    ensures r.None? <==> forall u :: u in l.users ==> KeyOf(u, key) != v
  {
    Find(l.users, (u: User) => KeyOf(u, key) == v)
  }

  /** `register`: all three fields present, a well-formed address, a
      password of at least six characters, a free username (checked
      first) and a free address; then the account with role "user" and an
      empty profile. The response leaves the password out. */
  function Register(l: Ledger, b: Registration, hash: string -> string): (s: Step<AccountView>)
    ensures s.result.Err? ==> s.ledger == l
    ensures !Given(b.username) || !Given(b.email) || !Given(b.password) ==> s.result == Fail(BadRequest, "All fields are required")
    ensures (Given(b.username) && Given(b.email) && Given(b.password) && !EmailMatches(b.email.value)) ==>
      s.result == Fail(BadRequest, "Invalid email format")
    ensures (Given(b.username) && Given(b.email) && Given(b.password) && EmailMatches(b.email.value) && |b.password.value| < 6) ==>
      s.result == Fail(BadRequest, "password must be at least 6 characters")
    ensures (Given(b.username) && Given(b.email) && Given(b.password) && EmailMatches(b.email.value) && |b.password.value| >= 6 &&
             UserByKey(l, Username, b.username.value).Some?) ==> s.result == Fail(BadRequest, "Username already taken")
    ensures (Given(b.username) && Given(b.email) && Given(b.password) && EmailMatches(b.email.value) && |b.password.value| >= 6 &&
             UserByKey(l, Username, b.username.value).None? && UserByKey(l, Email, b.email.value).Some?) ==>
      s.result == Fail(BadRequest, "Email already registered")
    ensures s.result.Ok? <==>
      Given(b.username) && Given(b.email) && Given(b.password) && EmailMatches(b.email.value) && |b.password.value| >= 6 &&
      UserByKey(l, Username, b.username.value).None? && UserByKey(l, Email, b.email.value).None?
    ensures s.result.Ok? ==>
      var v := s.result.value;
      && v.username == b.username.value && v.email == b.email.value && v.role == "user" && v.avatar.None?
      && (forall u :: u in l.users ==> u.id != v.id)
      && s.ledger == l.(users := l.users + [User(v.id, v.username, v.email, hash(b.password.value), None, "user", None)],
                        profiles := l.profiles + [Profile(v.id, "", "", "", "", "")])
  {
    if !Given(b.username) || !Given(b.email) || !Given(b.password) then Refuse(l, BadRequest, "All fields are required")
    else if !EmailValid(b.email.value) then
      EmailValidMatches(b.email.value);
      Refuse(l, BadRequest, "Invalid email format")
    else if |b.password.value| < 6 then
      EmailValidMatches(b.email.value);
      Refuse(l, BadRequest, "password must be at least 6 characters")
    else if UserByKey(l, Username, b.username.value).Some? then
      EmailValidMatches(b.email.value);
      Refuse(l, BadRequest, "Username already taken")
    else if UserByKey(l, Email, b.email.value).Some? then
      EmailValidMatches(b.email.value);
      Refuse(l, BadRequest, "Email already registered")
    else
      EmailValidMatches(b.email.value);
      var u := User(NextId(l.users, (x: User) => x.id), b.username.value, b.email.value, hash(b.password.value), None, "user", None);
      Step(l.(users := l.users + [u], profiles := l.profiles + [Profile(u.id, "", "", "", "", "")]), Ok(ViewOf(u)))
  }

  /** Registration keeps ids, usernames and addresses distinct. */
  lemma RegisterKeepsAccountKeys(l: Ledger, b: Registration, hash: string -> string)
    requires AccountKeys(l.users)
    ensures AccountKeys(Register(l, b, hash).ledger.users)
  {
    var s := Register(l, b, hash);
    if s.result.Ok? {
      var us := s.ledger.users;
      forall i, j | 0 <= i < j < |us|
        ensures us[i].id != us[j].id && us[i].username != us[j].username && us[i].email != us[j].email
      {
        if j == |us| - 1 {
          assert us[i] in l.users;
        }
      }
    }
  }

  // ---------------------------------------------------------------------
  // login
  // ---------------------------------------------------------------------

  /** A successful login: the account without its password, and whether
      its role is an administrator's. The signed token is not modelled. */
  datatype Session = Session(account: AccountView, isAdmin: bool)

  /** `login`: both fields present, then an unknown username and a wrong
      password fail alike. `verify(password, hash)` is the hash
      comparison. */
  function Login(l: Ledger, username: Option<string>, password: Option<string>, verify: (string, string) -> bool): (r: Result<Session>)
    ensures !Given(username) || !Given(password) ==> r == Fail(BadRequest, "username and password are required")
    ensures (Given(username) && Given(password) && UserByKey(l, Username, username.value).None?) ==> r == Fail(Unauthorized, "Invalid credentials")
    ensures (Given(username) && Given(password) && UserByKey(l, Username, username.value).Some? &&
             !verify(password.value, UserByKey(l, Username, username.value).value.passwordHash)) ==> r == Fail(Unauthorized, "Invalid credentials")
    ensures r.Ok? <==> Given(username) && Given(password) && UserByKey(l, Username, username.value).Some? &&
                       verify(password.value, UserByKey(l, Username, username.value).value.passwordHash)
    ensures r.Ok? ==>
      && r.value.account == ViewOf(UserByKey(l, Username, username.value).value)
      && (r.value.isAdmin <==> IsAdmin(r.value.account.role))
  {
    if !Given(username) || !Given(password) then Fail(BadRequest, "username and password are required")
    else
      match UserByKey(l, Username, username.value)
      case None => Fail(Unauthorized, "Invalid credentials")
      case Some(u) =>
        if !verify(password.value, u.passwordHash) then Fail(Unauthorized, "Invalid credentials")
        else Ok(Session(ViewOf(u), u.role == "admin" || u.role == "support"))
  }

  /** A login response never tells an unknown user from a wrong password. */
  lemma LoginFailuresAlike(l: Ledger, known: string, unknown: string, password: string, verify: (string, string) -> bool)
    requires known != "" && unknown != "" && password != ""
    requires UserByKey(l, Username, unknown).None?
    requires UserByKey(l, Username, known).Some? && !verify(password, UserByKey(l, Username, known).value.passwordHash)
    ensures Login(l, Some(unknown), Some(password), verify) == Login(l, Some(known), Some(password), verify)
  {
  }

  /** Whoever passes the login as an administrator passes the
      administrator gate, and no one else does. */
  lemma AdminLoginPassesGate(l: Ledger, username: Option<string>, password: Option<string>, verify: (string, string) -> bool)
    requires Login(l, username, password, verify).Ok?
    ensures var s := Login(l, username, password, verify).value;
      s.isAdmin <==> AdminGate(s.account.role).Ok?
  {
  }

  /** Register then log in: with a hash that the comparison accepts, the
      new account logs in with its password, as an ordinary user. */
  lemma RegisterThenLogin(l: Ledger, b: Registration, hash: string -> string, verify: (string, string) -> bool)
    requires Register(l, b, hash).result.Ok?
    requires forall p :: verify(p, hash(p))
    ensures var s := Register(l, b, hash);
      var r := Login(s.ledger, b.username, b.password, verify);
      r.Ok? && r.value.account == s.result.value && !r.value.isAdmin
  {
    var s := Register(l, b, hash);
    var v := s.result.value;
    var u := User(v.id, v.username, v.email, hash(b.password.value), None, "user", None);
    assert s.ledger.users == l.users + [u];
    var found := UserByKey(s.ledger, Username, b.username.value);
    assert found.Some? by { assert u in s.ledger.users; }
    assert forall x :: x in l.users ==> x.username != b.username.value;
  }
}

=== FILE: cards.dfy ===
/** Stored payment cards (`getUserCards`, `addPaymentCard`,
    `deletePaymentCard` in `controllers/paymentController.js`). The card
    gateway's answers are parameters of each handler. */
module Cards {
  import opened Common
  import opened Ledger

  /** The answer of one gateway call: a value, a card error (answered with
      400 and the gateway's message), or any other failure (500). */
  datatype Call<T> = Done(value: T) | CardError(message: string) | CallFailed

  /** The attached payment method as the gateway describes it. */
  datatype AttachedMethod = AttachedMethod(
    id: string,
    last4: string,
    brand: string,
    expMonth: int,
    expYear: int,
    holderName: Option<string>)

  /** The answer for a failed gateway call: a card error passes the
      gateway's message on with 400, anything else is 500 with the
      handler's own text. */
  function CallFailure<T>(c: Call<T>): (f: Failure)
    requires !c.Done?
    ensures c.CardError? ==> f == Failure(BadRequest, c.message)
    ensures c.CallFailed? ==> f == Failure(ServerError, "Failed to add payment card")
  {
    if c.CardError? then Failure(BadRequest, c.message) else Failure(ServerError, "Failed to add payment card")
  }

  // ---------------------------------------------------------------------
  // Listing
  // ---------------------------------------------------------------------

  const MaskPrefix: string := "•••• •••• •••• "

  /** A listed card: the row and the masked number shown in place of the
      real one. */
  datatype CardView = CardView(card: Card, cardNumber: string)

  /** The rows the listing query selects: the user's active cards. */
  function ActiveCardsOf(l: Ledger, userId: nat): (r: seq<Card>)
    ensures forall i :: 0 <= i < |r| ==> r[i] in l.cards && r[i].userId == userId && r[i].isActive
    ensures forall c :: c in l.cards && c.userId == userId && c.isActive ==> c in r
  {
    Filter(l.cards, (c: Card) => c.userId == userId && c.isActive)
  }

  function Mask(c: Card): CardView
  {
    CardView(c, MaskPrefix + c.lastFour)
  }

  /** The cards behind a listing, in listing order. */
  function CardsOf(views: seq<CardView>): (r: seq<Card>)
    ensures |r| == |views|
    ensures forall i :: 0 <= i < |views| ==> r[i] == views[i].card
  {
    seq(|views|, i requires 0 <= i < |views| => views[i].card)
  }

  /** The listing order: default cards, then the others. */
  function DefaultsFirst(cards: seq<Card>): (r: seq<Card>)
    ensures multiset(r) == multiset(cards)
    ensures forall i, j :: 0 <= i < j < |r| && r[j].isDefault ==> r[i].isDefault
  {
    var parts := Partition(cards, (c: Card) => c.isDefault);
    var r := parts.0 + parts.1;
    forall i, j | 0 <= i < j < |r| && r[j].isDefault
      ensures r[i].isDefault
    {
      assert r[j] !in parts.1;
      assert forall k :: |parts.0| <= k < |r| ==> r[k] in parts.1;
      assert r[i] in parts.0;
    }
    r
  }

  /** `getUserCards`: the requester's active cards, default cards first,
      each shown with only its last four digits. */
  function GetUserCards(l: Ledger, requester: nat): (r: Result<seq<CardView>>)
    ensures r.Err? <==> requester == 0
    ensures r.Err? ==> r.failure == Failure(Unauthorized, "Not authenticated")
    ensures r.Ok? ==>
      && multiset(CardsOf(r.value)) == multiset(ActiveCardsOf(l, requester))
      && (forall i :: 0 <= i < |r.value| ==> r.value[i].cardNumber == MaskPrefix + r.value[i].card.lastFour)
      && (forall i, j :: 0 <= i < j < |r.value| && r.value[j].card.isDefault ==> r.value[i].card.isDefault)
  {
    if requester == 0 then Fail(Unauthorized, "Not authenticated")
    else
      var ordered := DefaultsFirst(ActiveCardsOf(l, requester));
      var views := seq(|ordered|, i requires 0 <= i < |ordered| => Mask(ordered[i]));
      assert CardsOf(views) == ordered;
      Ok(views)
  }

  /** Every active card of the requester is listed, and nothing else. */
  lemma ListingIsExactlyActiveCards(l: Ledger, requester: nat, c: Card)
    requires requester != 0
    ensures var views := GetUserCards(l, requester).value;
      (exists i :: 0 <= i < |views| && views[i].card == c) <==> c in l.cards && c.userId == requester && c.isActive
  {
    var views := GetUserCards(l, requester).value;
    var cards := CardsOf(views);
    var mine := ActiveCardsOf(l, requester);
    assert multiset(cards) == multiset(mine);
    if c in l.cards && c.userId == requester && c.isActive {
      assert c in multiset(mine);
      assert c in cards;
      var i :| 0 <= i < |cards| && cards[i] == c;
      assert views[i].card == c;
    }
    if exists i :: 0 <= i < |views| && views[i].card == c {
      var i :| 0 <= i < |views| && views[i].card == c;
      assert cards[i] == c;
      assert c in multiset(mine);
    }
  }

  // ---------------------------------------------------------------------
  // Adding a card
  // ---------------------------------------------------------------------

  /** Record the gateway customer id on the user's row: that account now
      carries the id, no other column and no other row changes. */
  function SetCustomerId(l: Ledger, userId: nat, customerId: string): (r: Ledger)
    ensures r == l.(users := r.users) && |r.users| == |l.users|
    ensures forall i :: 0 <= i < |l.users| ==> r.users[i] == l.users[i].(stripeCustomerId := r.users[i].stripeCustomerId)
    ensures forall i :: 0 <= i < |l.users| && l.users[i].id == userId ==> r.users[i].stripeCustomerId == Some(customerId)
    ensures forall i :: 0 <= i < |l.users| && l.users[i].id != userId ==> r.users[i] == l.users[i]
  {
    l.(users := seq(|l.users|, i requires 0 <= i < |l.users| =>
         if l.users[i].id == userId then l.users[i].(stripeCustomerId := Some(customerId)) else l.users[i]))
  }

  /** The `updateMany` that takes the default flag off the user's cards:
      afterwards none of them is the default, other users' cards are
      untouched and only the flag changes. */
  function ClearDefaults(cards: seq<Card>, userId: nat): (r: seq<Card>)
    ensures |r| == |cards|
    ensures forall i :: 0 <= i < |cards| ==> r[i] == cards[i].(isDefault := r[i].isDefault)
    ensures forall i :: 0 <= i < |cards| && cards[i].userId == userId ==> !r[i].isDefault
    ensures forall i :: 0 <= i < |cards| && cards[i].userId != userId ==> r[i] == cards[i]
  {
    seq(|cards|, i requires 0 <= i < |cards| =>
      if cards[i].userId == userId then cards[i].(isDefault := false) else cards[i])
  }

  /** A user has at most one default card. */
  predicate SingleDefault(cards: seq<Card>, userId: nat)
  {
    forall i, j :: 0 <= i < j < |cards| && cards[i].userId == userId && cards[j].userId == userId && cards[i].isDefault ==>
      !cards[j].isDefault
  }

  /** The row `paymentCard.create` inserts for an attached method. */
  function NewCard(l: Ledger, requester: nat, pm: AttachedMethod, makeDefault: bool): (c: Card)
    ensures c.userId == requester && c.isActive && c.isDefault == makeDefault
    ensures c.stripePaymentMethodId == Some(pm.id) && c.lastFour == pm.last4
    ensures c.holderName == OrText(pm.holderName, "")
    ensures forall d :: d in l.cards ==> d.id != c.id
  {
    Card(NextId(l.cards, (d: Card) => d.id), requester, Some(pm.id), pm.last4, pm.brand, pm.expMonth, pm.expYear,
         OrText(pm.holderName, ""), makeDefault, true)
  }

  /** Insert the new card; a default card first takes the flag off the
      requester's other cards. */
  function StoreCard(l: Ledger, requester: nat, pm: AttachedMethod, makeDefault: bool): (r: Ledger)
    ensures r == l.(cards := r.cards)
    ensures |r.cards| == |l.cards| + 1 && r.cards[|l.cards|] == NewCard(l, requester, pm, makeDefault)
    ensures forall i :: 0 <= i < |l.cards| ==>
      r.cards[i] == (if makeDefault && l.cards[i].userId == requester then l.cards[i].(isDefault := false) else l.cards[i])
  {
    var others := if makeDefault then ClearDefaults(l.cards, requester) else l.cards;
    l.(cards := others + [NewCard(l, requester, pm, makeDefault)])
  }

  /** `addPaymentCard`. The steps are not one transaction: the customer id
      is stored before the attach, and the new card and the cleared default
      flags are stored before the gateway's default-method update, so a late
      gateway failure leaves the earlier writes in place. */
  function AddPaymentCard(l: Ledger, requester: nat, token: Option<string>, isDefault: Option<bool>,
                          customer: Call<string>, attach: Call<AttachedMethod>, setDefault: Call<()>): (s: Step<Card>)
    ensures requester == 0 ==> s == Refuse(l, Unauthorized, "Not authenticated")
    ensures requester != 0 && !Given(token) ==> s == Refuse(l, BadRequest, "Payment token is required")
    ensures requester != 0 && Given(token) && UserById(l, requester).None? ==>
      s == Refuse(l, ServerError, "Failed to add payment card")
    ensures s.ledger == l.(users := s.ledger.users, cards := s.ledger.cards)
    ensures |s.ledger.users| == |l.users|
    ensures forall i :: 0 <= i < |l.users| && l.users[i].id != requester ==> s.ledger.users[i] == l.users[i]
    ensures |s.ledger.cards| == |l.cards| || |s.ledger.cards| == |l.cards| + 1
    ensures forall i :: 0 <= i < |l.cards| ==>
      s.ledger.cards[i] == l.cards[i] ||
      (l.cards[i].userId == requester && s.ledger.cards[i] == l.cards[i].(isDefault := false))
    ensures |s.ledger.cards| == |l.cards| + 1 ==>
      && requester != 0 && Given(token) && UserById(l, requester).Some? && attach.Done?
      && (Given(UserById(l, requester).value.stripeCustomerId) || customer.Done?)
      && s.ledger.cards[|l.cards|] == NewCard(l, requester, attach.value, isDefault == Some(true))
    ensures requester != 0 && Given(token) && UserById(l, requester).Some? &&
            (Given(UserById(l, requester).value.stripeCustomerId) || customer.Done?) && !attach.Done? ==>
      s.result == Err(CallFailure(attach))
    ensures requester != 0 && Given(token) && UserById(l, requester).Some? &&
            (Given(UserById(l, requester).value.stripeCustomerId) || customer.Done?) && attach.Done? &&
            (isDefault != Some(true) || setDefault.Done?) ==>
      s.result == Ok(NewCard(l, requester, attach.value, isDefault == Some(true)))
    ensures s.result.Ok? ==>
      && attach.Done?
      && |s.ledger.cards| == |l.cards| + 1
      && s.result.value == s.ledger.cards[|l.cards|]
      && s.result.value == NewCard(l, requester, attach.value, isDefault == Some(true))
  {
    if requester == 0 then Refuse(l, Unauthorized, "Not authenticated")
    else if !Given(token) then Refuse(l, BadRequest, "Payment token is required")
    else
      match UserById(l, requester)
      case None => Refuse(l, ServerError, "Failed to add payment card")
      case Some(user) =>
        if !Given(user.stripeCustomerId) && !customer.Done? then Step(l, Err(CallFailure(customer)))
        else
          var linked := if Given(user.stripeCustomerId) then l else SetCustomerId(l, requester, customer.value);
          assert linked.cards == l.cards;
          match attach
          case CardError(_) => Step(linked, Err(CallFailure(attach)))
          case CallFailed => Step(linked, Err(CallFailure(attach)))
          case Done(pm) =>
            var makeDefault := isDefault == Some(true);
            var stored := StoreCard(linked, requester, pm, makeDefault);
            if makeDefault && !setDefault.Done? then Step(stored, Err(CallFailure(setDefault)))
            else Step(stored, Ok(stored.cards[|l.cards|]))
  }

  /** A card added as default is afterwards the requester's only default
      card, even when the gateway's default update then fails. */
  lemma {:induction false} DefaultCardIsTheOnlyDefault(l: Ledger, requester: nat, token: Option<string>,
                                                       customer: Call<string>, attach: Call<AttachedMethod>,
                                                       setDefault: Call<()>)
    requires requester != 0 && Given(token) && UserById(l, requester).Some? && attach.Done?
    requires Given(UserById(l, requester).value.stripeCustomerId) || customer.Done?
    ensures var s := AddPaymentCard(l, requester, token, Some(true), customer, attach, setDefault);
      var cards := s.ledger.cards;
      && |cards| == |l.cards| + 1
      && cards[|l.cards|].userId == requester && cards[|l.cards|].isDefault
      && (forall i :: 0 <= i < |l.cards| && cards[i].userId == requester ==> !cards[i].isDefault)
      && SingleDefault(cards, requester)
  {
    var s := AddPaymentCard(l, requester, token, Some(true), customer, attach, setDefault);
    var user := UserById(l, requester).value;
    var linked := if Given(user.stripeCustomerId) then l else SetCustomerId(l, requester, customer.value);
    assert s.ledger.cards == StoreCard(linked, requester, attach.value, true).cards;
  }

  /** Adding a card never gives any user a second default card. */
  lemma AddKeepsSingleDefault(l: Ledger, requester: nat, token: Option<string>, isDefault: Option<bool>,
                              customer: Call<string>, attach: Call<AttachedMethod>, setDefault: Call<()>, u: nat)
    requires SingleDefault(l.cards, u)
    ensures SingleDefault(AddPaymentCard(l, requester, token, isDefault, customer, attach, setDefault).ledger.cards, u)
  {
    var s := AddPaymentCard(l, requester, token, isDefault, customer, attach, setDefault);
    var cards := s.ledger.cards;
    if |cards| == |l.cards| + 1 && isDefault == Some(true) && u == requester {
      DefaultCardIsTheOnlyDefault(l, requester, token, customer, attach, setDefault);
    } else {
      forall i, j | 0 <= i < j < |cards| && cards[i].userId == u && cards[j].userId == u && cards[i].isDefault
        ensures !cards[j].isDefault
      {
        if j < |l.cards| {
          assert cards[i] == l.cards[i];
          assert cards[j] == l.cards[j] || cards[j] == l.cards[j].(isDefault := false);
        } else {
          assert cards[j] == NewCard(l, requester, attach.value, isDefault == Some(true));
        }
      }
    }
  }

  /** The customer id the gateway issued is kept on the user even when the
      attach step then fails. */
  lemma CustomerIdOutlivesAttachFailure(l: Ledger, requester: nat, token: Option<string>, isDefault: Option<bool>,
                                        customerId: string, attach: Call<AttachedMethod>, setDefault: Call<()>)
    requires requester != 0 && Given(token) && UserById(l, requester).Some?
    requires !Given(UserById(l, requester).value.stripeCustomerId) && !attach.Done?
    ensures var s := AddPaymentCard(l, requester, token, isDefault, Done(customerId), attach, setDefault);
      && s.result.Err?
      && s.ledger == SetCustomerId(l, requester, customerId)
      && s.ledger.cards == l.cards
  {
  }

  // ---------------------------------------------------------------------
  // Deleting a card
  // ---------------------------------------------------------------------

  /** `deletePaymentCard`. The result value says whether a gateway detach
      was attempted (the card had a payment-method reference); `detached`
      is the detach's outcome, which the handler ignores. */
  function DeletePaymentCard(l: Ledger, requester: nat, cardId: Param, detached: bool): (s: Step<bool>)
    ensures s.result.Err? ==> s.ledger == l
    ensures requester == 0 ==> s.result == Fail(Unauthorized, "Not authenticated")
    ensures requester != 0 && cardId.Num? ==>
      (s.result.Ok? <==> exists c :: c in l.cards && c.id == cardId.n && c.userId == requester)
    ensures requester != 0 && cardId.Num? && s.result.Err? ==> s.result == Fail(NotFound, "Card not found")
    ensures s.result.Ok? ==>
      && cardId.Num?
      && s.ledger == l.(cards := s.ledger.cards)
      && (forall c :: c in s.ledger.cards ==> c in l.cards && c.id != cardId.n)
      && (forall c :: c in l.cards && c.id != cardId.n ==> c in s.ledger.cards)
  {
    if requester == 0 then Refuse(l, Unauthorized, "Not authenticated")
    else if !cardId.Num? then Refuse(l, ServerError, "Failed to delete payment card")
    else
      match Find(l.cards, (c: Card) => c.id == cardId.n && c.userId == requester)
      case None => Refuse(l, NotFound, "Card not found")
      case Some(card) =>
        Step(l.(cards := Filter(l.cards, (c: Card) => c.id != cardId.n)), Ok(Given(card.stripePaymentMethodId)))
  }

  /** The detach outcome never changes the response or the stored cards. */
  lemma DeleteIgnoresDetachOutcome(l: Ledger, requester: nat, cardId: Param)
    ensures DeletePaymentCard(l, requester, cardId, true) == DeletePaymentCard(l, requester, cardId, false)
  {
  }

  /** Another user's card is never deleted: the request answers 404 and the
      cards stay as they were. */
  lemma ForeignCardNotDeleted(l: Ledger, requester: nat, n: int, detached: bool)
    requires requester != 0
    requires forall c :: c in l.cards && c.id == n ==> c.userId != requester
    ensures DeletePaymentCard(l, requester, Num(n), detached) == Refuse(l, NotFound, "Card not found")
  {
  }
}

=== FILE: chats.dfy ===
/** Conversations between a listing's owner and an interested user
    (`controllers/chatController.js`): listing, opening and reading a
    chat, and starting one with its buyer/seller roles. */
module Chats {
  import opened Common
  import opened Ledger

  /** The other side of a chat as `u` sees it: the seller when `u` is the
      buyer, the buyer otherwise. */
  function ReceiverOf(c: Chat, u: nat): (r: nat)
    ensures c.buyerId == u ==> r == c.sellerId
    ensures c.buyerId != u ==> r == c.buyerId
  {
    if c.buyerId == u then c.sellerId else c.buyerId
  }

  predicate Participant(c: Chat, u: nat)
  {
    c.buyerId == u || c.sellerId == u
  }

  /** For either participant of a chat between two people, the receiver is
      the other participant. */
  lemma ReceiverIsTheOtherSide(c: Chat, u: nat)
    requires Participant(c, u) && c.buyerId != c.sellerId
    ensures Participant(c, ReceiverOf(c, u)) && ReceiverOf(c, u) != u
    ensures ReceiverOf(c, ReceiverOf(c, u)) == u
  {
  }

  /** The chat with this id in which `u` takes part. */
  function ChatFor(l: Ledger, id: int, u: nat): (r: Option<Chat>)
    ensures r.Some? ==> r.value in l.chats && r.value.id == id && Participant(r.value, u)
    ensures r.None? <==> forall c :: c in l.chats && c.id == id ==> !Participant(c, u)
  {
    Find(l.chats, (c: Chat) => c.id == id && Participant(c, u))
  }

  /** A chat as returned: the row, the receiver for the requester, and its
      messages in the order they were stored. */
  datatype ChatView = ChatView(chat: Chat, receiver: nat, messages: seq<Message>)

  function MessagesOf(l: Ledger, chatId: nat): (r: seq<Message>)
    ensures forall m :: m in r <==> m in l.messages && m.chatId == chatId
  {
    Filter(l.messages, (m: Message) => m.chatId == chatId)
  }

  // ---------------------------------------------------------------------
  // getAllChats
  // ---------------------------------------------------------------------

  /** `getAllChats`: every chat in which the requester takes part, each
      with its receiver. */
  function GetAllChats(l: Ledger, requester: nat): (r: Result<seq<(Chat, nat)>>)
    ensures r.Err? <==> requester == 0
    ensures r.Ok? ==> forall c :: (exists i :: 0 <= i < |r.value| && r.value[i].0 == c) <==> c in l.chats && Participant(c, requester)
    ensures r.Ok? ==> forall i :: 0 <= i < |r.value| ==> r.value[i].1 == ReceiverOf(r.value[i].0, requester)
  {
    if requester == 0 then Fail(Unauthorized, "Not authenticated")
    else
      var mine := Filter(l.chats, (c: Chat) => Participant(c, requester));
      var r := seq(|mine|, i requires 0 <= i < |mine| => (mine[i], ReceiverOf(mine[i], requester)));
      assert forall i :: 0 <= i < |mine| ==> r[i].0 == mine[i];
      assert forall c :: c in l.chats && Participant(c, requester) ==> c in mine;
      Ok(r)
  }

  // ---------------------------------------------------------------------
  // getSingleChat and readChat
  // ---------------------------------------------------------------------

  /** The guards shared by `getSingleChat` and `readChat`. */
  function OpenChat(l: Ledger, requester: nat, chatId: Param): (r: Result<Chat>)
    ensures requester == 0 ==> r == Fail(Unauthorized, "Not authenticated")
    ensures requester != 0 && !ValidId(chatId) ==> r == Fail(BadRequest, "Invalid chat ID")
    ensures r.Ok? <==> requester != 0 && ValidId(chatId) && ChatFor(l, chatId.n, requester).Some?
    ensures requester != 0 && ValidId(chatId) && ChatFor(l, chatId.n, requester).None? ==>
      r == Fail(NotFound, "Chat not found or you are not authorized")
    ensures r.Ok? ==> r.value == ChatFor(l, chatId.n, requester).value
  {
    if requester == 0 then Fail(Unauthorized, "Not authenticated")
    else if !ValidId(chatId) then Fail(BadRequest, "Invalid chat ID")
    else
      match ChatFor(l, chatId.n, requester)
      case None => Fail(NotFound, "Chat not found or you are not authorized")
      case Some(c) => Ok(c)
  }

  /** Write `c` over the chat row with its id. */
  function ReplaceChat(chats: seq<Chat>, c: Chat): seq<Chat>
  {
    ReplaceByKey(chats, c, (x: Chat) => x.id)
  }

  /** The chat after `u` has read it at `now`: its own entry in the read
      map moves, every other entry stays. */
  function MarkRead(c: Chat, u: nat, now: int): (r: Chat)
    ensures r == c.(lastReadBy := r.lastReadBy)
    ensures u in r.lastReadBy && r.lastReadBy[u] == now
    ensures r.lastReadBy.Keys == c.lastReadBy.Keys + {u}
    ensures forall k :: k in c.lastReadBy && k != u ==> r.lastReadBy[k] == c.lastReadBy[k]
  {
    c.(lastReadBy := c.lastReadBy[u := now])
  }

  /** `getSingleChat`: the guards, then the requester's read time is
      recorded. The response shows the chat as it was fetched, before
      that write. */
  function GetSingleChat(l: Ledger, requester: nat, chatId: Param, now: int): (s: Step<ChatView>)
    ensures s.result.Err? ==> s.ledger == l
    ensures OpenChat(l, requester, chatId).Err? ==> s.result == Err(OpenChat(l, requester, chatId).failure)
    ensures s.result.Ok? <==> OpenChat(l, requester, chatId).Ok?
    ensures s.result.Ok? ==>
      var c := OpenChat(l, requester, chatId).value;
      && s.result.value == ChatView(c, ReceiverOf(c, requester), MessagesOf(l, c.id))
      && s.ledger == l.(chats := ReplaceChat(l.chats, MarkRead(c, requester, now)))
  {
    match OpenChat(l, requester, chatId)
    case Err(f) => Step(l, Err(f))
    case Ok(c) =>
      Step(l.(chats := ReplaceChat(l.chats, MarkRead(c, requester, now))),
           Ok(ChatView(c, ReceiverOf(c, requester), MessagesOf(l, c.id))))
  }

  /** Chat ids are the primary key. */
  predicate DistinctChatIds(chats: seq<Chat>)
  {
    forall i, j :: 0 <= i < j < |chats| ==> chats[i].id != chats[j].id
  }

  /** Opening a chat writes only the requester's read time of that chat:
      no other table, no other chat and no other participant's read time
      changes, and opening it again shows the same chat and messages. */
  lemma GetSingleChatOnlyMovesReadTime(l: Ledger, requester: nat, chatId: Param, now: int, later: int)
    requires DistinctChatIds(l.chats)
    requires GetSingleChat(l, requester, chatId, now).result.Ok?
    ensures var s := GetSingleChat(l, requester, chatId, now);
      && s.ledger == l.(chats := s.ledger.chats)
      && |s.ledger.chats| == |l.chats|
      && (forall i :: 0 <= i < |l.chats| && l.chats[i].id != chatId.n ==> s.ledger.chats[i] == l.chats[i])
      && (forall i :: 0 <= i < |l.chats| && l.chats[i].id == chatId.n ==>
            s.ledger.chats[i] == l.chats[i].(lastReadBy := l.chats[i].lastReadBy[requester := now]))
      && GetSingleChat(s.ledger, requester, chatId, later).result.Ok?
      && GetSingleChat(s.ledger, requester, chatId, later).result.value.messages == s.result.value.messages
      && GetSingleChat(s.ledger, requester, chatId, later).result.value.chat.id == s.result.value.chat.id
  {
    var s := GetSingleChat(l, requester, chatId, now);
    var c := OpenChat(l, requester, chatId).value;
    var k :| 0 <= k < |l.chats| && l.chats[k] == c;
    forall i | 0 <= i < |l.chats| && l.chats[i].id == chatId.n
      ensures s.ledger.chats[i] == l.chats[i].(lastReadBy := l.chats[i].lastReadBy[requester := now])
    {
      assert i == k;
    }
    assert s.ledger.chats[k] == MarkRead(c, requester, now);
    assert ChatFor(s.ledger, chatId.n, requester).Some?;
  }

  /** A message of chat `chatId` that `u` has now read: unread messages
      from the other side become read and take the chat's read map. */
  function ReadMessage(m: Message, chatId: nat, u: nat, seen: map<nat, int>): (r: Message)
    ensures (m.chatId == chatId && m.senderId != u && !m.isRead) ==> r == m.(isRead := true, seenBy := seen)
    ensures !(m.chatId == chatId && m.senderId != u && !m.isRead) ==> r == m
  {
    if m.chatId == chatId && m.senderId != u && !m.isRead then m.(isRead := true, seenBy := seen) else m
  }

  /** `readChat`: the guards, then the requester's read time is recorded
      and every unread message the other side sent in this chat is marked
      read. The response shows the updated chat with its messages as they
      were before the marking. */
  function ReadChat(l: Ledger, requester: nat, chatId: Param, now: int): (s: Step<ChatView>)
    ensures s.result.Err? ==> s.ledger == l
    ensures OpenChat(l, requester, chatId).Err? ==> s.result == Err(OpenChat(l, requester, chatId).failure)
    ensures s.result.Ok? <==> OpenChat(l, requester, chatId).Ok?
    ensures s.result.Ok? ==>
      var c := OpenChat(l, requester, chatId).value;
      var after := MarkRead(c, requester, now);
      && s.result.value == ChatView(after, ReceiverOf(c, requester), MessagesOf(l, c.id))
      && s.ledger.chats == ReplaceChat(l.chats, after)
      && |s.ledger.messages| == |l.messages|
      && (forall i :: 0 <= i < |l.messages| ==>
            s.ledger.messages[i] == ReadMessage(l.messages[i], c.id, requester, after.lastReadBy))
      && s.ledger == l.(chats := s.ledger.chats, messages := s.ledger.messages)
  {
    match OpenChat(l, requester, chatId)
    case Err(f) => Step(l, Err(f))
    case Ok(c) =>
      var after := MarkRead(c, requester, now);
      var messages := seq(|l.messages|, i requires 0 <= i < |l.messages| =>
        ReadMessage(l.messages[i], c.id, requester, after.lastReadBy));
      Step(l.(chats := ReplaceChat(l.chats, after), messages := messages),
           Ok(ChatView(after, ReceiverOf(c, requester), MessagesOf(l, c.id))))
  }

  /** After reading, nothing the other side sent in that chat is unread,
      and the requester's own messages and other chats' messages are
      untouched. */
  lemma ReadChatLeavesNothingUnread(l: Ledger, requester: nat, chatId: Param, now: int)
    requires ReadChat(l, requester, chatId, now).result.Ok?
    ensures var s := ReadChat(l, requester, chatId, now);
      && (forall m :: m in s.ledger.messages && m.chatId == chatId.n && m.senderId != requester ==> m.isRead)
      && (forall i :: 0 <= i < |l.messages| && (l.messages[i].chatId != chatId.n || l.messages[i].senderId == requester) ==>
            s.ledger.messages[i] == l.messages[i])
  {
  }

  /** Reading again later changes no message: every message the first
      read could mark is already read. */
  lemma ReadChatTwiceKeepsMessages(l: Ledger, requester: nat, chatId: Param, now: int, later: int)
    requires ReadChat(l, requester, chatId, now).result.Ok?
    ensures var once := ReadChat(l, requester, chatId, now).ledger;
      ReadChat(once, requester, chatId, later).ledger.messages == once.messages
  {
    var s := ReadChat(l, requester, chatId, now);
    var once := s.ledger;
    var c := OpenChat(l, requester, chatId).value;
    var after := MarkRead(c, requester, now);
    assert ChatFor(once, chatId.n, requester).Some? by {
      var k :| 0 <= k < |l.chats| && l.chats[k] == c;
      assert once.chats[k] == after;
    }
    var again := ReadChat(once, requester, chatId, later).ledger.messages;
    forall i | 0 <= i < |once.messages|
      ensures again[i] == once.messages[i]
    {
    }
  }

  // ---------------------------------------------------------------------
  // addChat
  // ---------------------------------------------------------------------

  /** An opened chat: the row, the receiver for the requester, and whether
      it was created by this call. */
  datatype Opened = Opened(chat: Chat, receiver: nat, created: bool)

  /** The roles a new chat gets. The requester who does not own the
      listing is the buyer and the owner the seller. For an owner
      requester the code as written makes the receiver both buyer and
      seller; the intended rule keeps the owner as seller. */
  function Roles(ownerId: nat, requester: nat, receiver: nat, ownerStaysSeller: bool): (r: (nat, nat))
    ensures ownerId != requester ==> r == (requester, ownerId)
    ensures ownerId == requester && !ownerStaysSeller ==> r == (receiver, receiver)
    ensures ownerId == requester && ownerStaysSeller ==> r == (receiver, ownerId)
  {
    if ownerId != requester then (requester, ownerId)
    else if ownerStaysSeller then (receiver, ownerId)
    else (receiver, receiver)
  }

  /** With the intended rule a chat is always between the owner, as
      seller, and the other party, as buyer: the requester and the
      receiver, whichever of them owns the listing. */
  lemma IntendedRolesPairOwnerWithOther(ownerId: nat, requester: nat, receiver: nat)
    requires requester != receiver && (ownerId == requester || ownerId == receiver)
    ensures var r := Roles(ownerId, requester, receiver, true);
      r.1 == ownerId && r.0 != r.1 && {r.0, r.1} == {requester, receiver}
  {
  }

  /** As written, an owner who opens a chat names the receiver on both
      sides and leaves themself out. */
  lemma WrittenRolesDropOwner(ownerId: nat, receiver: nat)
    requires receiver != ownerId
    ensures var r := Roles(ownerId, ownerId, receiver, false);
      r.0 == r.1 == receiver && ownerId !in {r.0, r.1}
  {
  }

  /** The guards of `addChat`, in order: identity, both ids truthy (a
      number 0 or an empty text is missing, the text "0" is not), both
      numeric, the listing, the receiver, no chat with oneself, and a
      buyer may only write to the owner. */
  function AddChatGuards(l: Ledger, requester: nat, postId: Param, receiverId: Param): (r: Result<(Post, nat)>)
    ensures requester == 0 ==> r == Fail(Unauthorized, "Not authenticated")
    ensures requester != 0 && (!Truthy(postId) || !Truthy(receiverId)) ==>
      r == Fail(BadRequest, "Missing required fields: postId and receiverId")
    ensures requester != 0 && Truthy(postId) && Truthy(receiverId) && (postId.NotNumeric? || receiverId.NotNumeric?) ==>
      r == Fail(BadRequest, "Invalid postId or receiverId")
    ensures (requester != 0 && Parsed(postId) && Parsed(receiverId) && PostById(l, postId.n).None?) ==>
      r == Fail(NotFound, "Post not found")
    ensures (requester != 0 && Parsed(postId) && Parsed(receiverId) && PostById(l, postId.n).Some? && UserById(l, receiverId.n).None?) ==>
      r == Fail(NotFound, "Receiver not found")
    ensures (requester != 0 && Parsed(postId) && Parsed(receiverId) && PostById(l, postId.n).Some? && UserById(l, receiverId.n).Some? &&
             receiverId.n == requester) ==> r == Fail(BadRequest, "Cannot create a chat with yourself")
    ensures r.Ok? ==>
      && requester != 0 && Parsed(postId) && Parsed(receiverId)
      && PostById(l, postId.n).Some? && r.value.0 == PostById(l, postId.n).value
      && UserById(l, receiverId.n).Some? && r.value.1 == receiverId.n && r.value.1 != requester
      && (r.value.0.ownerId != requester ==> r.value.1 == r.value.0.ownerId)
    ensures (requester != 0 && Parsed(postId) && Parsed(receiverId) && PostById(l, postId.n).Some? && UserById(l, receiverId.n).Some? &&
             receiverId.n != requester) ==>
      (r.Ok? <==> (PostById(l, postId.n).value.ownerId == requester || PostById(l, postId.n).value.ownerId == receiverId.n))
    ensures (requester != 0 && Parsed(postId) && Parsed(receiverId) && PostById(l, postId.n).Some? && UserById(l, receiverId.n).Some? &&
             receiverId.n != requester && PostById(l, postId.n).value.ownerId != requester &&
             PostById(l, postId.n).value.ownerId != receiverId.n) ==>
      r == Fail(BadRequest, "Receiver must be the post owner")
  {
    if requester == 0 then Fail(Unauthorized, "Not authenticated")
    else if !Truthy(postId) || !Truthy(receiverId) then Fail(BadRequest, "Missing required fields: postId and receiverId")
    else if postId.NotNumeric? || receiverId.NotNumeric? then Fail(BadRequest, "Invalid postId or receiverId")
    else
      match PostById(l, postId.n)
      case None => Fail(NotFound, "Post not found")
      case Some(post) =>
        if UserById(l, receiverId.n).None? then Fail(NotFound, "Receiver not found")
        else if receiverId.n == requester then Fail(BadRequest, "Cannot create a chat with yourself")
        else if post.ownerId != requester && receiverId.n != post.ownerId then Fail(BadRequest, "Receiver must be the post owner")
        else Ok((post, receiverId.n as nat))
  }

  /** The chat of a listing between a buyer and a seller, if any. */
  function ExistingChat(l: Ledger, postId: nat, buyerId: nat, sellerId: nat): (r: Option<Chat>)
    ensures r.Some? ==> r.value in l.chats && r.value.postId == postId && r.value.buyerId == buyerId && r.value.sellerId == sellerId
    ensures r.None? ==> forall c :: c in l.chats ==> !(c.postId == postId && c.buyerId == buyerId && c.sellerId == sellerId)
  {
    Find(l.chats, (c: Chat) => c.postId == postId && c.buyerId == buyerId && c.sellerId == sellerId)
  }

  function AddChatWith(l: Ledger, requester: nat, postId: Param, receiverId: Param, now: int, ownerStaysSeller: bool): (s: Step<Opened>)
    ensures s.result.Err? ==> s.ledger == l
    ensures AddChatGuards(l, requester, postId, receiverId).Err? ==> s.result == Err(AddChatGuards(l, requester, postId, receiverId).failure)
    ensures s.result.Ok? <==> AddChatGuards(l, requester, postId, receiverId).Ok?
    ensures s.result.Ok? ==>
      var (post, receiver) := AddChatGuards(l, requester, postId, receiverId).value;
      var roles := Roles(post.ownerId, requester, receiver, ownerStaysSeller);
      var c := s.result.value.chat;
      && c.postId == post.id && c.buyerId == roles.0 && c.sellerId == roles.1
      && s.result.value.receiver == ReceiverOf(c, requester)
      && (ExistingChat(l, post.id, roles.0, roles.1).Some? ==>
            !s.result.value.created && c == ExistingChat(l, post.id, roles.0, roles.1).value && s.ledger == l)
      && (ExistingChat(l, post.id, roles.0, roles.1).None? ==>
            && s.result.value.created
            && c.lastReadBy == map[] && c.updatedAt == now
            && (forall d :: d in l.chats ==> d.id != c.id)
            && s.ledger == l.(chats := l.chats + [c]))
  {
    match AddChatGuards(l, requester, postId, receiverId)
    case Err(f) => Step(l, Err(f))
    case Ok((post, receiver)) =>
      var roles := Roles(post.ownerId, requester, receiver, ownerStaysSeller);
      match ExistingChat(l, post.id, roles.0, roles.1)
      case Some(c) => Step(l, Ok(Opened(c, ReceiverOf(c, requester), false)))
      case None =>
        var c := Chat(NextId(l.chats, (d: Chat) => d.id), post.id, roles.0, roles.1, map[], now);
        Step(l.(chats := l.chats + [c]), Ok(Opened(c, ReceiverOf(c, requester), true)))
  }

  /** `addChat` as written. */
  function AddChatAsWritten(l: Ledger, requester: nat, postId: Param, receiverId: Param, now: int): (s: Step<Opened>)
    ensures s == AddChatWith(l, requester, postId, receiverId, now, false)
    ensures s.result.Ok? ==>
      var post := PostById(l, postId.n).value;
      && (post.ownerId != requester ==> s.result.value.chat.buyerId == requester && s.result.value.chat.sellerId == post.ownerId)
      && (post.ownerId == requester ==> s.result.value.chat.buyerId == receiverId.n && s.result.value.chat.sellerId == receiverId.n)
  {
    AddChatWith(l, requester, postId, receiverId, now, false)
  }

  /** `addChat` as evidently intended: whoever opens the chat takes part in
      it, the owner always as seller. */
  function AddChat(l: Ledger, requester: nat, postId: Param, receiverId: Param, now: int): (s: Step<Opened>)
    ensures s == AddChatWith(l, requester, postId, receiverId, now, true)
    ensures s.result.Ok? ==>
      var post := PostById(l, postId.n).value;
      && Participant(s.result.value.chat, requester)
      && s.result.value.chat.sellerId == post.ownerId
      && s.result.value.chat.buyerId != s.result.value.chat.sellerId
      && s.result.value.receiver == receiverId.n
  {
    AddChatWith(l, requester, postId, receiverId, now, true)
  }

  /** No two chats of a listing have the same buyer and seller. */
  predicate OneChatPerPair(chats: seq<Chat>)
  {
    forall i, j :: 0 <= i < j < |chats| ==>
      (chats[i].postId, chats[i].buyerId, chats[i].sellerId) != (chats[j].postId, chats[j].buyerId, chats[j].sellerId)
  }

  /** Opening a chat never creates a duplicate; opening it again returns
      the same chat and writes nothing. */
  lemma AddChatReuses(l: Ledger, requester: nat, postId: Param, receiverId: Param, now: int, later: int)
    requires OneChatPerPair(l.chats)
    requires AddChat(l, requester, postId, receiverId, now).result.Ok?
    ensures OneChatPerPair(AddChat(l, requester, postId, receiverId, now).ledger.chats)
    ensures var s := AddChat(l, requester, postId, receiverId, now);
      var again := AddChat(s.ledger, requester, postId, receiverId, later);
      && again.ledger == s.ledger
      && again.result.Ok? && !again.result.value.created
      && again.result.value.chat == s.result.value.chat
  {
    var s := AddChat(l, requester, postId, receiverId, now);
    var c := s.result.value.chat;
    if s.result.value.created {
      var cs := s.ledger.chats;
      forall i, j | 0 <= i < j < |cs|
        ensures (cs[i].postId, cs[i].buyerId, cs[i].sellerId) != (cs[j].postId, cs[j].buyerId, cs[j].sellerId)
      {
        if j == |cs| - 1 {
          assert cs[i] in l.chats;
        }
      }
      assert c in s.ledger.chats;
      var post := PostById(l, postId.n).value;
      var roles := Roles(post.ownerId, requester, receiverId.n, true);
      var found := ExistingChat(s.ledger, post.id, roles.0, roles.1);
      assert found.Some?;
      assert s.ledger.chats == l.chats + [c];
      assert forall d :: d in l.chats ==> !(d.postId == post.id && d.buyerId == roles.0 && d.sellerId == roles.1);
    }
    assert PostById(s.ledger, postId.n) == PostById(l, postId.n);
  }

  /** The discrepancy: as written, an owner who opens a chat with a user is
      not part of it and cannot open it afterwards; the intended chat
      includes the owner. */
  lemma OwnerLockedOutAsWritten(l: Ledger, owner: nat, postId: nat, other: nat, now: int)
    requires owner != 0 && other != owner
    requires PostById(l, postId).Some? && PostById(l, postId).value.ownerId == owner
    requires UserById(l, other).Some?
    requires forall c :: c in l.chats ==> c.postId != postId
    ensures var s := AddChatAsWritten(l, owner, Num(postId, true), Num(other, true), now);
      && s.result.Ok? && s.result.value.created
      && !Participant(s.result.value.chat, owner)
      && GetSingleChat(s.ledger, owner, Num(s.result.value.chat.id), now).result
           == Fail(NotFound, "Chat not found or you are not authorized")
    ensures var s := AddChat(l, owner, Num(postId, true), Num(other, true), now);
      && s.result.Ok? && s.result.value.created
      && GetSingleChat(s.ledger, owner, Num(s.result.value.chat.id), now).result.Ok?
  {
    var s := AddChatAsWritten(l, owner, Num(postId, true), Num(other, true), now);
    var c := s.result.value.chat;
    assert s.ledger.chats == l.chats + [c];
    var t := AddChat(l, owner, Num(postId, true), Num(other, true), now);
    assert t.result.value.chat in t.ledger.chats;
  }
}

=== FILE: common.dfy ===
/** Shared vocabulary of the marketplace model: optional values, handler
    outcomes, parsed request parameters and a few generic row queries. */
module Common {

  datatype Option<+T> = None | Some(value: T)

  /** The HTTP status classes the controllers answer with. */
  datatype Status = BadRequest | Unauthorized | Forbidden | NotFound | ServerError

  /** An error response: its status and the message the controller sends. */
  datatype Failure = Failure(status: Status, message: string)

  datatype Result<+T> = Ok(value: T) | Err(failure: Failure) {
    predicate IsFailure() { Err? }

    function PropagateFailure<U>(): Result<U>
      requires Err?
    {
      Err(failure)
    }

    function Extract(): T
      requires Ok?
    {
      value
    }
  }

  /** Shorthand for a failed response. */
  function Fail<T>(status: Status, message: string): Result<T>
  {
    Err(Failure(status, message))
  }

  /** A request field that a controller reads with `parseInt`, kept with
      the JavaScript truthiness of the raw value.
      `Absent` is any falsy value that parses to NaN: a missing field,
      null, false or the empty text.
      `Num(n, text)` is a value that parses to `n`, sent as a JSON number
      (`text` false) or as text (`text` true). The two differ only at 0:
      the number 0 is falsy, while the text "0" is truthy.
      `NotNumeric` is a truthy value that parses to NaN, such as "abc". */
  datatype Param = Absent | Num(n: int, text: bool := false) | NotNumeric

  /** The `!id || isNaN(id)` guard the controllers put on a parsed id:
      NaN and 0 are both rejected. */
  predicate ValidId(p: Param)
  {
    p.Num? && p.n != 0
  }

  /** JavaScript truthiness of the raw field (`if (postId)`). */
  predicate Truthy(p: Param)
  {
    p.NotNumeric? || (p.Num? && (p.n != 0 || p.text))
  }

  /** A truthy field that parses to a number: what `parseInt` hands the
      store after an `if (field)` test. */
  predicate Parsed(p: Param)
  {
    Truthy(p) && p.Num?
  }

  /** Only the raw value decides truthiness: "0" passes `if (field)` and
      then reads as 0, which is not a valid id, while the number 0 stops
      at the test. */
  lemma ZeroTextIsTruthy()
    ensures Truthy(Num(0, true)) && Parsed(Num(0, true)) && !ValidId(Num(0, true))
    ensures !Truthy(Num(0)) && !Truthy(Absent) && Truthy(NotNumeric) && !Parsed(NotNumeric)
    ensures forall n: int, text: bool :: n != 0 ==> (Truthy(Num(n, text)) <==> ValidId(Num(n, text)))
  {
  }

  /** JavaScript truthiness of an optional text field: present and non-empty. */
  predicate Given(s: Option<string>)
  {
    s.Some? && s.value != ""
  }

  /** `a || b` on optional text: the supplied value when it is truthy,
      otherwise the fallback. */
  function OrText(supplied: Option<string>, fallback: string): (r: string)
    ensures Given(supplied) ==> r == supplied.value
    ensures !Given(supplied) ==> r == fallback
  {
    if Given(supplied) then supplied.value else fallback
  }

  /** `a || b` on an optional number: 0 is falsy in JavaScript. */
  function OrNum(supplied: Option<int>, fallback: int): (r: int)
    ensures supplied.Some? && supplied.value != 0 ==> r == supplied.value
    ensures supplied.None? || supplied.value == 0 ==> r == fallback
  {
    if supplied.Some? && supplied.value != 0 then supplied.value else fallback
  }

  /** `a || b` where the fallback is a nullable column. */
  function OrNullableText(supplied: Option<string>, existing: Option<string>): (r: Option<string>)
    ensures Given(supplied) ==> r == supplied
    ensures !Given(supplied) ==> r == existing
  {
    if Given(supplied) then supplied else existing
  }

  /** `a ? parseInt(a) : b`: the parsed value of a truthy field, otherwise
      the fallback. A truthy field that parses to NaN never gets here: the
      handlers refuse it first (see `NumbersRead` in the listing model). */
  function OrParsed(supplied: Param, fallback: int): (r: int)
    ensures Parsed(supplied) ==> r == supplied.n
    ensures !Truthy(supplied) ==> r == fallback
  {
    if Parsed(supplied) then supplied.n else fallback
  }

  /** `a ? parseInt(a) : b` where the fallback is a nullable column. */
  function OrParsedNullable(supplied: Param, existing: Option<int>): (r: Option<int>)
    ensures Parsed(supplied) ==> r == Some(supplied.n)
    ensures !Truthy(supplied) ==> r == existing
  {
    if Parsed(supplied) then Some(supplied.n) else existing
  }

  /** `a !== undefined ? a : b`: any supplied value wins, `false` and ""
      included; only a field left out keeps the stored value. */
  function OrKept<T>(supplied: Option<T>, existing: T): (r: T)
    ensures supplied.Some? ==> r == supplied.value
    ensures supplied.None? ==> r == existing
  {
    if supplied.Some? then supplied.value else existing
  }

  /** An update by primary key: every row whose key is `x`'s becomes `x`,
      every other row stays where it was. */
  function ReplaceByKey<T>(rows: seq<T>, x: T, key: T -> int): (r: seq<T>)
    ensures |r| == |rows|
    ensures forall i :: 0 <= i < |rows| && key(rows[i]) == key(x) ==> r[i] == x
    ensures forall i :: 0 <= i < |rows| && key(rows[i]) != key(x) ==> r[i] == rows[i]
  {
    seq(|rows|, i requires 0 <= i < |rows| => if key(rows[i]) == key(x) then x else rows[i])
  }

  /** The first row satisfying `p`, as Prisma's `findFirst`/`findUnique`. */
  function Find<T>(rows: seq<T>, p: T -> bool): (r: Option<T>)
    ensures r.Some? ==> r.value in rows && p(r.value)
    ensures r.None? <==> forall i :: 0 <= i < |rows| ==> !p(rows[i])
  {
    if |rows| == 0 then None
    else if p(rows[0]) then Some(rows[0])
    else Find(rows[1..], p)
  }

  /** `Find` returns the first match: no earlier row satisfies `p`. */
  lemma {:induction false} FindIsFirst<T>(rows: seq<T>, p: T -> bool)
    ensures var r := Find(rows, p);
      r.Some? ==> exists i :: 0 <= i < |rows| && rows[i] == r.value && forall j :: 0 <= j < i ==> !p(rows[j])
  {
    if |rows| > 0 && !p(rows[0]) {
      FindIsFirst(rows[1..], p);
      var r := Find(rows, p);
      if r.Some? {
        var k :| 0 <= k < |rows[1..]| && rows[1..][k] == r.value && forall j :: 0 <= j < k ==> !p(rows[1..][j]);
        assert rows[k + 1] == r.value;
        forall j | 0 <= j < k + 1 ensures !p(rows[j]) {
          if j > 0 {
            assert rows[j] == rows[1..][j - 1];
          }
        }
      }
    }
  }

  /** The rows satisfying `p`, in their original order, as `findMany`. */
  function Filter<T>(rows: seq<T>, p: T -> bool): (r: seq<T>)
    ensures |r| <= |rows|
    ensures forall i :: 0 <= i < |r| ==> p(r[i]) && r[i] in rows
    ensures forall i :: 0 <= i < |rows| && p(rows[i]) ==> rows[i] in r
    ensures |r| == 0 <==> forall i :: 0 <= i < |rows| ==> !p(rows[i])
  {
    if |rows| == 0 then []
    else if p(rows[0]) then [rows[0]] + Filter(rows[1..], p)
    else Filter(rows[1..], p)
  }

  /** Every position moved one place to the right. */
  function Shift(idx: seq<nat>): (r: seq<nat>)
    ensures |r| == |idx|
    ensures forall k :: 0 <= k < |idx| ==> r[k] == idx[k] + 1
  {
    if |idx| == 0 then [] else [idx[0] + 1] + Shift(idx[1..])
  }

  /** `idx` lists increasing positions of `rows` holding, in order, the
      rows of `kept`. */
  ghost predicate Positions<T>(idx: seq<nat>, rows: seq<T>, kept: seq<T>)
  {
    && |idx| == |kept|
    && (forall k :: 0 <= k < |idx| ==> idx[k] < |rows| && kept[k] == rows[idx[k]])
    && (forall a, b :: 0 <= a < b < |idx| ==> idx[a] < idx[b])
  }

  lemma PositionsShift<T>(idx: seq<nat>, x: T, rows: seq<T>, kept: seq<T>)
    requires Positions(idx, rows, kept)
    ensures Positions(Shift(idx), [x] + rows, kept)
  {
    var s := Shift(idx);
    forall k | 0 <= k < |s| ensures s[k] < |[x] + rows| && kept[k] == ([x] + rows)[s[k]] {
      assert ([x] + rows)[idx[k] + 1] == rows[idx[k]];
    }
  }

  lemma PositionsCons<T>(idx: seq<nat>, x: T, rows: seq<T>, kept: seq<T>)
    requires Positions(idx, rows, kept)
    ensures Positions([0] + Shift(idx), [x] + rows, [x] + kept)
  {
    PositionsShift(idx, x, rows, kept);
    var s := Shift(idx);
    var t := [0] + s;
    forall k | 0 <= k < |t| ensures t[k] < |[x] + rows| && ([x] + kept)[k] == ([x] + rows)[t[k]] {
      if k > 0 {
        assert t[k] == s[k - 1] && ([x] + kept)[k] == kept[k - 1];
      }
    }
    forall a, b | 0 <= a < b < |t| ensures t[a] < t[b] {
      assert t[b] == s[b - 1];
      if a > 0 {
        assert t[a] == s[a - 1];
      }
    }
  }

  /** `Filter` keeps rows in order: the kept rows sit at increasing
      positions of the input. */
  lemma {:induction false} FilterPositions<T>(rows: seq<T>, p: T -> bool) returns (idx: seq<nat>)
    ensures Positions(idx, rows, Filter(rows, p))
  {
    if |rows| == 0 {
      idx := [];
    } else {
      var rest := FilterPositions(rows[1..], p);
      assert rows == [rows[0]] + rows[1..];
      if p(rows[0]) {
        PositionsCons(rest, rows[0], rows[1..], Filter(rows[1..], p));
        idx := [0] + Shift(rest);
      } else {
        PositionsShift(rest, rows[0], rows[1..], Filter(rows[1..], p));
        idx := Shift(rest);
      }
    }
  }

  /** The rows satisfying `p` and the rows that do not, each in their
      original order. Together they are a rearrangement of `rows`. */
  function Partition<T>(rows: seq<T>, p: T -> bool): (r: (seq<T>, seq<T>))
    ensures forall x :: x in r.0 ==> p(x)
    ensures forall x :: x in r.1 ==> !p(x)
    ensures multiset(r.0 + r.1) == multiset(rows)
  {
    if |rows| == 0 then ([], [])
    else
      var rest := Partition(rows[1..], p);
      var x := rows[0];
      assert multiset(rows) == multiset([x]) + multiset(rows[1..]) by {
        assert rows == [x] + rows[1..];
      }
      if p(x) then
        assert ([x] + rest.0) + rest.1 == [x] + (rest.0 + rest.1);
        ([x] + rest.0, rest.1)
      else
        assert multiset(rest.0 + ([x] + rest.1)) == multiset(rest.0) + multiset([x]) + multiset(rest.1);
        (rest.0, [x] + rest.1)
  }

  /** An id larger than every id in `rows`: the autoincrement value the
      store hands to the next inserted row. */
  function NextId<T>(rows: seq<T>, id: T -> nat): (r: nat)
    ensures r > 0
    ensures forall i :: 0 <= i < |rows| ==> id(rows[i]) < r
  {
    if |rows| == 0 then 1
    else
      var rest := NextId(rows[..|rows| - 1], id);
      var last := id(rows[|rows| - 1]) + 1;
      if last > rest then last else rest
  }
}

=== FILE: ledger.dfy ===
/** The marketplace database as one immutable value: a sequence of rows per
    table, in insertion order. Every handler of the model maps a ledger to
    a ledger; a transaction that aborts simply keeps the ledger it was given. */
module Ledger {
  import opened Common

  /** Timestamps are milliseconds on one integer timeline. */
  const HourMs: int := 60 * 60 * 1000
  const DayMs: int := 24 * HourMs

  /** `setHours(0, 0, 0, 0)`: the start of the day that contains `t`. */
  function Midnight(t: int): (r: int)
    ensures r <= t < r + DayMs
    ensures r % DayMs == 0
  {
    t - t % DayMs
  }

  datatype User = User(
    id: nat,
    username: string,
    email: string,
    passwordHash: string,
    avatar: Option<string>,
    role: string,
    stripeCustomerId: Option<string>)

  datatype Profile = Profile(
    userId: nat,
    phone: string,
    bio: string,
    country: string,
    state: string,
    city: string)

  /** A listing. `kind` is the free-text `type` column ("rent", "buy", ...). */
  datatype Post = Post(
    id: nat,
    ownerId: nat,
    title: string,
    price: int,
    address: string,
    city: string,
    bedroom: int,
    bathroom: int,
    kind: string,
    property: string,
    images: seq<string>,
    state: string,
    country: string,
    zipCode: string,
    ownershipType: Option<string>,
    titleDeedStatus: Option<string>,
    financingOptions: Option<string>,
    lotSize: Option<int>,
    zoning: Option<string>,
    isActive: bool,
    isPaid: bool,
    rating: real,
    availableFrom: Option<int>,
    createdAt: int)

  datatype PostDetail = PostDetail(
    postId: nat,
    description: string,
    utilities: string,
    pet: string,
    income: string,
    size: int,
    school: int,
    bus: int,
    restaurant: int,
    wifi: bool,
    airConditioning: bool,
    parking: bool,
    securityPersonnel: bool,
    furnished: bool,
    homeWarranty: bool,
    renovationHistory: Option<string>,
    includedAppliances: Option<string>,
    hoaAmenities: Option<string>,
    energyEfficiency: Option<string>,
    airport: Option<int>,
    supermarket: Option<int>,
    shoppingMall: Option<int>,
    nearestClub: Option<int>,
    hospital: Option<int>,
    beach: Option<int>,
    publicTransport: Option<int>,
    restaurants: Option<int>)

  datatype PostImage = PostImage(id: nat, postId: nat)

  datatype SavedPost = SavedPost(id: nat, userId: nat, postId: nat)

  datatype PaymentStatus = Pending | Completed | Failed | Refunded | Cancelled

  datatype TransactionType = Sale | Rental

  /** A payment row. `amount` is in major currency units; `transactionId`
      is the gateway intent id; `bookingId` is the payment-side link to a
      booking, distinct from the booking-side `paymentId`. */
  datatype Payment = Payment(
    id: nat,
    amount: real,
    currency: string,
    paymentMethod: string,
    description: Option<string>,
    userId: nat,
    postId: Option<nat>,
    status: PaymentStatus,
    transactionId: Option<string>,
    transactionType: Option<TransactionType>,
    metadata: Option<string>,
    createdAt: int,
    completedAt: Option<int>,
    bookingId: Option<nat>)

  datatype BookingStatus = PendingPayment | Confirmed | Active | Completed | Cancelled | Rejected

  /** A reservation of `postId` from `startDate` to `endDate`. */
  datatype Booking = Booking(
    id: nat,
    postId: nat,
    userId: nat,
    startDate: int,
    endDate: int,
    totalAmount: real,
    status: BookingStatus,
    guests: int,
    paymentId: Option<nat>,
    confirmedAt: Option<int>,
    cancelledAt: Option<int>)

  /** The statuses that hold a date range against other reservations. */
  predicate Holding(b: Booking)
  {
    b.status.Confirmed? || b.status.Active? || b.status.PendingPayment?
  }

  /** A stored card: display metadata and the gateway's method reference. */
  datatype Card = Card(
    id: nat,
    userId: nat,
    stripePaymentMethodId: Option<string>,
    lastFour: string,
    brand: string,
    expiryMonth: int,
    expiryYear: int,
    holderName: string,
    isDefault: bool,
    isActive: bool)

  datatype ReviewStatus = Pending | Approved | Rejected

  /** A review of the post owner by `reviewerId`. */
  datatype Review = Review(
    id: nat,
    rating: int,
    title: Option<string>,
    comment: string,
    reviewerId: nat,
    revieweeId: nat,
    postId: nat,
    paymentId: Option<int>,
    bookingId: Option<int>,
    status: ReviewStatus,
    isVerified: bool,
    approvedAt: Option<int>,
    moderatedById: Option<int>,
    moderationReason: Option<string>)

  /** A conversation about a post; `lastReadBy` maps a user id to the time
      that user last read the chat. */
  datatype Chat = Chat(
    id: nat,
    postId: nat,
    buyerId: nat,
    sellerId: nat,
    lastReadBy: map<nat, int>,
    updatedAt: int)

  datatype Message = Message(
    id: nat,
    chatId: nat,
    senderId: nat,
    content: string,
    isRead: bool,
    seenBy: map<nat, int>)

  datatype Ledger = Ledger(
    users: seq<User>,
    profiles: seq<Profile>,
    posts: seq<Post>,
    details: seq<PostDetail>,
    images: seq<PostImage>,
    saved: seq<SavedPost>,
    payments: seq<Payment>,
    bookings: seq<Booking>,
    cards: seq<Card>,
    reviews: seq<Review>,
    chats: seq<Chat>,
    messages: seq<Message>)

  /** A handler's outcome: the ledger after the call (equal to the input
      ledger whenever nothing was written) and the response. */
  datatype Step<+T> = Step(ledger: Ledger, result: Result<T>)

  function Refuse<T>(l: Ledger, status: Status, message: string): (s: Step<T>)
    ensures s.ledger == l && s.result.Err?
  {
    Step(l, Fail(status, message))
  }

  function UserById(l: Ledger, id: int): (r: Option<User>)
    ensures r.Some? ==> r.value in l.users && r.value.id == id
    ensures r.None? ==> forall u :: u in l.users ==> u.id != id
  {
    Find(l.users, (u: User) => u.id == id)
  }

  function PostById(l: Ledger, id: int): (r: Option<Post>)
    ensures r.Some? ==> r.value in l.posts && r.value.id == id
    ensures r.None? ==> forall p :: p in l.posts ==> p.id != id
  {
    Find(l.posts, (p: Post) => p.id == id)
  }

  function ChatById(l: Ledger, id: int): (r: Option<Chat>)
    ensures r.Some? ==> r.value in l.chats && r.value.id == id
    ensures r.None? ==> forall c :: c in l.chats ==> c.id != id
  {
    Find(l.chats, (c: Chat) => c.id == id)
  }

  function ReviewById(l: Ledger, id: int): (r: Option<Review>)
    ensures r.Some? ==> r.value in l.reviews && r.value.id == id
    ensures r.None? ==> forall v :: v in l.reviews ==> v.id != id
  {
    Find(l.reviews, (v: Review) => v.id == id)
  }

  function BookingById(l: Ledger, id: int): (r: Option<Booking>)
    ensures r.Some? ==> r.value in l.bookings && r.value.id == id
    ensures r.None? ==> forall b :: b in l.bookings ==> b.id != id
  {
    Find(l.bookings, (b: Booking) => b.id == id)
  }
}

=== FILE: messages.dfy ===
/** Sending a message in a chat (`controllers/messageController.js`). */
module Messages {
  import opened Common
  import opened Text
  import opened Ledger
  import opened Chats

  /** A sent message and the participant it is delivered to. */
  datatype Sent = Sent(message: Message, receiver: nat)

  /** Message content that passes the check: text that is not blank.
      None stands for a missing value or one that is not a string. */
  predicate ContentValid(content: Option<string>)
  {
    content.Some? && content.value != "" && !IsBlank(content.value)
  }

  /** The chat after `sender` has written in it at `now`: it moves to `now`
      and the sender's read time with it; other read times stay. */
  function Touch(c: Chat, sender: nat, now: int): (r: Chat)
    ensures r == c.(updatedAt := now, lastReadBy := r.lastReadBy)
    ensures sender in r.lastReadBy && r.lastReadBy[sender] == now
    ensures r.lastReadBy.Keys == c.lastReadBy.Keys + {sender}
    ensures forall k :: k in c.lastReadBy && k != sender ==> r.lastReadBy[k] == c.lastReadBy[k]
  {
    c.(updatedAt := now, lastReadBy := c.lastReadBy[sender := now])
  }

  /** `addMessage`: identity, chat id and content checks, then the chat
      must have the requester as buyer or seller. The stored message is
      the requester's, trimmed, unread and seen only by its sender; the
      chat is touched. */
  function AddMessage(l: Ledger, requester: nat, chatId: Param, content: Option<string>, now: int): (s: Step<Sent>)
    ensures s.result.Err? ==> s.ledger == l
    ensures requester == 0 ==> s.result == Fail(Unauthorized, "Not authenticated")
    ensures requester != 0 && !ValidId(chatId) ==> s.result == Fail(BadRequest, "Invalid chat ID")
    ensures requester != 0 && ValidId(chatId) && !ContentValid(content) ==> s.result == Fail(BadRequest, "Message content is required")
    ensures (requester != 0 && ValidId(chatId) && ContentValid(content) && ChatFor(l, chatId.n, requester).None?) ==>
      s.result == Fail(NotFound, "Chat not found or you are not authorized")
    ensures s.result.Ok? <==> requester != 0 && ValidId(chatId) && ContentValid(content) && ChatFor(l, chatId.n, requester).Some?
    ensures s.result.Ok? ==>
      var c := ChatFor(l, chatId.n, requester).value;
      var m := s.result.value.message;
      && m.chatId == c.id && m.senderId == requester
      && m.content == Trim(content.value) && !m.isRead
      && m.seenBy == map[requester := now]
      && (forall x :: x in l.messages ==> x.id != m.id)
      && s.result.value.receiver == ReceiverOf(c, requester)
      && s.ledger == l.(messages := l.messages + [m], chats := ReplaceChat(l.chats, Touch(c, requester, now)))
  {
    if requester == 0 then Refuse(l, Unauthorized, "Not authenticated")
    else if !ValidId(chatId) then Refuse(l, BadRequest, "Invalid chat ID")
    else if !ContentValid(content) then Refuse(l, BadRequest, "Message content is required")
    else
      match ChatFor(l, chatId.n, requester)
      case None => Refuse(l, NotFound, "Chat not found or you are not authorized")
      case Some(c) =>
        var m := Message(NextId(l.messages, (x: Message) => x.id), c.id, requester, Trim(content.value), false, map[requester := now]);
        Step(l.(messages := l.messages + [m], chats := ReplaceChat(l.chats, Touch(c, requester, now))),
             Ok(Sent(m, ReceiverOf(c, requester))))
  }

  /** Whitespace-only content is refused and nothing is stored. */
  lemma BlankMessageRefused(l: Ledger, requester: nat, chatId: Param, now: int)
    requires requester != 0 && ValidId(chatId)
    ensures AddMessage(l, requester, chatId, Some(" \t\n"), now) == Refuse(l, BadRequest, "Message content is required")
  {
    var s := " \t\n";
    assert IsSpace(s[0]) && IsSpace(s[1]) && IsSpace(s[2]);
    BlankIffAllSpace(s);
  }

  /** A stored message is never blank, carries no surrounding whitespace,
      and goes to the other participant of a chat between two people. */
  lemma SentMessageShape(l: Ledger, requester: nat, chatId: Param, content: Option<string>, now: int)
    requires AddMessage(l, requester, chatId, content, now).result.Ok?
    ensures var sent := AddMessage(l, requester, chatId, content, now).result.value;
      && sent.message.content != []
      && !IsSpace(sent.message.content[0]) && !IsSpace(sent.message.content[|sent.message.content| - 1])
    ensures var c := ChatFor(l, chatId.n, requester).value;
      var sent := AddMessage(l, requester, chatId, content, now).result.value;
      c.buyerId != c.sellerId ==> Participant(c, sent.receiver) && sent.receiver != requester
  {
    var c := ChatFor(l, chatId.n, requester).value;
    if c.buyerId != c.sellerId {
      ReceiverIsTheOtherSide(c, requester);
    }
  }

  /** A sender's message does not count as unread for them: reading the
      chat afterwards leaves the sender's own messages as they were. */
  lemma OwnMessageStaysUnmarked(l: Ledger, requester: nat, chatId: Param, content: Option<string>, now: int, later: int)
    requires AddMessage(l, requester, chatId, content, now).result.Ok?
    ensures var s := AddMessage(l, requester, chatId, content, now);
      var m := s.result.value.message;
      var r := ReadChat(s.ledger, requester, chatId, later);
      && r.result.Ok?
      && r.ledger.messages[|l.messages|] == m
  {
    var s := AddMessage(l, requester, chatId, content, now);
    var c := ChatFor(l, chatId.n, requester).value;
    assert ChatFor(s.ledger, chatId.n, requester).Some? by {
      var k :| 0 <= k < |l.chats| && l.chats[k] == c;
      assert s.ledger.chats[k] == Touch(c, requester, now);
    }
    assert s.ledger.messages[|l.messages|] == s.result.value.message;
  }
}

=== FILE: payments.dfy ===
/** The payment ledger of `controllers/paymentController.js`: issuing a
    gateway intent, confirming it into a Payment (and a Booking for rentals),
    acknowledging webhooks, and sweeping stale pending payments.

    The payment gateway is an oracle passed in as a function; the clock is
    the `now` parameter (milliseconds). */
module Payments {
  import opened Common
  import opened Text
  import opened Ledger
  import opened Validation

  /** What the gateway reports about a payment intent. `amount` is in minor
      units (kobo, cents). */
  datatype Intent = Intent(id: string, status: string, amount: int, currency: string)

  /** The outcome of `paymentIntents.retrieve`: the intent, or the message of
      the error the client library threw. */
  datatype Lookup = Retrieved(intent: Intent) | Unreachable(message: string)

  /** Whether the gateway confirms that the intent was paid. */
  predicate Succeeded(lookup: Lookup)
  {
    lookup.Retrieved? && lookup.intent.status == "succeeded"
  }

  // ---------------------------------------------------------------------
  // Intent issue (createPaymentIntent)
  // ---------------------------------------------------------------------

  /** `Math.round(parseFloat(amount) * 100)`: whole minor units, or the
      infinity that rounding keeps when the amount read as `Infinity`. */
  datatype MinorAmount = Units(n: int) | InfiniteUnits

  /** The parameters of `paymentIntents.create`: amount in minor units,
      lower-cased currency and the metadata tags. */
  datatype IntentRequest = IntentRequest(
    amountMinor: MinorAmount,
    currency: string,
    userId: nat,
    postId: Option<int>,
    bookingDates: Option<string>)

  /** The gateway's answer to `paymentIntents.create`. */
  datatype Creation = Created(clientSecret: string) | CardDeclined(message: string) | CreateFailed

  datatype IntentIssued = IntentIssued(request: IntentRequest, clientSecret: string)

  /** The guards `createPaymentIntent` runs before it calls the gateway; a
      failure here never reaches the gateway. */
  function IntentGuards(l: Ledger, requester: nat, amount: AmountInput, postId: Param): (r: Result<()>)
    ensures requester == 0 ==> r == Fail(Unauthorized, "Not authenticated")
    ensures requester != 0 && !AmountValid(amount) ==> r == Fail(BadRequest, "Valid amount is required")
    ensures requester != 0 && AmountValid(amount) && Parsed(postId) ==>
      (PostById(l, postId.n).None? ==> r == Fail(NotFound, "Post not found")) &&
      (PostById(l, postId.n).Some? && PostById(l, postId.n).value.ownerId == requester ==>
         r == Fail(Forbidden, "You cannot pay for your own property"))
    ensures r.Ok? <==>
      requester != 0 && AmountValid(amount) &&
      (Truthy(postId) ==> Parsed(postId) && PostById(l, postId.n).Some? && PostById(l, postId.n).value.ownerId != requester)
  {
    if requester == 0 then Fail(Unauthorized, "Not authenticated")
    else if !AmountValid(amount) then Fail(BadRequest, "Valid amount is required")
    else if !Truthy(postId) then Ok(())
    else if postId.NotNumeric? then Fail(ServerError, "Failed to create payment intent")
    else match PostById(l, postId.n)
      case None => Fail(NotFound, "Post not found")
      case Some(post) =>
        if post.ownerId == requester then Fail(Forbidden, "You cannot pay for your own property")
        else Ok(())
  }

  /** The intent request built from a body that passed the guards: the
      amount in minor units, the currency (default "ngn") lower-cased, and
      the requester, parsed listing id and dates as metadata. */
  function IntentRequestFor(requester: nat, amount: AmountInput, currency: Option<string>,
                            postId: Param, bookingDates: Option<string>): (q: IntentRequest)
    requires AmountValid(amount)
    ensures AmountOf(amount).value.Finite? ==>
      var x := AmountOf(amount).value.x;
      && q.amountMinor == Units(MinorUnits(x))
      && (q.amountMinor.n > 0 || x * 100.0 < 0.5)
    ensures AmountOf(amount).value.Infinity? ==> q.amountMinor == InfiniteUnits
    ensures q.currency == ToLower(OrText(currency, "ngn"))
    ensures ToUpper(q.currency) == ToUpper(OrText(currency, "ngn"))
    ensures q.userId == requester
    ensures Parsed(postId) ==> q.postId == Some(postId.n)
    ensures !Parsed(postId) ==> q.postId.None?
    ensures q.bookingDates == bookingDates
  {
    UpperOfLower(OrText(currency, "ngn"));
    IntentRequest(
      match AmountOf(amount).value
      case Finite(x) => Units(MinorUnits(x))
      case Infinity(_) => InfiniteUnits,
      ToLower(OrText(currency, "ngn")),
      requester,
      if Parsed(postId) then Some(postId.n) else None,
      bookingDates)
  }

  /** `createPaymentIntent`. The ledger is never written: the function
      returns no ledger at all. */
  function CreatePaymentIntent(l: Ledger, requester: nat, amount: AmountInput, currency: Option<string>,
                               postId: Param, bookingDates: Option<string>,
                               gateway: IntentRequest -> Creation): (r: Result<IntentIssued>)
    ensures IntentGuards(l, requester, amount, postId).Err? ==> r == Err(IntentGuards(l, requester, amount, postId).failure)
    ensures r.Ok? ==>
      && IntentGuards(l, requester, amount, postId).Ok?
      && r.value.request == IntentRequestFor(requester, amount, currency, postId, bookingDates)
      && gateway(r.value.request) == Created(r.value.clientSecret)
    ensures (IntentGuards(l, requester, amount, postId).Ok? &&
             gateway(IntentRequestFor(requester, amount, currency, postId, bookingDates)).Created?) ==>
      r == Ok(IntentIssued(IntentRequestFor(requester, amount, currency, postId, bookingDates),
                           gateway(IntentRequestFor(requester, amount, currency, postId, bookingDates)).clientSecret))
    ensures (IntentGuards(l, requester, amount, postId).Ok? && AmountValid(amount) &&
             gateway(IntentRequestFor(requester, amount, currency, postId, bookingDates)).CardDeclined?) ==>
      r == Fail(BadRequest, gateway(IntentRequestFor(requester, amount, currency, postId, bookingDates)).message)
    ensures (IntentGuards(l, requester, amount, postId).Ok? && AmountValid(amount) &&
             gateway(IntentRequestFor(requester, amount, currency, postId, bookingDates)).CreateFailed?) ==>
      r == Fail(ServerError, "Failed to create payment intent")
  {
    match IntentGuards(l, requester, amount, postId)
    case Err(f) => Err(f)
    case Ok(_) =>
      var request := IntentRequestFor(requester, amount, currency, postId, bookingDates);
      match gateway(request)
      case Created(secret) => Ok(IntentIssued(request, secret))
      case CardDeclined(message) => Fail(BadRequest, message)
      case CreateFailed => Fail(ServerError, "Failed to create payment intent")
  }

  /** A refused request never reaches the gateway: whatever the gateway
      would have answered, the response is the same. */
  lemma RefusedIntentSkipsGateway(l: Ledger, requester: nat, amount: AmountInput, currency: Option<string>,
                                  postId: Param, bookingDates: Option<string>,
                                  g1: IntentRequest -> Creation, g2: IntentRequest -> Creation)
    requires IntentGuards(l, requester, amount, postId).Err?
    ensures CreatePaymentIntent(l, requester, amount, currency, postId, bookingDates, g1)
         == CreatePaymentIntent(l, requester, amount, currency, postId, bookingDates, g2)
    ensures CreatePaymentIntent(l, requester, amount, currency, postId, bookingDates, g1).Err?
  {
  }

  /** The currency tag is not validated: any text, or none (then "ngn"),
      goes to the gateway lower-cased, and reading it back upper-cased gives
      the requested code in upper case. */
  lemma IntentCurrencyRoundTrip(requester: nat, amount: AmountInput, currency: Option<string>,
                                postId: Param, bookingDates: Option<string>)
    requires AmountValid(amount)
    ensures var q := IntentRequestFor(requester, amount, currency, postId, bookingDates);
      ToUpper(q.currency) == ToUpper(if Given(currency) then currency.value else "ngn")
  {
  }

  // ---------------------------------------------------------------------
  // Confirmation (confirmPayment)
  // ---------------------------------------------------------------------

  /** A client date as `new Date(...)` reads it: an instant in
      milliseconds, or an Invalid Date for a missing or unreadable value. */
  datatype DateInput = At(ms: int) | InvalidDate

  /** The `bookingData` of a confirmation: requested dates and guest count. */
  datatype BookingData = BookingData(startDate: DateInput, endDate: DateInput, guests: Option<int>)

  /** Both requested dates are real instants. */
  predicate DatesRead(d: BookingData)
  {
    d.startDate.At? && d.endDate.At?
  }

  /** The metadata column: the `JSON.stringify` text of a truthy
      `purchaseOptions`, null for a falsy one. The parameter already holds
      the text the serialiser produces. */
  function MetadataOf(purchaseOptions: Option<string>): (m: Option<string>)
    ensures m.Some? <==> Given(purchaseOptions)
    ensures m.Some? ==> m == purchaseOptions
  {
    if Given(purchaseOptions) then purchaseOptions else None
  }

  datatype Confirmation = Confirmation(payment: Payment, booking: Option<Booking>)

  /** The inclusive overlap test of the conflict query, or an exact match of
      both dates (the second `OR` branch). */
  predicate Overlaps(b: Booking, start: int, end: int)
  {
    (b.startDate <= end && b.endDate >= start) || (b.startDate == start && b.endDate == end)
  }

  /** A booking that blocks the requested range on `postId`. */
  predicate Blocks(b: Booking, postId: nat, start: int, end: int)
  {
    b.postId == postId && Holding(b) && Overlaps(b, start, end)
  }

  predicate HasConflict(bookings: seq<Booking>, postId: nat, start: int, end: int)
  {
    exists i :: 0 <= i < |bookings| && Blocks(bookings[i], postId, start, end)
  }

  /** The store-wide invariant the conflict check protects: no two holding
      bookings of one post overlap. */
  predicate NoDoubleBooking(bookings: seq<Booking>)
  {
    forall i, j :: 0 <= i < j < |bookings| ==>
      !Blocks(bookings[i], bookings[j].postId, bookings[j].startDate, bookings[j].endDate) || !Holding(bookings[j])
  }

  /** For a well-ordered range the exact-match branch adds nothing to the
      inclusive test. */
  lemma ExactMatchSubsumed(b: Booking, start: int, end: int)
    requires start <= end
    requires b.startDate == start && b.endDate == end
    ensures b.startDate <= end && b.endDate >= start
  {
  }

  /** Start <= end is never checked, and for an inverted range the
      exact-match branch is what still detects the duplicate: without it an
      identical inverted booking would pass. */
  lemma ExactMatchCatchesInvertedRange()
    ensures var b := Booking(1, 7, 2, 20 * DayMs, 10 * DayMs, 5.0, Confirmed, 1, Some(1), Some(0), None);
      && !(b.startDate <= b.endDate && b.endDate >= b.startDate)
      && Blocks(b, 7, 20 * DayMs, 10 * DayMs)
  {
  }

  /** Stays that only touch (one ends the day the next begins) conflict,
      because the test is inclusive at both ends. */
  lemma BackToBackStaysConflict(b: Booking, start: int, end: int)
    requires Holding(b) && b.startDate <= b.endDate && b.endDate == start && start <= end
    ensures Blocks(b, b.postId, start, end)
  {
  }

  /** The sale update: the listing with id `id` becomes paid. A listing is
      paid afterwards exactly when it was paid before or is the one sold,
      and nothing but the paid flag changes. */
  function MarkPaid(posts: seq<Post>, id: nat): (r: seq<Post>)
    ensures |r| == |posts|
    ensures forall i :: 0 <= i < |posts| ==> r[i] == posts[i].(isPaid := r[i].isPaid)
    ensures forall i :: 0 <= i < |posts| ==> (r[i].isPaid <==> posts[i].isPaid || posts[i].id == id)
  {
    seq(|posts|, i requires 0 <= i < |posts| => if posts[i].id == id then posts[i].(isPaid := true) else posts[i])
  }

  /** The transaction of `confirmPayment`, run once every guard has passed:
      insert the completed Payment, mark a sale listing paid, and for a
      rental with dates insert a confirmed Booking. An Invalid Date makes
      the store reject the conflict query, and a taken range throws; either
      way the transaction rolls back and nothing at all is written. */
  function Settle(l: Ledger, requester: nat, post: Post, intent: Intent,
                  bookingData: Option<BookingData>, purchaseOptions: Option<string>, now: int): (s: Step<Confirmation>)
    ensures var rental := bookingData.Some? && post.kind == "rent";
      s.result.Err? <==>
        (rental &&
         (!DatesRead(bookingData.value) ||
          HasConflict(l.bookings, post.id, Midnight(bookingData.value.startDate.ms), Midnight(bookingData.value.endDate.ms))))
    ensures s.result.Err? ==> s.ledger == l
    ensures bookingData.Some? && post.kind == "rent" && !DatesRead(bookingData.value) ==>
      s.result == Fail(ServerError, "Failed to confirm payment")
    ensures bookingData.Some? && post.kind == "rent" && DatesRead(bookingData.value) && s.result.Err? ==>
      s.result == Fail(ServerError, "Selected dates are not available")
    ensures s.result.Ok? ==>
      var p := s.result.value.payment;
      && s.ledger.payments == l.payments + [p]
      && (forall q :: q in l.payments ==> q.id != p.id)
      && p.status.Completed? && p.userId == requester && p.postId == Some(post.id)
      && p.transactionId == Some(intent.id) && p.amount == intent.amount as real / 100.0
      && p.currency == ToUpper(intent.currency) && p.completedAt == Some(now)
      && p.bookingId.None? && p.metadata == MetadataOf(purchaseOptions)
      && (p.transactionType == Some(Rental) <==> bookingData.Some?)
      && s.ledger.posts == (if post.kind == "buy" then MarkPaid(l.posts, post.id) else l.posts)
      && s.ledger == l.(payments := s.ledger.payments, posts := s.ledger.posts, bookings := s.ledger.bookings)
    ensures s.result.Ok? ==>
      if bookingData.Some? && post.kind == "rent" then
        var b := s.result.value.booking;
        && b.Some?
        && s.ledger.bookings == l.bookings + [b.value]
        && b.value.status.Confirmed? && b.value.postId == post.id && b.value.userId == requester
        && b.value.paymentId == Some(s.result.value.payment.id)
        && DatesRead(bookingData.value)
        && b.value.startDate == Midnight(bookingData.value.startDate.ms)
        && b.value.endDate == Midnight(bookingData.value.endDate.ms)
        && b.value.guests == OrNum(bookingData.value.guests, 1)
        && b.value.confirmedAt == Some(now)
        && (forall c :: c in l.bookings ==> c.id != b.value.id)
      else s.result.value.booking.None? && s.ledger.bookings == l.bookings
  {
    var payment := Payment(
      NextId(l.payments, (q: Payment) => q.id), intent.amount as real / 100.0, ToUpper(intent.currency), "credit_card", None,
      requester, Some(post.id), PaymentStatus.Completed, Some(intent.id),
      Some(if bookingData.Some? then Rental else Sale), MetadataOf(purchaseOptions), now, Some(now), None);
    var posts := if post.kind == "buy" then MarkPaid(l.posts, post.id) else l.posts;
    if bookingData.Some? && post.kind == "rent" then
      if !DatesRead(bookingData.value) then
        Refuse(l, ServerError, "Failed to confirm payment")
      else
        var start := Midnight(bookingData.value.startDate.ms);
        var end := Midnight(bookingData.value.endDate.ms);
        if HasConflict(l.bookings, post.id, start, end) then
          Refuse(l, ServerError, "Selected dates are not available")
        else
          var booking := Booking(
            NextId(l.bookings, (c: Booking) => c.id), post.id, requester, start, end, intent.amount as real / 100.0,
            Confirmed, OrNum(bookingData.value.guests, 1), Some(payment.id), Some(now), None);
          Step(l.(payments := l.payments + [payment], posts := posts, bookings := l.bookings + [booking]),
               Ok(Confirmation(payment, Some(booking))))
    else
      Step(l.(payments := l.payments + [payment], posts := posts), Ok(Confirmation(payment, None)))
  }

  /** `confirmPayment`: the guard chain (identity, required fields, gateway
      status, listing, ownership), then the all-or-nothing transaction. */
  function ConfirmPayment(l: Ledger, requester: nat, intentId: Option<string>, postId: Param,
                          bookingData: Option<BookingData>, purchaseOptions: Option<string>,
                          retrieve: string -> Lookup, now: int): (s: Step<Confirmation>)
    ensures s.result.Err? ==> s.ledger == l
    ensures requester == 0 ==> s.result == Fail(Unauthorized, "Not authenticated")
    ensures requester != 0 && (!Given(intentId) || !Truthy(postId)) ==>
      s.result == Fail(BadRequest, "paymentIntentId and postId are required")
    ensures (requester != 0 && Given(intentId) && Truthy(postId) && retrieve(intentId.value).Retrieved?
             && !Succeeded(retrieve(intentId.value))) ==>
      s.result == Fail(BadRequest, "Payment not completed. Status: " + retrieve(intentId.value).intent.status)
    ensures requester != 0 && Given(intentId) && Parsed(postId) && Succeeded(retrieve(intentId.value)) ==>
      (PostById(l, postId.n).None? ==> s.result == Fail(NotFound, "Post not found")) &&
      (PostById(l, postId.n).Some? && PostById(l, postId.n).value.ownerId == requester ==>
         s.result == Fail(Forbidden, "You cannot pay for your own property")) &&
      (PostById(l, postId.n).Some? && PostById(l, postId.n).value.ownerId != requester ==>
         s == Settle(l, requester, PostById(l, postId.n).value, retrieve(intentId.value).intent,
                     bookingData, purchaseOptions, now))
    ensures requester != 0 && Given(intentId) && Truthy(postId) && retrieve(intentId.value).Unreachable? ==>
      s.result.Err? && s.result.failure.status == ServerError
    ensures requester != 0 && Given(intentId) && postId.NotNumeric? && Succeeded(retrieve(intentId.value)) ==>
      s.result == Fail(ServerError, "Failed to confirm payment")
    ensures s.result.Ok? ==>
      && requester != 0 && Given(intentId) && Parsed(postId)
      && Succeeded(retrieve(intentId.value))
      && PostById(l, postId.n).Some? && PostById(l, postId.n).value.ownerId != requester
      && s == Settle(l, requester, PostById(l, postId.n).value, retrieve(intentId.value).intent,
                     bookingData, purchaseOptions, now)
  {
    if requester == 0 then Refuse(l, Unauthorized, "Not authenticated")
    else if !Given(intentId) || !Truthy(postId) then Refuse(l, BadRequest, "paymentIntentId and postId are required")
    else
      match retrieve(intentId.value)
      case Unreachable(message) =>
        Refuse(l, ServerError, if message != "" then message else "Failed to confirm payment")
      case Retrieved(intent) =>
        if intent.status != "succeeded" then Refuse(l, BadRequest, "Payment not completed. Status: " + intent.status)
        else if postId.NotNumeric? then Refuse(l, ServerError, "Failed to confirm payment")
        else
          match PostById(l, postId.n)
          case None => Refuse(l, NotFound, "Post not found")
          case Some(post) =>
            if post.ownerId == requester then Refuse(l, Forbidden, "You cannot pay for your own property")
            else Settle(l, requester, post, intent, bookingData, purchaseOptions, now)
  }

  /** A Payment row is created exactly when the call succeeds, and a call
      succeeds only if the gateway reported the intent as "succeeded"; the
      new row carries the gateway's id and amount, not the client's. */
  lemma PaymentOnlyOnGatewaySuccess(l: Ledger, requester: nat, intentId: Option<string>, postId: Param,
                                    bookingData: Option<BookingData>, purchaseOptions: Option<string>,
                                    retrieve: string -> Lookup, now: int)
    ensures var s := ConfirmPayment(l, requester, intentId, postId, bookingData, purchaseOptions, retrieve, now);
      && |s.ledger.payments| == |l.payments| + (if s.result.Ok? then 1 else 0)
      && (s.result.Ok? ==>
            && Succeeded(retrieve(intentId.value))
            && s.result.value.payment.transactionId == Some(retrieve(intentId.value).intent.id)
            && s.result.value.payment.amount == retrieve(intentId.value).intent.amount as real / 100.0)
      && (!Given(intentId) || !Succeeded(retrieve(intentId.value)) ==> s.ledger == l)
  {
  }

  /** The stored amounts are the gateway's minor units over 100: rounding
      them back to minor units gives the intent's amount again, and a
      booking's total is its payment's amount. */
  lemma StoredAmountRoundTrip(l: Ledger, requester: nat, post: Post, intent: Intent,
                              bookingData: Option<BookingData>, purchaseOptions: Option<string>, now: int)
    requires Settle(l, requester, post, intent, bookingData, purchaseOptions, now).result.Ok?
    ensures var c := Settle(l, requester, post, intent, bookingData, purchaseOptions, now).result.value;
      && MinorUnits(c.payment.amount) == intent.amount
      && (c.booking.Some? ==> c.booking.value.totalAmount == c.payment.amount)
  {
    var c := Settle(l, requester, post, intent, bookingData, purchaseOptions, now).result.value;
    assert c.payment.amount * 100.0 == intent.amount as real;
  }

  /** End to end: when `createPaymentIntent` asked the gateway for a
      finite amount, and the intent later confirmed is charged for exactly
      what was asked, the payment `confirmPayment` records is the client's
      amount to within half a minor unit. */
  lemma RecordedAmountNearRequested(l: Ledger, requester: nat, amount: AmountInput, currency: Option<string>,
                                    postId: Param, bookingDates: Option<string>, gateway: IntentRequest -> Creation,
                                    later: Ledger, intentId: Option<string>, bookingData: Option<BookingData>,
                                    purchaseOptions: Option<string>, retrieve: string -> Lookup, now: int)
    requires CreatePaymentIntent(l, requester, amount, currency, postId, bookingDates, gateway).Ok?
    requires var q := CreatePaymentIntent(l, requester, amount, currency, postId, bookingDates, gateway).value.request;
      q.amountMinor.Units? && Given(intentId) && retrieve(intentId.value).Retrieved?
      && retrieve(intentId.value).intent.amount == q.amountMinor.n
    requires ConfirmPayment(later, requester, intentId, postId, bookingData, purchaseOptions, retrieve, now).result.Ok?
    ensures AmountOf(amount).Some? && AmountOf(amount).value.Finite?
    ensures var p := ConfirmPayment(later, requester, intentId, postId, bookingData, purchaseOptions, retrieve, now).result.value.payment;
      -0.005 < p.amount - AmountOf(amount).value.x <= 0.005
  {
    var q := CreatePaymentIntent(l, requester, amount, currency, postId, bookingDates, gateway).value.request;
    assert AmountOf(amount).value.Finite?;
    var x := AmountOf(amount).value.x;
    var n := q.amountMinor.n;
    assert n == MinorUnits(x);
    assert n as real - 0.5 <= x * 100.0 < n as real + 0.5;
    var p := ConfirmPayment(later, requester, intentId, postId, bookingData, purchaseOptions, retrieve, now).result.value.payment;
    assert p.amount == n as real / 100.0;
    assert p.amount * 100.0 == n as real;
    assert (p.amount - x) * 100.0 == n as real - x * 100.0;
  }

  /** A sale confirmation marks exactly the bought listing as paid, changes
      no other listing, and creates no booking. */
  lemma SaleMarksOnlyThatPostPaid(l: Ledger, requester: nat, post: Post, intent: Intent,
                                  bookingData: Option<BookingData>, purchaseOptions: Option<string>, now: int)
    requires post.kind == "buy"
    ensures var s := Settle(l, requester, post, intent, bookingData, purchaseOptions, now);
      && s.result.Ok?
      && s.result.value.booking.None?
      && s.ledger.bookings == l.bookings
      && |s.ledger.posts| == |l.posts|
      && (forall i :: 0 <= i < |l.posts| && l.posts[i].id == post.id ==> s.ledger.posts[i].isPaid)
      && (forall i :: 0 <= i < |l.posts| && l.posts[i].id != post.id ==> s.ledger.posts[i] == l.posts[i])
  {
  }

  /** Confirmation keeps the no-double-booking invariant: the only booking it
      can add was checked against every holding booking of its post. */
  lemma {:induction false} SettleKeepsNoDoubleBooking(l: Ledger, requester: nat, post: Post, intent: Intent,
                                                     bookingData: Option<BookingData>, purchaseOptions: Option<string>, now: int)
    requires NoDoubleBooking(l.bookings)
    ensures NoDoubleBooking(Settle(l, requester, post, intent, bookingData, purchaseOptions, now).ledger.bookings)
  {
    var s := Settle(l, requester, post, intent, bookingData, purchaseOptions, now);
    if s.result.Ok? && bookingData.Some? && post.kind == "rent" {
      var b := s.result.value.booking.value;
      var bs := s.ledger.bookings;
      assert !HasConflict(l.bookings, post.id, b.startDate, b.endDate);
      forall i, j | 0 <= i < j < |bs|
        ensures !Blocks(bs[i], bs[j].postId, bs[j].startDate, bs[j].endDate) || !Holding(bs[j])
      {
        if j == |bs| - 1 {
          assert bs[j] == b && bs[i] == l.bookings[i];
        } else {
          assert bs[i] == l.bookings[i] && bs[j] == l.bookings[j];
        }
      }
    }
  }

  lemma ConfirmKeepsNoDoubleBooking(l: Ledger, requester: nat, intentId: Option<string>, postId: Param,
                                    bookingData: Option<BookingData>, purchaseOptions: Option<string>,
                                    retrieve: string -> Lookup, now: int)
    requires NoDoubleBooking(l.bookings)
    ensures NoDoubleBooking(ConfirmPayment(l, requester, intentId, postId, bookingData, purchaseOptions, retrieve, now).ledger.bookings)
  {
    var s := ConfirmPayment(l, requester, intentId, postId, bookingData, purchaseOptions, retrieve, now);
    if s.result.Ok? {
      SettleKeepsNoDoubleBooking(l, requester, PostById(l, postId.n).value, retrieve(intentId.value).intent,
                                 bookingData, purchaseOptions, now);
    }
  }

  /** A rental whose dates meet a holding booking of the same post aborts the
      whole confirmation: no Payment, no Booking, no listing change. */
  lemma ConflictAbortsEverything(l: Ledger, requester: nat, post: Post, intent: Intent,
                                 data: BookingData, purchaseOptions: Option<string>, now: int, k: nat)
    requires post.kind == "rent" && k < |l.bookings| && DatesRead(data)
    requires Blocks(l.bookings[k], post.id, Midnight(data.startDate.ms), Midnight(data.endDate.ms))
    ensures Settle(l, requester, post, intent, Some(data), purchaseOptions, now)
         == Refuse(l, ServerError, "Selected dates are not available")
  {
  }

  /** A rental whose dates do not parse aborts the whole confirmation too,
      after the gateway has already taken the money: the charge stands with
      no Payment recorded. */
  lemma InvalidDateAbortsEverything(l: Ledger, requester: nat, intentId: Option<string>, postId: Param,
                                    data: BookingData, purchaseOptions: Option<string>,
                                    retrieve: string -> Lookup, now: int)
    requires !DatesRead(data)
    requires requester != 0 && Given(intentId) && Parsed(postId) && Succeeded(retrieve(intentId.value))
    requires PostById(l, postId.n).Some? && PostById(l, postId.n).value.ownerId != requester
    requires PostById(l, postId.n).value.kind == "rent"
    ensures ConfirmPayment(l, requester, intentId, postId, Some(data), purchaseOptions, retrieve, now)
         == Refuse(l, ServerError, "Failed to confirm payment")
  {
  }

  /** A falsy `purchaseOptions` is stored as null, a truthy one as its text. */
  lemma FalsyOptionsStoredAsNull(l: Ledger, requester: nat, post: Post, intent: Intent,
                                 bookingData: Option<BookingData>, purchaseOptions: Option<string>, now: int)
    requires Settle(l, requester, post, intent, bookingData, purchaseOptions, now).result.Ok?
    ensures var p := Settle(l, requester, post, intent, bookingData, purchaseOptions, now).result.value.payment;
      (purchaseOptions == Some("") || purchaseOptions.None? ==> p.metadata.None?) &&
      (Given(purchaseOptions) ==> p.metadata == purchaseOptions)
  {
  }

  /** The controller has no duplicate check on the gateway intent id:
      confirming one sale intent twice inserts two payments with the same
      `transactionId`. */
  lemma SameIntentTwiceGivesTwoPayments(l: Ledger, requester: nat, post: Post, intent: Intent, now: int)
    requires post.kind == "buy"
    ensures var s1 := Settle(l, requester, post, intent, None, None, now);
      var s2 := Settle(s1.ledger, requester, post, intent, None, None, now);
      && s2.result.Ok?
      && |s2.ledger.payments| == |l.payments| + 2
      && s2.ledger.payments[|l.payments|].transactionId == s2.ledger.payments[|l.payments| + 1].transactionId
  {
  }

  // ---------------------------------------------------------------------
  // Webhook (handleWebhook)
  // ---------------------------------------------------------------------

  /** The outcome of `webhooks.constructEvent` on the raw body and the
      signature header. */
  datatype Verification = Verified(eventType: string) | SignatureRejected(message: string)

  /** `handleWebhook`: a verified event of any type is acknowledged without
      touching the ledger; a failed signature check is a 400. */
  function HandleWebhook(l: Ledger, body: string, signature: string,
                         verify: (string, string) -> Verification): (s: Step<bool>)
    ensures s.ledger == l
    ensures s.result.Ok? <==> verify(body, signature).Verified?
    ensures s.result.Ok? ==> s.result.value
    ensures s.result.Err? ==>
      s.result.failure == Failure(BadRequest, "Webhook Error: " + verify(body, signature).message)
  {
    match verify(body, signature)
    case SignatureRejected(message) => Refuse(l, BadRequest, "Webhook Error: " + message)
    case Verified(_) => Step(l, Ok(true))
  }

  /** The acknowledgement depends on the signature check alone: whatever
      the ledger holds and whatever the event type, the answer is the same
      and nothing is written. */
  lemma WebhookIgnoresLedger(l1: Ledger, l2: Ledger, body: string, signature: string,
                             verify: (string, string) -> Verification)
    ensures HandleWebhook(l1, body, signature, verify).result == HandleWebhook(l2, body, signature, verify).result
    ensures HandleWebhook(l1, body, signature, verify).ledger == l1
    ensures HandleWebhook(l2, body, signature, verify).ledger == l2
  {
  }

  // ---------------------------------------------------------------------
  // Stale sweep (cleanupStalePayments)
  // ---------------------------------------------------------------------

  /** Selected by the sweep's query: pending and created at least an hour
      before `now`. */
  predicate Stale(p: Payment, now: int)
  {
    p.status.Pending? && p.createdAt <= now - HourMs
  }

  /** A stale payment with a transaction id that the gateway does not
      confirm, either by a non-"succeeded" status or by failing to answer. */
  predicate Expires(p: Payment, now: int, retrieve: string -> Lookup)
  {
    Stale(p, now) && Given(p.transactionId) && !Succeeded(retrieve(p.transactionId.value))
  }

  function ExpirePayment(p: Payment, now: int, retrieve: string -> Lookup): Payment
  {
    if Expires(p, now, retrieve) then p.(status := Failed) else p
  }

  /** The bookings named by the `bookingId` of an expiring payment. */
  function DoomedBookings(payments: seq<Payment>, now: int, retrieve: string -> Lookup): set<nat>
  {
    set p | p in payments && Expires(p, now, retrieve) && p.bookingId.Some? && p.bookingId.value != 0 :: p.bookingId.value
  }

  function CancelIf(b: Booking, doomed: set<nat>, now: int): Booking
  {
    if b.id in doomed then b.(status := BookingStatus.Cancelled, cancelledAt := Some(now)) else b
  }

  /** `cleanupStalePayments`: one transaction over every stale payment. An
      update of a linked booking that does not exist throws and rolls the
      whole sweep back. */
  function CleanupStalePayments(l: Ledger, now: int, retrieve: string -> Lookup): (s: Step<()>)
    ensures s.result.Err? ==> s.ledger == l && s.result.failure.status == ServerError
    ensures s.result.Err? <==>
      exists p :: p in l.payments && Expires(p, now, retrieve) && p.bookingId.Some? && p.bookingId.value != 0
        && BookingById(l, p.bookingId.value).None?
    ensures s.result.Ok? ==>
      && s.ledger == l.(payments := s.ledger.payments, bookings := s.ledger.bookings)
      && |s.ledger.payments| == |l.payments|
      && |s.ledger.bookings| == |l.bookings|
      && (forall i :: 0 <= i < |l.payments| && Expires(l.payments[i], now, retrieve) ==>
            s.ledger.payments[i] == l.payments[i].(status := Failed))
      && (forall i :: 0 <= i < |l.payments| && !Expires(l.payments[i], now, retrieve) ==>
            s.ledger.payments[i] == l.payments[i])
  {
    var doomed := DoomedBookings(l.payments, now, retrieve);
    if exists id :: id in doomed && BookingById(l, id).None? then
      Refuse(l, ServerError, "Failed to clean up payments")
    else
      var payments := seq(|l.payments|, i requires 0 <= i < |l.payments| => ExpirePayment(l.payments[i], now, retrieve));
      var bookings := seq(|l.bookings|, i requires 0 <= i < |l.bookings| => CancelIf(l.bookings[i], doomed, now));
      Step(l.(payments := payments, bookings := bookings), Ok(()))
  }

  /** Only stale, gateway-unconfirmed payments change, and they change only
      to "failed"; a stale payment the gateway reports as succeeded, or one
      without a transaction id, stays pending. */
  lemma SweepTouchesOnlyExpired(l: Ledger, now: int, retrieve: string -> Lookup, i: nat)
    requires i < |l.payments|
    requires CleanupStalePayments(l, now, retrieve).result.Ok?
    ensures var p := l.payments[i];
      var q := CleanupStalePayments(l, now, retrieve).ledger.payments[i];
      && (q != p ==> Stale(p, now) && Given(p.transactionId) && q == p.(status := Failed))
      && (Stale(p, now) && (!Given(p.transactionId) || Succeeded(retrieve(p.transactionId.value))) ==> q == p && q.status.Pending?)
  {
  }

  /** A booking changes only if an expiring payment links to it, and then it
      is cancelled with `cancelledAt` set to the sweep time. */
  lemma SweepCancelsLinkedBookings(l: Ledger, now: int, retrieve: string -> Lookup, j: nat)
    requires j < |l.bookings|
    requires CleanupStalePayments(l, now, retrieve).result.Ok?
    ensures var b := l.bookings[j];
      var c := CleanupStalePayments(l, now, retrieve).ledger.bookings[j];
      && ((exists p :: p in l.payments && Expires(p, now, retrieve) && p.bookingId == Some(b.id) && b.id != 0) ==>
            c.status.Cancelled? && c.cancelledAt == Some(now) && c == b.(status := BookingStatus.Cancelled, cancelledAt := Some(now)))
      && (c != b ==> exists p :: p in l.payments && Expires(p, now, retrieve) && p.bookingId == Some(b.id))
  {
    var doomed := DoomedBookings(l.payments, now, retrieve);
    var b := l.bookings[j];
    if exists p :: p in l.payments && Expires(p, now, retrieve) && p.bookingId == Some(b.id) && b.id != 0 {
      var p :| p in l.payments && Expires(p, now, retrieve) && p.bookingId == Some(b.id) && b.id != 0;
      assert b.id in doomed;
    }
  }

  /** Cancelling bookings only releases dates, so the sweep keeps the
      no-double-booking invariant. */
  lemma SweepKeepsNoDoubleBooking(l: Ledger, now: int, retrieve: string -> Lookup)
    requires NoDoubleBooking(l.bookings)
    ensures NoDoubleBooking(CleanupStalePayments(l, now, retrieve).ledger.bookings)
  {
    var s := CleanupStalePayments(l, now, retrieve);
    if s.result.Ok? {
      var bs := s.ledger.bookings;
      var doomed := DoomedBookings(l.payments, now, retrieve);
      forall i, j | 0 <= i < j < |bs|
        ensures !Blocks(bs[i], bs[j].postId, bs[j].startDate, bs[j].endDate) || !Holding(bs[j])
      {
        assert bs[i] == CancelIf(l.bookings[i], doomed, now);
        assert bs[j] == CancelIf(l.bookings[j], doomed, now);
      }
    }
  }

  /** A second sweep at the same instant with the same gateway answers finds
      nothing left to do. */
  lemma SweepIdempotent(l: Ledger, now: int, retrieve: string -> Lookup)
    requires CleanupStalePayments(l, now, retrieve).result.Ok?
    ensures var once := CleanupStalePayments(l, now, retrieve).ledger;
      CleanupStalePayments(once, now, retrieve) == Step(once, Ok(()))
  {
    var once := CleanupStalePayments(l, now, retrieve).ledger;
    assert forall p :: p in once.payments ==> !Expires(p, now, retrieve);
    assert DoomedBookings(once.payments, now, retrieve) == {};
    var payments := seq(|once.payments|, i requires 0 <= i < |once.payments| => ExpirePayment(once.payments[i], now, retrieve));
    assert payments == once.payments;
    var bookings := seq(|once.bookings|, i requires 0 <= i < |once.bookings| => CancelIf(once.bookings[i], {}, now));
    assert bookings == once.bookings;
  }

  /** A payment made by `confirmPayment` is never touched by the sweep: it is
      completed, not pending, and its `bookingId` link is never set, so the
      booking it funded is reachable only through the booking's own
      `paymentId`. */
  lemma ConfirmedPaymentsSurviveSweep(l: Ledger, requester: nat, post: Post, intent: Intent,
                                      bookingData: Option<BookingData>, purchaseOptions: Option<string>,
                                      now: int, later: int, retrieve: string -> Lookup)
    requires Settle(l, requester, post, intent, bookingData, purchaseOptions, now).result.Ok?
    ensures var p := Settle(l, requester, post, intent, bookingData, purchaseOptions, now).result.value.payment;
      !Expires(p, later, retrieve) && p.bookingId.None?
  {
  }
}

=== FILE: posts.dfy ===
/** Listings (`controllers/postController.js`): reading one listing with its
    next free date, the filtered and paged catalogue, creating, updating and
    deleting a listing. */
module Posts {
  import opened Common
  import opened Text
  import opened Ledger

  // ---------------------------------------------------------------------
  // Request bodies
  // ---------------------------------------------------------------------

  /** The `postData` of a request. Text fields hold the raw value (None when
      absent); numeric fields hold what `parseInt` makes of the sent value,
      with its truthiness (see `Param`). */
  datatype PostInput = PostInput(
    title: Option<string>,
    price: Param,
    address: Option<string>,
    city: Option<string>,
    bedroom: Param,
    bathroom: Param,
    kind: Option<string>,
    property: Option<string>,
    images: Option<seq<string>>,
    state: Option<string>,
    country: Option<string>,
    zipCode: Option<string>,
    ownershipType: Option<string>,
    titleDeedStatus: Option<string>,
    financingOptions: Option<string>,
    lotSize: Param,
    zoning: Option<string>)

  const NoPostInput: PostInput := PostInput(
    None, Absent, None, None, Absent, Absent, None, None, None,
    None, None, None, None, None, None, Absent, None)

  /** The `postDetail` of a request; flags are None when `undefined`. */
  datatype DetailInput = DetailInput(
    description: Option<string>,
    utilities: Option<string>,
    pet: Option<string>,
    income: Option<string>,
    size: Param,
    school: Param,
    bus: Param,
    restaurant: Param,
    wifi: Option<bool>,
    airConditioning: Option<bool>,
    parking: Option<bool>,
    securityPersonnel: Option<bool>,
    furnished: Option<bool>,
    homeWarranty: Option<bool>,
    renovationHistory: Option<string>,
    includedAppliances: Option<string>,
    hoaAmenities: Option<string>,
    energyEfficiency: Option<string>,
    airport: Param,
    supermarket: Param,
    shoppingMall: Param,
    nearestClub: Param,
    hospital: Param,
    beach: Param,
    publicTransport: Param,
    restaurants: Param)

  const NoDetailInput: DetailInput := DetailInput(
    None, None, None, None, Absent, Absent, Absent, Absent,
    None, None, None, None, None, None,
    None, None, None, None,
    Absent, Absent, Absent, Absent, Absent, Absent, Absent, Absent)

  /** `parseInt` of a truthy numeric field that reads as NaN reaches the
      store, which refuses it; these hold when no numeric field does. */
  predicate NumbersRead(d: PostInput)
  {
    !d.price.NotNumeric? && !d.bedroom.NotNumeric? && !d.bathroom.NotNumeric? && !d.lotSize.NotNumeric?
  }

  predicate DetailNumbersRead(d: DetailInput)
  {
    && !d.size.NotNumeric? && !d.school.NotNumeric? && !d.bus.NotNumeric? && !d.restaurant.NotNumeric?
    && !d.airport.NotNumeric? && !d.supermarket.NotNumeric? && !d.shoppingMall.NotNumeric?
    && !d.nearestClub.NotNumeric? && !d.hospital.NotNumeric? && !d.beach.NotNumeric?
    && !d.publicTransport.NotNumeric? && !d.restaurants.NotNumeric?
  }

  // ---------------------------------------------------------------------
  // Field merge and defaults
  // ---------------------------------------------------------------------

  /** The `sent || stored` rule for one text field: a non-empty sent text
      replaces the stored one, anything else keeps it. */
  predicate TakesText(sent: Option<string>, before: string, after: string)
  {
    (Given(sent) ==> after == sent.value) && (!Given(sent) ==> after == before)
  }

  predicate TakesNullableText(sent: Option<string>, before: Option<string>, after: Option<string>)
  {
    (Given(sent) ==> after == sent) && (!Given(sent) ==> after == before)
  }

  /** The `sent ? parseInt(sent) : stored` rule for one numeric field: a
      truthy sent value (the text "0" included) replaces the stored one
      with its parsed value, a falsy one keeps it. */
  predicate TakesNumber(sent: Param, before: int, after: int)
  {
    (Parsed(sent) ==> after == sent.n) && (!Truthy(sent) ==> after == before)
  }

  predicate TakesNullableNumber(sent: Param, before: Option<int>, after: Option<int>)
  {
    (Parsed(sent) ==> after == Some(sent.n)) && (!Truthy(sent) ==> after == before)
  }

  /** The listing row `updatePost` writes: each field takes the supplied
      value when it is truthy and keeps the stored one otherwise; an images
      array is always truthy, so a supplied one, even empty, replaces the
      stored list. Identity, owner, flags, rating and dates are never
      touched. */
  function MergePost(p: Post, d: PostInput): (r: Post)
    ensures r.id == p.id && r.ownerId == p.ownerId && r.isActive == p.isActive && r.isPaid == p.isPaid
    ensures r.rating == p.rating && r.availableFrom == p.availableFrom && r.createdAt == p.createdAt
    ensures TakesText(d.title, p.title, r.title) && TakesText(d.address, p.address, r.address)
    ensures TakesText(d.city, p.city, r.city) && TakesText(d.kind, p.kind, r.kind)
    ensures TakesText(d.property, p.property, r.property) && TakesText(d.state, p.state, r.state)
    ensures TakesText(d.country, p.country, r.country) && TakesText(d.zipCode, p.zipCode, r.zipCode)
    ensures TakesNullableText(d.ownershipType, p.ownershipType, r.ownershipType)
    ensures TakesNullableText(d.titleDeedStatus, p.titleDeedStatus, r.titleDeedStatus)
    ensures TakesNullableText(d.financingOptions, p.financingOptions, r.financingOptions)
    ensures TakesNullableText(d.zoning, p.zoning, r.zoning)
    ensures TakesNumber(d.price, p.price, r.price) && TakesNumber(d.bedroom, p.bedroom, r.bedroom)
    ensures TakesNumber(d.bathroom, p.bathroom, r.bathroom) && TakesNullableNumber(d.lotSize, p.lotSize, r.lotSize)
    ensures d.images.Some? ==> r.images == d.images.value
    ensures d.images.None? ==> r.images == p.images
  {
    Post(
      p.id, p.ownerId,
      OrText(d.title, p.title),
      OrParsed(d.price, p.price),
      OrText(d.address, p.address),
      OrText(d.city, p.city),
      OrParsed(d.bedroom, p.bedroom),
      OrParsed(d.bathroom, p.bathroom),
      OrText(d.kind, p.kind),
      OrText(d.property, p.property),
      if d.images.Some? then d.images.value else p.images,
      OrText(d.state, p.state),
      OrText(d.country, p.country),
      OrText(d.zipCode, p.zipCode),
      OrNullableText(d.ownershipType, p.ownershipType),
      OrNullableText(d.titleDeedStatus, p.titleDeedStatus),
      OrNullableText(d.financingOptions, p.financingOptions),
      OrParsedNullable(d.lotSize, p.lotSize),
      OrNullableText(d.zoning, p.zoning),
      p.isActive, p.isPaid, p.rating, p.availableFrom, p.createdAt)
  }

  /** An empty `postData` leaves the listing exactly as it was. */
  lemma MergeNothingKeepsPost(p: Post)
    ensures MergePost(p, NoPostInput) == p
  {
  }

  /** Applying the same update twice is applying it once. */
  lemma MergePostIdempotent(p: Post, d: PostInput)
    ensures MergePost(MergePost(p, d), d) == MergePost(p, d)
  {
  }

  /** A falsy value never erases a stored one: an empty title or the
      number 0 as price keeps the stored value. The text "0" is truthy,
      so it does set the price to 0. */
  lemma FalsyNeverErases(p: Post, d: PostInput)
    ensures d.title == Some("") ==> MergePost(p, d).title == p.title
    ensures d.price == Num(0) || d.price == Absent ==> MergePost(p, d).price == p.price
    ensures d.price == Num(0, true) ==> MergePost(p, d).price == 0
    ensures Given(d.title) ==> MergePost(p, d).title == d.title.value
  {
  }

  /** The detail row in the update branch of the upsert: text and numbers
      merge by truthiness, the six flags override whenever supplied, so a
      supplied `false` clears a stored `true`. */
  function MergeDetail(x: PostDetail, d: DetailInput): (r: PostDetail)
    ensures r.postId == x.postId
    ensures TakesText(d.description, x.description, r.description) && TakesText(d.utilities, x.utilities, r.utilities)
    ensures TakesText(d.pet, x.pet, r.pet) && TakesText(d.income, x.income, r.income)
    ensures TakesNumber(d.size, x.size, r.size) && TakesNumber(d.school, x.school, r.school)
    ensures TakesNumber(d.bus, x.bus, r.bus) && TakesNumber(d.restaurant, x.restaurant, r.restaurant)
    ensures TakesNullableText(d.renovationHistory, x.renovationHistory, r.renovationHistory)
    ensures TakesNullableText(d.includedAppliances, x.includedAppliances, r.includedAppliances)
    ensures TakesNullableText(d.hoaAmenities, x.hoaAmenities, r.hoaAmenities)
    ensures TakesNullableText(d.energyEfficiency, x.energyEfficiency, r.energyEfficiency)
    ensures TakesNullableNumber(d.airport, x.airport, r.airport) && TakesNullableNumber(d.supermarket, x.supermarket, r.supermarket)
    ensures TakesNullableNumber(d.shoppingMall, x.shoppingMall, r.shoppingMall)
    ensures TakesNullableNumber(d.nearestClub, x.nearestClub, r.nearestClub)
    ensures TakesNullableNumber(d.hospital, x.hospital, r.hospital) && TakesNullableNumber(d.beach, x.beach, r.beach)
    ensures TakesNullableNumber(d.publicTransport, x.publicTransport, r.publicTransport)
    ensures TakesNullableNumber(d.restaurants, x.restaurants, r.restaurants)
    ensures r.wifi == OrKept(d.wifi, x.wifi) && r.airConditioning == OrKept(d.airConditioning, x.airConditioning)
    ensures r.parking == OrKept(d.parking, x.parking) && r.securityPersonnel == OrKept(d.securityPersonnel, x.securityPersonnel)
    ensures r.furnished == OrKept(d.furnished, x.furnished) && r.homeWarranty == OrKept(d.homeWarranty, x.homeWarranty)
  {
    x.(
      description := OrText(d.description, x.description),
      utilities := OrText(d.utilities, x.utilities),
      pet := OrText(d.pet, x.pet),
      income := OrText(d.income, x.income),
      size := OrParsed(d.size, x.size),
      school := OrParsed(d.school, x.school),
      bus := OrParsed(d.bus, x.bus),
      restaurant := OrParsed(d.restaurant, x.restaurant),
      wifi := OrKept(d.wifi, x.wifi),
      airConditioning := OrKept(d.airConditioning, x.airConditioning),
      parking := OrKept(d.parking, x.parking),
      securityPersonnel := OrKept(d.securityPersonnel, x.securityPersonnel),
      furnished := OrKept(d.furnished, x.furnished),
      homeWarranty := OrKept(d.homeWarranty, x.homeWarranty),
      renovationHistory := OrNullableText(d.renovationHistory, x.renovationHistory),
      includedAppliances := OrNullableText(d.includedAppliances, x.includedAppliances),
      hoaAmenities := OrNullableText(d.hoaAmenities, x.hoaAmenities),
      energyEfficiency := OrNullableText(d.energyEfficiency, x.energyEfficiency),
      airport := OrParsedNullable(d.airport, x.airport),
      supermarket := OrParsedNullable(d.supermarket, x.supermarket),
      shoppingMall := OrParsedNullable(d.shoppingMall, x.shoppingMall),
      nearestClub := OrParsedNullable(d.nearestClub, x.nearestClub),
      hospital := OrParsedNullable(d.hospital, x.hospital),
      beach := OrParsedNullable(d.beach, x.beach),
      publicTransport := OrParsedNullable(d.publicTransport, x.publicTransport),
      restaurants := OrParsedNullable(d.restaurants, x.restaurants))
  }

  /** The flag rule against the text rule: `false` clears a stored flag,
      while an empty description keeps the stored one. */
  lemma FalseFlagOverridesEmptyTextDoesNot(x: PostDetail)
    requires x.wifi && x.description != ""
    ensures var r := MergeDetail(x, NoDetailInput.(wifi := Some(false), description := Some("")));
      !r.wifi && r.description == x.description
  {
  }

  lemma MergeNothingKeepsDetail(x: PostDetail)
    ensures MergeDetail(x, NoDetailInput) == x
  {
  }

  /** The detail row of a listing before anything is sent: "owner",
      "allowed", empty texts, zero counts, every flag off and no
      distances. */
  function DefaultDetail(postId: nat): PostDetail
  {
    PostDetail(
      postId, "", "owner", "allowed", "", 0, 0, 0, 0,
      false, false, false, false, false, false,
      None, None, None, None,
      None, None, None, None, None, None, None, None)
  }

  /** The detail row created for a listing that has none: the create branch
      of the upsert and the nested create of `addPost` use the same
      defaults, and creating is exactly merging the body into the default
      row, so every field follows the update rules with `DefaultDetail`
      as the stored value (`x || false` on a flag is `x` when sent). */
  function NewDetail(postId: nat, d: DetailInput): (r: PostDetail)
    ensures r == MergeDetail(DefaultDetail(postId), d)
    ensures r.postId == postId
    ensures r.wifi <==> d.wifi == Some(true)
    ensures !Given(d.utilities) ==> r.utilities == "owner"
    ensures !Given(d.pet) ==> r.pet == "allowed"
  {
    PostDetail(
      postId,
      OrText(d.description, ""),
      OrText(d.utilities, "owner"),
      OrText(d.pet, "allowed"),
      OrText(d.income, ""),
      OrParsed(d.size, 0), OrParsed(d.school, 0), OrParsed(d.bus, 0), OrParsed(d.restaurant, 0),
      d.wifi == Some(true), d.airConditioning == Some(true), d.parking == Some(true),
      d.securityPersonnel == Some(true), d.furnished == Some(true), d.homeWarranty == Some(true),
      OrNullableText(d.renovationHistory, None), OrNullableText(d.includedAppliances, None),
      OrNullableText(d.hoaAmenities, None), OrNullableText(d.energyEfficiency, None),
      OrParsedNullable(d.airport, None), OrParsedNullable(d.supermarket, None),
      OrParsedNullable(d.shoppingMall, None), OrParsedNullable(d.nearestClub, None),
      OrParsedNullable(d.hospital, None), OrParsedNullable(d.beach, None),
      OrParsedNullable(d.publicTransport, None), OrParsedNullable(d.restaurants, None))
  }

  /** An empty body creates the default row. */
  lemma EmptyDetailDefaults(postId: nat)
    ensures NewDetail(postId, NoDetailInput) == DefaultDetail(postId)
  {
  }

  /** A listing's detail row, as the one-to-one relation of the schema
      (`postId` is unique). */
  predicate HasDetail(details: seq<PostDetail>, postId: nat)
  {
    exists i :: 0 <= i < |details| && details[i].postId == postId
  }

  predicate OneDetailPerPost(details: seq<PostDetail>)
  {
    forall i, j :: 0 <= i < j < |details| ==> details[i].postId != details[j].postId
  }

  /** `postDetail.upsert` keyed by `postId`: update the listing's detail row
      in place if it has one, otherwise append a new one. */
  function UpsertDetail(details: seq<PostDetail>, postId: nat, d: DetailInput): (r: seq<PostDetail>)
    ensures HasDetail(details, postId) ==>
      |r| == |details| &&
      forall i :: 0 <= i < |details| ==>
        r[i] == (if details[i].postId == postId then MergeDetail(details[i], d) else details[i])
    ensures !HasDetail(details, postId) ==> r == details + [NewDetail(postId, d)]
  {
    if HasDetail(details, postId) then
      seq(|details|, i requires 0 <= i < |details| =>
        if details[i].postId == postId then MergeDetail(details[i], d) else details[i])
    else details + [NewDetail(postId, d)]
  }

  /** What the upsert means row by row: afterwards the listing has a detail
      row, every other listing's rows are exactly the old ones, and the
      listing's row is its old row merged with the body, or a new row when
      it had none. */
  lemma UpsertDetailRows(details: seq<PostDetail>, postId: nat, d: DetailInput)
    ensures var r := UpsertDetail(details, postId, d);
      && HasDetail(r, postId)
      && (forall x :: x in details && x.postId != postId ==> x in r)
      && (forall x :: x in r && x.postId != postId ==> x in details)
      && (forall x :: x in r && x.postId == postId ==>
            if HasDetail(details, postId) then exists y :: y in details && y.postId == postId && x == MergeDetail(y, d)
            else x == NewDetail(postId, d))
  {
    var r := UpsertDetail(details, postId, d);
    if HasDetail(details, postId) {
      var k :| 0 <= k < |details| && details[k].postId == postId;
      assert r[k] == MergeDetail(details[k], d);
      forall x | x in details && x.postId != postId ensures x in r {
        var i :| 0 <= i < |details| && details[i] == x;
        assert r[i] == x;
      }
      forall x | x in r
        ensures x.postId != postId ==> x in details
        ensures x.postId == postId ==> exists y :: y in details && y.postId == postId && x == MergeDetail(y, d)
      {
        var i :| 0 <= i < |r| && r[i] == x;
        assert details[i] in details;
        if details[i].postId == postId {
          assert x == MergeDetail(details[i], d);
        } else {
          assert x == details[i];
        }
      }
    } else {
      assert r[|details|] == NewDetail(postId, d);
    }
  }

  /** The upsert keeps one detail row per listing: it adds a row only when
      the listing had none. */
  lemma UpsertKeepsOneDetail(details: seq<PostDetail>, postId: nat, d: DetailInput)
    requires OneDetailPerPost(details)
    ensures var r := UpsertDetail(details, postId, d);
      OneDetailPerPost(r) && |r| == |details| + (if HasDetail(details, postId) then 0 else 1)
  {
    var r := UpsertDetail(details, postId, d);
    if HasDetail(details, postId) {
      assert forall i :: 0 <= i < |r| ==> r[i].postId == details[i].postId;
    } else {
      assert r == details + [NewDetail(postId, d)];
      forall i, j | 0 <= i < j < |r| ensures r[i].postId != r[j].postId {
        if j == |details| {
          assert r[i] == details[i];
        } else {
          assert r[i] == details[i] && r[j] == details[j];
        }
      }
    }
  }

  // ---------------------------------------------------------------------
  // Owner-guarded handlers
  // ---------------------------------------------------------------------

  /** The guard chain shared by `updatePost` and `deletePost`, in its order:
      a bad id, then a missing identity, then a missing listing, then a
      listing of someone else. */
  function OwnedPost(l: Ledger, id: Param, requester: nat, action: string): (r: Result<Post>)
    ensures !ValidId(id) ==> r == Fail(BadRequest, "Invalid post ID")
    ensures ValidId(id) && requester == 0 ==> r == Fail(Unauthorized, "Not authenticated")
    ensures ValidId(id) && requester != 0 && PostById(l, id.n).None? ==> r == Fail(NotFound, "Post not found")
    ensures ValidId(id) && requester != 0 && PostById(l, id.n).Some? && PostById(l, id.n).value.ownerId != requester ==>
      r == Fail(Forbidden, "Not authorized to " + action + " this post")
    ensures r.Ok? ==> ValidId(id) && r == Ok(PostById(l, id.n).value) && r.value.ownerId == requester && requester != 0
  {
    if !ValidId(id) then Fail(BadRequest, "Invalid post ID")
    else if requester == 0 then Fail(Unauthorized, "Not authenticated")
    else
      match PostById(l, id.n)
      case None => Fail(NotFound, "Post not found")
      case Some(p) =>
        if p.ownerId != requester then Fail(Forbidden, "Not authorized to " + action + " this post")
        else Ok(p)
  }

  /** Write `p` over the listing row with its id. */
  function ReplacePost(posts: seq<Post>, p: Post): seq<Post>
  {
    ReplaceByKey(posts, p, (x: Post) => x.id)
  }

  /** `updatePost`: the guard chain, then one transaction writing the
      merged listing and, when a detail body is sent, upserting its detail
      row. The response is the updated listing. */
  function UpdatePost(l: Ledger, id: Param, requester: nat, postData: PostInput,
                      postDetail: Option<DetailInput>): (s: Step<Post>)
    ensures OwnedPost(l, id, requester, "update").Err? ==>
      s == Step(l, Err(OwnedPost(l, id, requester, "update").failure))
    ensures OwnedPost(l, id, requester, "update").Ok? &&
            (!NumbersRead(postData) || (postDetail.Some? && !DetailNumbersRead(postDetail.value))) ==>
      s == Refuse(l, ServerError, "Failed to update post")
    ensures OwnedPost(l, id, requester, "update").Ok? &&
            NumbersRead(postData) && (postDetail.Some? ==> DetailNumbersRead(postDetail.value)) ==>
      s.result.Ok?
    ensures s.result.Ok? ==>
      var before := OwnedPost(l, id, requester, "update").value;
      && NumbersRead(postData) && (postDetail.Some? ==> DetailNumbersRead(postDetail.value))
      && s.result.value == MergePost(before, postData)
      && s.ledger == l.(posts := ReplacePost(l.posts, s.result.value), details := s.ledger.details)
      && (postDetail.None? ==> s.ledger.details == l.details)
      && (postDetail.Some? ==> s.ledger.details == UpsertDetail(l.details, before.id, postDetail.value))
    ensures s.result.Err? ==> s.ledger == l
  {
    match OwnedPost(l, id, requester, "update")
    case Err(f) => Step(l, Err(f))
    case Ok(before) =>
      if !NumbersRead(postData) || (postDetail.Some? && !DetailNumbersRead(postDetail.value)) then
        Refuse(l, ServerError, "Failed to update post")
      else
      var updated := MergePost(before, postData);
      var details := if postDetail.Some? then UpsertDetail(l.details, before.id, postDetail.value) else l.details;
      Step(l.(posts := ReplacePost(l.posts, updated), details := details), Ok(updated))
  }

  /** Only the listing's own row changes; every other listing stays. */
  lemma UpdateTouchesOnlyThatPost(l: Ledger, id: Param, requester: nat, postData: PostInput,
                                  postDetail: Option<DetailInput>, i: nat)
    requires i < |l.posts|
    requires UpdatePost(l, id, requester, postData, postDetail).result.Ok?
    ensures var s := UpdatePost(l, id, requester, postData, postDetail);
      l.posts[i].id != id.n ==> s.ledger.posts[i] == l.posts[i]
  {
  }

  /** The rows `deletePost` removes in one transaction; the admin variant
      leaves the image rows. Payments, messages and the other tables are
      not touched. */
  function Cascade(l: Ledger, id: nat, withImages: bool): (r: Ledger)
    ensures r.users == l.users && r.profiles == l.profiles && r.payments == l.payments
    ensures r.cards == l.cards && r.messages == l.messages
    ensures forall p :: p in r.posts <==> p in l.posts && p.id != id
    ensures forall x :: x in r.saved <==> x in l.saved && x.postId != id
    ensures forall x :: x in r.details <==> x in l.details && x.postId != id
    ensures forall x :: x in r.chats <==> x in l.chats && x.postId != id
    ensures forall x :: x in r.reviews <==> x in l.reviews && x.postId != id
    ensures forall x :: x in r.bookings <==> x in l.bookings && x.postId != id
    ensures withImages ==> forall x :: x in r.images <==> x in l.images && x.postId != id
    ensures !withImages ==> r.images == l.images
  {
    l.(
      posts := Filter(l.posts, (p: Post) => p.id != id),
      saved := Filter(l.saved, (x: SavedPost) => x.postId != id),
      images := if withImages then Filter(l.images, (x: PostImage) => x.postId != id) else l.images,
      details := Filter(l.details, (x: PostDetail) => x.postId != id),
      chats := Filter(l.chats, (x: Chat) => x.postId != id),
      reviews := Filter(l.reviews, (x: Review) => x.postId != id),
      bookings := Filter(l.bookings, (x: Booking) => x.postId != id))
  }

  /** `deletePost`: the guard chain, then the cascade including images. */
  function DeletePost(l: Ledger, id: Param, requester: nat): (s: Step<()>)
    ensures OwnedPost(l, id, requester, "delete").Err? ==>
      s == Step(l, Err(OwnedPost(l, id, requester, "delete").failure))
    ensures s.result.Ok? <==> OwnedPost(l, id, requester, "delete").Ok?
    ensures s.result.Ok? ==> s.ledger == Cascade(l, id.n, true)
  {
    match OwnedPost(l, id, requester, "delete")
    case Err(f) => Step(l, Err(f))
    case Ok(p) => Step(Cascade(l, p.id, true), Ok(()))
  }

  /** `adminDeletePost`: no identity or owner check, and the image rows of
      the listing are left in place. */
  function AdminDeletePost(l: Ledger, id: Param): (s: Step<()>)
    ensures !ValidId(id) ==> s == Refuse(l, BadRequest, "Invalid post ID")
    ensures ValidId(id) && PostById(l, id.n).None? ==> s == Refuse(l, NotFound, "Post not found")
    ensures s.result.Ok? <==> ValidId(id) && PostById(l, id.n).Some?
    ensures s.result.Ok? ==> s.ledger == Cascade(l, id.n, false)
  {
    if !ValidId(id) then Refuse(l, BadRequest, "Invalid post ID")
    else
      match PostById(l, id.n)
      case None => Refuse(l, NotFound, "Post not found")
      case Some(p) => Step(Cascade(l, id.n, false), Ok(()))
  }

  /** The owner's delete and the admin's delete differ only in the image
      rows. */
  lemma AdminDeleteKeepsImages(l: Ledger, id: Param, requester: nat)
    requires DeletePost(l, id, requester).result.Ok?
    ensures AdminDeletePost(l, id).result.Ok?
    ensures AdminDeletePost(l, id).ledger == DeletePost(l, id, requester).ledger.(images := l.images)
  {
  }

  // ---------------------------------------------------------------------
  // One listing (getSinglePost)
  // ---------------------------------------------------------------------

  /** A booking that holds the listing now or later: confirmed or active,
      ending today or after. */
  predicate Upcoming(b: Booking, postId: nat, now: int)
  {
    b.postId == postId && (b.status.Confirmed? || b.status.Active?) && b.endDate >= now
  }

  /** The earliest end date among the upcoming bookings of a listing. */
  function EarliestEnd(bookings: seq<Booking>, postId: nat, now: int): (r: Option<int>)
    ensures r.None? <==> forall i :: 0 <= i < |bookings| ==> !Upcoming(bookings[i], postId, now)
    ensures r.Some? ==> exists i :: 0 <= i < |bookings| && Upcoming(bookings[i], postId, now) && bookings[i].endDate == r.value
    ensures r.Some? ==> forall i :: 0 <= i < |bookings| && Upcoming(bookings[i], postId, now) ==> r.value <= bookings[i].endDate
  {
    if |bookings| == 0 then None
    else
      var rest := EarliestEnd(bookings[1..], postId, now);
      var b := bookings[0];
      assert forall i :: 1 <= i < |bookings| ==> bookings[i] == bookings[1..][i - 1];
      if !Upcoming(b, postId, now) then rest
      else if rest.Some? && rest.value < b.endDate then rest
      else Some(b.endDate)
  }

  /** The `nextAvailableDate` of a listing: none unless it is a rental;
      for a rental the earliest end of an upcoming booking, else its
      `availableFrom`, else now. */
  function NextAvailableDate(l: Ledger, post: Post, now: int): (r: Option<int>)
    ensures r.None? <==> post.kind != "rent"
    ensures post.kind == "rent" && (exists i :: 0 <= i < |l.bookings| && Upcoming(l.bookings[i], post.id, now)) ==>
      && r.value >= now
      && (exists i :: 0 <= i < |l.bookings| && Upcoming(l.bookings[i], post.id, now) && l.bookings[i].endDate == r.value)
      && (forall i :: 0 <= i < |l.bookings| && Upcoming(l.bookings[i], post.id, now) ==> r.value <= l.bookings[i].endDate)
    ensures post.kind == "rent" && (forall i :: 0 <= i < |l.bookings| ==> !Upcoming(l.bookings[i], post.id, now)) ==>
      r == (if post.availableFrom.Some? then post.availableFrom else Some(now))
  {
    if post.kind != "rent" then None
    else
      match EarliestEnd(l.bookings, post.id, now)
      case Some(e) => Some(e)
      case None => if post.availableFrom.Some? then post.availableFrom else Some(now)
  }

  datatype PostView = PostView(
    post: Post,
    detail: Option<PostDetail>,
    history: seq<Booking>,
    nextAvailableDate: Option<int>,
    isSaved: bool)

  /** `getSinglePost`. `viewer` is the user id of a valid token cookie, if
      any; the booking history leaves out bookings awaiting payment. */
  function GetSinglePost(l: Ledger, id: Param, viewer: Option<nat>, now: int): (r: Result<PostView>)
    ensures !ValidId(id) ==> r == Fail(BadRequest, "Invalid post ID")
    ensures ValidId(id) && PostById(l, id.n).None? ==> r == Fail(NotFound, "Post not found")
    ensures r.Ok? <==> ValidId(id) && PostById(l, id.n).Some?
    ensures r.Ok? ==>
      && r.value.post == PostById(l, id.n).value
      && r.value.nextAvailableDate == NextAvailableDate(l, r.value.post, now)
      && (r.value.isSaved <==> viewer.Some? && exists x :: x in l.saved && x.userId == viewer.value && x.postId == id.n)
      && (forall b :: b in r.value.history <==> b in l.bookings && b.postId == id.n && !b.status.PendingPayment?)
      && (r.value.detail.Some? ==> r.value.detail.value in l.details && r.value.detail.value.postId == id.n)
  {
    if !ValidId(id) then Fail(BadRequest, "Invalid post ID")
    else
      match PostById(l, id.n)
      case None => Fail(NotFound, "Post not found")
      case Some(post) =>
        var saved := viewer.Some? && Find(l.saved, (x: SavedPost) => x.userId == viewer.value && x.postId == id.n).Some?;
        Ok(PostView(
          post,
          Find(l.details, (x: PostDetail) => x.postId == id.n),
          Filter(l.bookings, (b: Booking) => b.postId == id.n && !b.status.PendingPayment?),
          NextAvailableDate(l, post, now),
          saved))
  }

  // ---------------------------------------------------------------------
  // Catalogue (getAllPosts)
  // ---------------------------------------------------------------------

  /** The query string of the catalogue; every value is raw text. */
  datatype PostQuery = PostQuery(
    kind: Option<string>,
    property: Option<string>,
    country: Option<string>,
    state: Option<string>,
    city: Option<string>,
    bedroom: Option<string>,
    priceRange: Option<string>,
    page: Option<string>,
    limit: Option<string>)

  /** A filter value counts when it is truthy and not the text "undefined". */
  predicate Supplied(v: Option<string>)
  {
    Given(v) && v.value != "undefined"
  }

  /** `Number(text)` for the text between the dashes of a price range:
      blank text is 0, a digit run its value, anything else NaN. */
  function NumberOf(s: string): (r: Option<int>)
    ensures r.Some? ==> r.value >= 0
  {
    var t := Trim(s);
    if |t| == 0 then Some(0)
    else if AllDigits(t) then Some(DigitsValue(t))
    else None
  }

  /** `priceRange.split("-").map(Number)`: the lower and upper bound, each
      None when it reads as NaN (a missing second piece included). */
  function PriceBounds(range: string): (r: (Option<int>, Option<int>))
  {
    var parts := Split(range, '-');
    (NumberOf(parts[0]), if |parts| > 1 then NumberOf(parts[1]) else None)
  }

  /** The `where` clause of the catalogue query. */
  predicate Matches(p: Post, q: PostQuery)
  {
    && p.isActive
    && (Supplied(q.kind) ==> p.kind == q.kind.value)
    && (Supplied(q.property) ==> p.property == q.property.value)
    && (Supplied(q.country) ==> Contains(p.country, q.country.value))
    && (Supplied(q.state) ==> Contains(p.state, q.state.value))
    && (Supplied(q.city) ==> Contains(p.city, q.city.value))
    && (Supplied(q.bedroom) && ParseInt(q.bedroom.value).Some? ==> p.bedroom >= ParseInt(q.bedroom.value).value)
    && (Supplied(q.priceRange) ==>
          var bounds := PriceBounds(q.priceRange.value);
          (bounds.0.Some? ==> p.price >= bounds.0.value) && (bounds.1.Some? ==> p.price <= bounds.1.value))
  }

  function MatchesQuery(q: PostQuery): Post -> bool
  {
    (p: Post) => Matches(p, q)
  }

  /** `parseInt(v) || fallback`. */
  function IntOr(v: Option<string>, fallback: int): (r: int)
    ensures r != 0 || fallback == 0
  {
    if v.Some? && ParseInt(v.value).Some? && ParseInt(v.value).value != 0 then ParseInt(v.value).value else fallback
  }

  function Reverse<T>(s: seq<T>): (r: seq<T>)
    ensures |r| == |s|
    ensures forall i :: 0 <= i < |s| ==> r[i] == s[|s| - 1 - i]
  {
    if |s| == 0 then [] else Reverse(s[1..]) + [s[0]]
  }

  /** Every matching listing, newest first (the ledger is in insertion
      order). */
  function Catalogue(l: Ledger, q: PostQuery): (r: seq<Post>)
    ensures forall p :: p in r <==> p in l.posts && Matches(p, q)
  {
    var hits := Filter(l.posts, MatchesQuery(q));
    var r := Reverse(hits);
    assert forall p :: p in r <==> p in hits by {
      forall p | p in hits ensures p in r {
        var i :| 0 <= i < |hits| && hits[i] == p;
        assert r[|hits| - 1 - i] == p;
      }
    }
    r
  }

  datatype PostsPage = PostsPage(posts: seq<Post>, total: nat, page: int, totalPages: nat)

  /** `Math.ceil(total / limit)`: the fewest pages of `limit` rows that
      hold `total` rows. */
  function PageCount(total: nat, limit: int): (n: nat)
    requires limit > 0
    ensures n * limit >= total
    ensures n == 0 || (n - 1) * limit < total
    ensures n == 0 <==> total == 0
  {
    var n := (total + limit - 1) / limit;
    var rem := (total + limit - 1) % limit;
    assert total + limit - 1 == n * limit + rem;
    assert n * limit == total + limit - 1 - rem;
    assert (n - 1) * limit == n * limit - limit;
    n
  }

  /** The rows of page `page` (from 1) when pages hold `limit` rows:
      `skip` then `take`. */
  function Page<T>(all: seq<T>, page: int, limit: int): (r: seq<T>)
    requires limit > 0 && page >= 1
    ensures |r| <= limit
    ensures forall k :: 0 <= k < |r| ==> (page - 1) * limit + k < |all| && r[k] == all[(page - 1) * limit + k]
    ensures page * limit <= |all| ==> |r| == limit
  {
    var skip := (page - 1) * limit;
    assert skip >= 0;
    assert page * limit == skip + limit;
    var from := if skip < |all| then skip else |all|;
    var to := if skip + limit < |all| then skip + limit else |all|;
    all[from..to]
  }

  /** The pages partition the rows: the row at position `i` is on page
      `i / limit + 1`, at position `i % limit`. */
  lemma PagesCoverAll<T>(all: seq<T>, limit: int, i: nat)
    requires limit > 0 && i < |all|
    ensures var r := Page(all, i / limit + 1, limit);
      i % limit < |r| && r[i % limit] == all[i]
  {
    var page := i / limit + 1;
    var skip := (page - 1) * limit;
    assert skip + i % limit == i;
    assert skip <= i < |all|;
    var r := Page(all, page, limit);
    assert |r| == (if skip + limit < |all| then skip + limit else |all|) - skip;
  }

  /** `getAllPosts`: one page of the catalogue with the total count and the
      page count. A negative skip (a page below 1) or a negative limit,
      which the store rejects, is a server error. */
  function GetAllPosts(l: Ledger, q: PostQuery): (r: Result<PostsPage>)
    ensures var page := IntOr(q.page, 1);
      var limit := IntOr(q.limit, 12);
      && (r.Err? <==> page < 1 || limit < 0)
      && (r.Err? ==> r.failure == Failure(ServerError, "Failed to get posts"))
      && (r.Ok? ==>
            var all := Catalogue(l, q);
            && limit > 0
            && r.value.page == page
            && r.value.total == |all|
            && r.value.posts == Page(all, page, limit)
            && r.value.totalPages == PageCount(|all|, limit))
  {
    var page := IntOr(q.page, 1);
    var limit := IntOr(q.limit, 12);
    if page < 1 || limit < 0 then Fail(ServerError, "Failed to get posts")
    else
      var all := Catalogue(l, q);
      Ok(PostsPage(Page(all, page, limit), |all|, page, PageCount(|all|, limit)))
  }

  /** Listings in creation order, oldest first. */
  predicate OldestFirst(s: seq<Post>)
  {
    forall i, j :: 0 <= i < j < |s| ==> s[i].createdAt <= s[j].createdAt
  }

  predicate NewestFirst(s: seq<Post>)
  {
    forall i, j :: 0 <= i < j < |s| ==> s[i].createdAt >= s[j].createdAt
  }

  /** Reversal turns oldest-first into newest-first. */
  lemma ReverseNewestFirst(s: seq<Post>)
    requires OldestFirst(s)
    ensures NewestFirst(Reverse(s))
  {
    var r := Reverse(s);
    forall i, j | 0 <= i < j < |r| ensures r[i].createdAt >= r[j].createdAt {
      assert r[i] == s[|s| - 1 - i] && r[j] == s[|s| - 1 - j];
    }
  }

  /** The newest-first order is by creation time whenever the ledger's
      listings were created in insertion order. */
  lemma CatalogueNewestFirst(l: Ledger, q: PostQuery)
    requires OldestFirst(l.posts)
    ensures NewestFirst(Catalogue(l, q))
  {
    var hits := Filter(l.posts, MatchesQuery(q));
    FilterKeepsOrder(l.posts, MatchesQuery(q));
    ReverseNewestFirst(hits);
  }

  /** Filtering keeps creation order. */
  lemma {:induction false} FilterKeepsOrder(posts: seq<Post>, p: Post -> bool)
    requires OldestFirst(posts)
    ensures OldestFirst(Filter(posts, p))
  {
    if |posts| > 0 {
      var tail := posts[1..];
      assert OldestFirst(tail) by {
        forall i, j | 0 <= i < j < |tail| ensures tail[i].createdAt <= tail[j].createdAt {
          assert tail[i] == posts[i + 1] && tail[j] == posts[j + 1];
        }
      }
      FilterKeepsOrder(tail, p);
      var rest := Filter(tail, p);
      FirstNoLaterThanKept(posts, p);
      if p(posts[0]) {
        assert Filter(posts, p) == [posts[0]] + rest;
        ConsKeepsOrder(posts[0], rest);
      } else {
        assert Filter(posts, p) == rest;
      }
    }
  }

  /** The first listing is no later than any kept listing after it. */
  lemma FirstNoLaterThanKept(posts: seq<Post>, p: Post -> bool)
    requires |posts| > 0 && OldestFirst(posts)
    ensures forall x :: x in Filter(posts[1..], p) ==> posts[0].createdAt <= x.createdAt
  {
    var tail := posts[1..];
    forall x | x in Filter(tail, p) ensures posts[0].createdAt <= x.createdAt {
      var k :| 0 <= k < |Filter(tail, p)| && Filter(tail, p)[k] == x;
      assert x in tail;
      var m :| 0 <= m < |tail| && tail[m] == x;
      assert tail[m] == posts[m + 1];
    }
  }

  /** Putting a listing no later than all others in front keeps the order. */
  lemma ConsKeepsOrder(x: Post, rest: seq<Post>)
    requires OldestFirst(rest)
    requires forall y :: y in rest ==> x.createdAt <= y.createdAt
    ensures OldestFirst([x] + rest)
  {
    var r := [x] + rest;
    forall i, j | 0 <= i < j < |r| ensures r[i].createdAt <= r[j].createdAt {
      assert r[j] == rest[j - 1];
      if i > 0 {
        assert r[i] == rest[i - 1];
      }
    }
  }

  // ---------------------------------------------------------------------
  // Creating a listing (addPost)
  // ---------------------------------------------------------------------

  /** The listing row `addPost` inserts, with its defaults: type "rent",
      property "apartment", one bedroom and one bathroom, empty texts, no
      nullable values; active, unpaid and unrated as the schema sets a
      new row. */
  function NewPost(id: nat, ownerId: nat, d: PostInput, now: int): (p: Post)
    requires Given(d.title) && Parsed(d.price) && Given(d.city)
    ensures p.id == id && p.ownerId == ownerId && p.createdAt == now
    ensures p.title == d.title.value && p.price == d.price.n && p.city == d.city.value
    ensures p.isActive && !p.isPaid && p.rating == 0.0 && p.availableFrom.None?
    ensures TakesText(d.kind, "rent", p.kind) && TakesText(d.property, "apartment", p.property)
    ensures TakesText(d.address, "", p.address) && TakesText(d.state, "", p.state)
    ensures TakesText(d.country, "", p.country) && TakesText(d.zipCode, "", p.zipCode)
    ensures TakesNumber(d.bedroom, 1, p.bedroom) && TakesNumber(d.bathroom, 1, p.bathroom)
    ensures TakesNullableNumber(d.lotSize, None, p.lotSize) && TakesNullableText(d.zoning, None, p.zoning)
    ensures TakesNullableText(d.ownershipType, None, p.ownershipType)
    ensures TakesNullableText(d.titleDeedStatus, None, p.titleDeedStatus)
    ensures TakesNullableText(d.financingOptions, None, p.financingOptions)
    ensures p.images == (if d.images.Some? then d.images.value else [])
  {
    Post(
      id, ownerId, d.title.value, d.price.n, OrText(d.address, ""), d.city.value,
      OrParsed(d.bedroom, 1), OrParsed(d.bathroom, 1), OrText(d.kind, "rent"), OrText(d.property, "apartment"),
      if d.images.Some? then d.images.value else [],
      OrText(d.state, ""), OrText(d.country, ""), OrText(d.zipCode, ""),
      OrNullableText(d.ownershipType, None), OrNullableText(d.titleDeedStatus, None),
      OrNullableText(d.financingOptions, None), OrParsedNullable(d.lotSize, None), OrNullableText(d.zoning, None),
      true, false, 0.0, None, now)
  }

  /** `addPost`: identity, required fields, a non-blank description, then
      the listing and its detail row in one create, which the store refuses
      (500) for an unknown owner or a numeric field that reads as NaN. */
  function AddPost(l: Ledger, requester: nat, postData: PostInput, postDetail: Option<DetailInput>, now: int): (s: Step<Post>)
    ensures s.result.Err? ==> s.ledger == l
    ensures requester == 0 ==> s.result == Fail(Unauthorized, "Not authenticated")
    ensures requester != 0 && (!Given(postData.title) || !Truthy(postData.price) || !Given(postData.city)) ==>
      s.result == Fail(BadRequest, "Missing required fields")
    ensures requester != 0 && Given(postData.title) && Truthy(postData.price) && Given(postData.city) &&
            (postDetail.None? || postDetail.value.description.None? || IsBlank(postDetail.value.description.value)) ==>
      s.result == Fail(BadRequest, "Description is required")
    ensures requester != 0 && Given(postData.title) && Truthy(postData.price) && Given(postData.city) &&
            postDetail.Some? && postDetail.value.description.Some? && !IsBlank(postDetail.value.description.value) &&
            (UserById(l, requester).None? || !NumbersRead(postData) || !DetailNumbersRead(postDetail.value)) ==>
      s.result == Fail(ServerError, "Failed to create post")
    ensures requester != 0 && Given(postData.title) && Truthy(postData.price) && Given(postData.city) &&
            postDetail.Some? && postDetail.value.description.Some? && !IsBlank(postDetail.value.description.value) &&
            UserById(l, requester).Some? && NumbersRead(postData) && DetailNumbersRead(postDetail.value) ==>
      s.result.Ok?
    ensures s.result.Ok? ==>
      && requester != 0
      && postDetail.Some? && postDetail.value.description.Some? && !IsBlank(postDetail.value.description.value)
      && UserById(l, requester).Some? && NumbersRead(postData) && DetailNumbersRead(postDetail.value)
      && var p := s.result.value;
      && s.ledger == l.(posts := l.posts + [p], details := l.details + [NewDetail(p.id, postDetail.value)])
      && p == NewPost(p.id, requester, postData, now)
      && (forall x :: x in l.posts ==> x.id != p.id)
  {
    if requester == 0 then Refuse(l, Unauthorized, "Not authenticated")
    else if !Given(postData.title) || !Truthy(postData.price) || !Given(postData.city) then
      Refuse(l, BadRequest, "Missing required fields")
    else if postDetail.None? || postDetail.value.description.None? || IsBlank(postDetail.value.description.value) then
      Refuse(l, BadRequest, "Description is required")
    else if UserById(l, requester).None? || !NumbersRead(postData) || !DetailNumbersRead(postDetail.value) then
      Refuse(l, ServerError, "Failed to create post")
    else
      var id := NextId(l.posts, (p: Post) => p.id);
      var p := NewPost(id, requester, postData, now);
      Step(l.(posts := l.posts + [p], details := l.details + [NewDetail(id, postDetail.value)]), Ok(p))
  }

  /** A whitespace-only description is refused like a missing one. */
  lemma BlankDescriptionRefused(l: Ledger, requester: nat, postData: PostInput, d: DetailInput, now: int)
    requires requester != 0 && Given(postData.title) && Truthy(postData.price) && Given(postData.city)
    requires d.description.Some? && forall i :: 0 <= i < |d.description.value| ==> IsSpace(d.description.value[i])
    ensures AddPost(l, requester, postData, Some(d), now) == Refuse(l, BadRequest, "Description is required")
  {
    BlankIffAllSpace(d.description.value);
  }

  /** The price "0" is truthy text: it passes the required-field check and
      creates a listing priced 0, while the number 0 is refused. */
  lemma ZeroPriceTextCreates(l: Ledger, requester: nat, postData: PostInput, d: DetailInput, now: int)
    requires requester != 0 && UserById(l, requester).Some?
    requires Given(postData.title) && Given(postData.city) && postData.price == Num(0, true)
    requires NumbersRead(postData) && DetailNumbersRead(d)
    requires d.description.Some? && !IsBlank(d.description.value)
    ensures AddPost(l, requester, postData, Some(d), now).result.Ok?
    ensures AddPost(l, requester, postData, Some(d), now).result.value.price == 0
    ensures AddPost(l, requester, postData.(price := Num(0)), Some(d), now).result == Fail(BadRequest, "Missing required fields")
  {
  }

  /** Listing ids are the primary key. */
  predicate DistinctPostIds(posts: seq<Post>)
  {
    forall i, j :: 0 <= i < j < |posts| ==> posts[i].id != posts[j].id
  }

  /** Every detail row belongs to a stored listing. */
  predicate DetailsOwned(l: Ledger)
  {
    forall x :: x in l.details ==> exists p :: p in l.posts && p.id == x.postId
  }

  /** `addPost` keeps the keys of the listing tables: the new listing's id
      is fresh, it gets exactly one detail row, and every detail row still
      belongs to one listing. */
  lemma AddPostKeepsKeys(l: Ledger, requester: nat, postData: PostInput, postDetail: Option<DetailInput>, now: int)
    requires DistinctPostIds(l.posts) && OneDetailPerPost(l.details) && DetailsOwned(l)
    requires AddPost(l, requester, postData, postDetail, now).result.Ok?
    ensures var s := AddPost(l, requester, postData, postDetail, now);
      && DistinctPostIds(s.ledger.posts) && OneDetailPerPost(s.ledger.details) && DetailsOwned(s.ledger)
      && HasDetail(s.ledger.details, s.result.value.id)
  {
    var s := AddPost(l, requester, postData, postDetail, now);
    var p := s.result.value;
    var nd := NewDetail(p.id, postDetail.value);
    assert s.ledger.posts == l.posts + [p];
    assert s.ledger.details == l.details + [nd];
    forall x | x in l.details ensures x.postId != p.id {
      var q :| q in l.posts && q.id == x.postId;
    }
    var posts := s.ledger.posts;
    forall i, j | 0 <= i < j < |posts| ensures posts[i].id != posts[j].id {
      assert posts[i] == l.posts[i];
      if j < |l.posts| {
        assert posts[j] == l.posts[j];
      } else {
        assert l.posts[i] in l.posts;
      }
    }
    var details := s.ledger.details;
    forall i, j | 0 <= i < j < |details| ensures details[i].postId != details[j].postId {
      assert details[i] == l.details[i];
      if j < |l.details| {
        assert details[j] == l.details[j];
      } else {
        assert l.details[i] in l.details;
      }
    }
    forall x | x in details ensures exists q :: q in posts && q.id == x.postId {
      if x in l.details {
        var q :| q in l.posts && q.id == x.postId;
        assert q in posts;
      } else {
        assert x == nd && p in posts;
      }
    }
    assert details[|l.details|] == nd;
  }

  /** `parseInt` reads a `0x` prefix as hexadecimal, so a page or limit
      such as "0x2" is page 2. */
  lemma IntOrReadsHex(h: string, fallback: int)
    requires |h| > 0 && AllHexDigits(h) && HexValue(h) != 0
    ensures IntOr(Some("0x" + h), fallback) == HexValue(h) as int
  {
    ParseIntOfHex(h);
  }
}

=== FILE: reviews.dfy ===
/** Reviews of listing owners (`controllers/reviewController.js`): body
    sanitising, creation with its uniqueness and verification rules, the
    listing's average rating, moderation, deletion and a user's review
    summary. */
module Reviews {
  import opened Common
  import opened Text
  import opened Ledger
  import opened Auth

  // ---------------------------------------------------------------------
  // Sanitising (sanitizeReview)
  // ---------------------------------------------------------------------

  /** A review request body. Ids and the rating hold their `parseInt`
      value; text fields hold the raw text (None when absent). */
  datatype ReviewBody = ReviewBody(
    rating: Param,
    title: Option<string>,
    comment: Option<string>,
    revieweeId: Param,
    postId: Param,
    paymentId: Param,
    bookingId: Param,
    moderationReason: Option<string>)

  /** Trimmed text, or null when absent or empty. */
  function TrimOrNull(t: Option<string>): (r: Option<string>)
    ensures r.Some? <==> Given(t)
    ensures r.Some? ==> r.value == Trim(t.value)
  {
    if Given(t) then Some(Trim(t.value)) else None
  }

  /** Text that is not blank is trimmed once and for all. */
  lemma TrimOrNullStable(t: Option<string>)
    requires t.None? || !IsBlank(t.value)
    ensures TrimOrNull(TrimOrNull(t)) == TrimOrNull(t)
  {
    if t.Some? {
      TrimIdempotent(t.value);
    }
  }

  /** `sanitizeReview`: comment, title and moderation reason trimmed, an
      absent or empty title or reason replaced by null. A body without a
      comment makes `trim` throw: None. */
  function SanitizeReview(b: ReviewBody): (r: Option<ReviewBody>)
    ensures r.None? <==> b.comment.None?
    ensures r.Some? ==>
      && r.value.comment == Some(Trim(b.comment.value))
      && (Given(b.title) ==> r.value.title == Some(Trim(b.title.value)))
      && (!Given(b.title) ==> r.value.title.None?)
      && (Given(b.moderationReason) ==> r.value.moderationReason == Some(Trim(b.moderationReason.value)))
      && (!Given(b.moderationReason) ==> r.value.moderationReason.None?)
      && r.value == b.(comment := r.value.comment, title := r.value.title, moderationReason := r.value.moderationReason)
  {
    if b.comment.None? then None
    else
      Some(b.(
        title := TrimOrNull(b.title),
        comment := Some(Trim(b.comment.value)),
        moderationReason := TrimOrNull(b.moderationReason)))
  }

  /** Sanitising twice changes nothing more for the comment, and nothing at
      all for a body whose title and reason are not blank. */
  lemma SanitizeTwice(b: ReviewBody)
    requires b.comment.Some?
    requires b.title.None? || !IsBlank(b.title.value)
    requires b.moderationReason.None? || !IsBlank(b.moderationReason.value)
    ensures SanitizeReview(SanitizeReview(b).value) == SanitizeReview(b)
  {
    TrimIdempotent(b.comment.value);
    TrimOrNullStable(b.title);
    TrimOrNullStable(b.moderationReason);
  }

  /** A blank title is not idempotent: the first pass stores "", the
      second null. */
  lemma BlankTitleNeedsTwoPasses(b: ReviewBody)
    requires b.comment.Some? && b.title == Some(" ")
    ensures SanitizeReview(b).value.title == Some("")
    ensures SanitizeReview(SanitizeReview(b).value).value.title.None?
  {
    assert IsSpace(b.title.value[0]);
    BlankIffAllSpace(b.title.value);
  }

  // ---------------------------------------------------------------------
  // Average rating (updatePostRating)
  // ---------------------------------------------------------------------

  function Sum(xs: seq<int>): int
  {
    if |xs| == 0 then 0 else Sum(xs[..|xs| - 1]) + xs[|xs| - 1]
  }

  /** The arithmetic mean, exact: the number that, counted once per
      rating, gives the ratings' sum. */
  function Mean(xs: seq<int>): (m: real)
    requires |xs| > 0
    ensures m * |xs| as real == Sum(xs) as real
  {
    Sum(xs) as real / |xs| as real
  }

  /** The ratings of some reviews, in order. */
  function Ratings(rs: seq<Review>): (r: seq<int>)
    ensures |r| == |rs| && forall i :: 0 <= i < |rs| ==> r[i] == rs[i].rating
  {
    seq(|rs|, i requires 0 <= i < |rs| => rs[i].rating)
  }

  lemma {:induction false} SumBounds(xs: seq<int>, lo: int, hi: int)
    requires forall i :: 0 <= i < |xs| ==> lo <= xs[i] <= hi
    ensures lo * |xs| <= Sum(xs) <= hi * |xs|
  {
    if |xs| > 0 {
      var n := |xs| - 1;
      var init := xs[..n];
      assert forall i :: 0 <= i < n ==> init[i] == xs[i];
      SumBounds(init, lo, hi);
      assert Sum(xs) == Sum(init) + xs[n];
      assert lo * |xs| == lo * n + lo && hi * |xs| == hi * n + hi;
    }
  }

  lemma QuotientBounds(a: real, b: real, s: real, n: real)
    requires n > 0.0 && a * n <= s <= b * n
    ensures a <= s / n <= b
  {
    assert (s / n) * n == s;
  }

  lemma ProductAsReal(a: int, n: nat)
    ensures (a * n) as real == a as real * n as real
  {
  }

  /** The mean of ratings in a range stays in that range. */
  lemma MeanWithinBounds(xs: seq<int>, lo: int, hi: int)
    requires |xs| > 0
    requires forall i :: 0 <= i < |xs| ==> lo <= xs[i] <= hi
    ensures lo as real <= Mean(xs) <= hi as real
  {
    SumBounds(xs, lo, hi);
    ProductAsReal(lo, |xs|);
    ProductAsReal(hi, |xs|);
    QuotientBounds(lo as real, hi as real, Sum(xs) as real, |xs| as real);
  }

  /** The approved reviews of one listing. */
  function ApprovedOf(postId: int): Review -> bool
  {
    (v: Review) => v.postId == postId && v.status.Approved?
  }

  /** The ratings of the approved reviews of a listing. */
  function ApprovedRatings(reviews: seq<Review>, postId: int): (r: seq<int>)
    ensures |r| == 0 <==> forall i :: 0 <= i < |reviews| ==> !(reviews[i].postId == postId && reviews[i].status.Approved?)
    ensures forall i :: 0 <= i < |r| ==> exists v :: v in reviews && v.postId == postId && v.status.Approved? && v.rating == r[i]
  {
    var approved := Filter(reviews, ApprovedOf(postId));
    var r := seq(|approved|, i requires 0 <= i < |approved| => approved[i].rating);
    assert forall i :: 0 <= i < |r| ==> approved[i] in reviews && ApprovedOf(postId)(approved[i]) && r[i] == approved[i].rating;
    r
  }

  /** `updatePostRating`: the listing's rating becomes the mean of its
      approved reviews' ratings (times their count it gives their sum);
      with none, nothing changes. Only that listing's rating is written. */
  function UpdatePostRating(l: Ledger, postId: int): (r: Ledger)
    ensures r == l.(posts := r.posts) && |r.posts| == |l.posts|
    ensures |ApprovedRatings(l.reviews, postId)| == 0 ==> r == l
    ensures forall i :: 0 <= i < |l.posts| ==> r.posts[i] == l.posts[i].(rating := r.posts[i].rating)
    ensures forall i :: 0 <= i < |l.posts| && l.posts[i].id != postId ==> r.posts[i] == l.posts[i]
    ensures forall i :: 0 <= i < |l.posts| && l.posts[i].id == postId && |ApprovedRatings(l.reviews, postId)| > 0 ==>
      r.posts[i].rating * |ApprovedRatings(l.reviews, postId)| as real == Sum(ApprovedRatings(l.reviews, postId)) as real
  {
    var ratings := ApprovedRatings(l.reviews, postId);
    if |ratings| == 0 then l
    else l.(posts := WithRating(l.posts, postId, Mean(ratings)))
  }

  /** The listing rows with the listing's rating set to `m`. */
  function WithRating(posts: seq<Post>, postId: int, m: real): (r: seq<Post>)
    ensures |r| == |posts|
    ensures forall i :: 0 <= i < |posts| ==> r[i] == (if posts[i].id == postId then posts[i].(rating := m) else posts[i])
  {
    seq(|posts|, i requires 0 <= i < |posts| => if posts[i].id == postId then posts[i].(rating := m) else posts[i])
  }

  /** Recomputing twice is recomputing once: the average depends only on
      the reviews, which the recomputation does not touch. */
  lemma UpdatePostRatingIdempotent(l: Ledger, postId: int)
    ensures UpdatePostRating(UpdatePostRating(l, postId), postId) == UpdatePostRating(l, postId)
  {
    var r1 := UpdatePostRating(l, postId);
    assert r1.reviews == l.reviews;
    var ratings := ApprovedRatings(l.reviews, postId);
    if |ratings| > 0 {
      var m := Mean(ratings);
      assert r1.posts == WithRating(l.posts, postId, m);
      WithRatingTwice(l.posts, postId, m);
    }
  }

  lemma WithRatingTwice(posts: seq<Post>, postId: int, m: real)
    ensures WithRating(WithRating(posts, postId, m), postId, m) == WithRating(posts, postId, m)
  {
    var once := WithRating(posts, postId, m);
    var twice := WithRating(once, postId, m);
    assert forall i :: 0 <= i < |posts| ==> twice[i] == once[i];
  }

  /** Only one number times a positive count gives a sum. */
  lemma MeanUnique(xs: seq<int>, a: real, b: real)
    requires |xs| > 0 && a * |xs| as real == Sum(xs) as real && b * |xs| as real == Sum(xs) as real
    ensures a == b
  {
    assert (a - b) * |xs| as real == 0.0;
  }

  /** With every approved rating between 1 and 5, the stored average is
      between 1 and 5 too. */
  lemma RatingStaysInScale(l: Ledger, postId: int, i: nat)
    requires i < |l.posts|
    requires 0.0 <= l.posts[i].rating <= 5.0
    requires forall v :: v in l.reviews && v.postId == postId && v.status.Approved? ==> 1 <= v.rating <= 5
    ensures 0.0 <= UpdatePostRating(l, postId).posts[i].rating <= 5.0
  {
    var ratings := ApprovedRatings(l.reviews, postId);
    if |ratings| > 0 && l.posts[i].id == postId {
      MeanWithinBounds(ratings, 1, 5);
    }
  }

  // ---------------------------------------------------------------------
  // Creating a review (createReview)
  // ---------------------------------------------------------------------

  /** No reviewer has two reviews of one listing. */
  predicate OneReviewPerPost(reviews: seq<Review>)
  {
    forall i, j :: 0 <= i < j < |reviews| ==>
      reviews[i].reviewerId != reviews[j].reviewerId || reviews[i].postId != reviews[j].postId
  }

  /** A completed stay by `userId` at `postId` that has ended by `now`. */
  predicate StayEvidence(l: Ledger, bookingId: int, userId: nat, postId: int, now: int)
  {
    exists b :: b in l.bookings && b.id == bookingId && b.userId == userId && b.postId == postId
      && b.status.Completed? && b.endDate <= now
  }

  /** A completed payment by `userId` for `postId`. */
  predicate PurchaseEvidence(l: Ledger, paymentId: int, userId: nat, postId: int)
  {
    exists p :: p in l.payments && p.id == paymentId && p.userId == userId && p.postId == Some(postId)
      && p.status.Completed?
  }

  /** The verification step: a rental review naming a booking needs that
      completed, ended stay; a purchase review naming a payment needs that
      completed payment; otherwise the review is unverified. */
  function Verify(l: Ledger, requester: nat, post: Post, d: ReviewBody, now: int): (r: Result<bool>)
    ensures r.Ok? && r.value ==>
      (post.kind == "rent" && d.bookingId.Num? && StayEvidence(l, d.bookingId.n, requester, post.id, now)) ||
      (post.kind == "buy" && d.paymentId.Num? && PurchaseEvidence(l, d.paymentId.n, requester, post.id))
    ensures r.Ok? && !r.value ==>
      !(post.kind == "rent" && Truthy(d.bookingId)) && !(post.kind == "buy" && Truthy(d.paymentId))
    ensures post.kind == "rent" && Parsed(d.bookingId) && !StayEvidence(l, d.bookingId.n, requester, post.id, now) ==>
      r == Fail(BadRequest, "Invalid booking for review or stay not completed yet")
    ensures post.kind == "buy" && Parsed(d.paymentId) && !PurchaseEvidence(l, d.paymentId.n, requester, post.id) ==>
      r == Fail(BadRequest, "Invalid payment transaction for review")
  {
    if post.kind == "rent" && Truthy(d.bookingId) then
      if d.bookingId.NotNumeric? then Fail(ServerError, "Failed to create review")
      else if StayEvidence(l, d.bookingId.n, requester, post.id, now) then Ok(true)
      else Fail(BadRequest, "Invalid booking for review or stay not completed yet")
    else if post.kind == "buy" && Truthy(d.paymentId) then
      if d.paymentId.NotNumeric? then Fail(ServerError, "Failed to create review")
      else if PurchaseEvidence(l, d.paymentId.n, requester, post.id) then Ok(true)
      else Fail(BadRequest, "Invalid payment transaction for review")
    else Ok(false)
  }

  /** The optional link columns: a truthy id (the text "0" included) is
      stored, a falsy one is null; a link to a row that does not exist is
      refused by the store. */
  function Link(p: Param): Option<int>
  {
    if Parsed(p) then Some(p.n) else None
  }

  predicate LinksResolve(l: Ledger, d: ReviewBody)
  {
    && !(Truthy(d.paymentId) && d.paymentId.NotNumeric?)
    && !(Truthy(d.bookingId) && d.bookingId.NotNumeric?)
    && (Link(d.paymentId).Some? ==> exists p :: p in l.payments && p.id == Link(d.paymentId).value)
    && (Link(d.bookingId).Some? ==> exists b :: b in l.bookings && b.id == Link(d.bookingId).value)
  }

  /** The guards of `createReview` before verification, in order. The
      missing comment crashes the sanitiser before the identity check. */
  function ReviewGuards(l: Ledger, requester: nat, b: ReviewBody): (r: Result<(ReviewBody, Post)>)
    ensures b.comment.None? ==> r.Err? && r.failure.status == ServerError
    ensures b.comment.Some? && requester == 0 ==> r == Fail(Unauthorized, "Not authenticated")
    ensures (b.comment.Some? && requester != 0 && b.postId.Num? &&
             (exists v :: v in l.reviews && v.reviewerId == requester && v.postId == b.postId.n)) ==>
      r == Fail(BadRequest, "You have already reviewed this post")
    ensures r.Ok? ==>
      && requester != 0
      && r.value.0 == SanitizeReview(b).value
      && b.postId.Num? && b.revieweeId.Num?
      && (forall v :: v in l.reviews ==> !(v.reviewerId == requester && v.postId == b.postId.n))
      && UserById(l, b.revieweeId.n).Some?
      && PostById(l, b.postId.n).Some?
      && r.value.1 == PostById(l, b.postId.n).value
      && r.value.1.ownerId == b.revieweeId.n
    ensures (b.comment.Some? && requester != 0 && b.postId.Num? && b.revieweeId.Num? &&
             (forall v :: v in l.reviews ==> !(v.reviewerId == requester && v.postId == b.postId.n))) ==>
      && (UserById(l, b.revieweeId.n).None? ==> r == Fail(NotFound, "Reviewee not found"))
      && (UserById(l, b.revieweeId.n).Some? && PostById(l, b.postId.n).None? ==> r == Fail(NotFound, "Post not found"))
      && ((UserById(l, b.revieweeId.n).Some? && PostById(l, b.postId.n).Some? &&
           PostById(l, b.postId.n).value.ownerId != b.revieweeId.n) ==> r == Fail(BadRequest, "Reviewee must be the post owner"))
  {
    match SanitizeReview(b)
    case None => Fail(ServerError, "Internal Server Error")
    case Some(d) =>
      if requester == 0 then Fail(Unauthorized, "Not authenticated")
      else if !d.postId.Num? then Fail(ServerError, "Failed to create review")
      else if Find(l.reviews, (v: Review) => v.reviewerId == requester && v.postId == d.postId.n).Some? then
        Fail(BadRequest, "You have already reviewed this post")
      else if !d.revieweeId.Num? then Fail(ServerError, "Failed to create review")
      else if UserById(l, d.revieweeId.n).None? then Fail(NotFound, "Reviewee not found")
      else
        match PostById(l, d.postId.n)
        case None => Fail(NotFound, "Post not found")
        case Some(post) =>
          if post.ownerId != d.revieweeId.n then Fail(BadRequest, "Reviewee must be the post owner")
          else Ok((d, post))
  }

  /** `createReview`: the guards, verification, then the review row (always
      approved at once) and the listing's new average. */
  function CreateReview(l: Ledger, requester: nat, b: ReviewBody, now: int): (s: Step<Review>)
    ensures s.result.Err? ==> s.ledger == l
    ensures ReviewGuards(l, requester, b).Err? ==> s.result == Err(ReviewGuards(l, requester, b).failure)
    ensures ReviewGuards(l, requester, b).Ok? &&
            Verify(l, requester, ReviewGuards(l, requester, b).value.1, b, now).Ok? &&
            !LinksResolve(l, b) ==>
      s == Refuse(l, ServerError, "Failed to create review")
    ensures ReviewGuards(l, requester, b).Ok? &&
            Verify(l, requester, ReviewGuards(l, requester, b).value.1, b, now).Ok? &&
            b.rating.Num? && LinksResolve(l, b) ==>
      s.result.Ok?
    ensures s.result.Ok? ==>
      var v := s.result.value;
      var post := ReviewGuards(l, requester, b).value.1;
      && ReviewGuards(l, requester, b).Ok?
      && Verify(l, requester, post, b, now) == Ok(v.isVerified)
      && v.status.Approved? && v.approvedAt == Some(now)
      && v.moderatedById.None? && v.moderationReason.None?
      && v.reviewerId == requester && v.revieweeId == post.ownerId && v.postId == post.id
      && b.rating.Num? && v.rating == b.rating.n
      && v.comment == Trim(b.comment.value)
      && v.title == SanitizeReview(b).value.title
      && v.paymentId == Link(b.paymentId) && v.bookingId == Link(b.bookingId)
      && LinksResolve(l, b)
      && (forall w :: w in l.reviews ==> w.id != v.id)
      && (forall w :: w in l.reviews ==> w.reviewerId != requester || w.postId != post.id)
      && s.ledger == UpdatePostRating(l.(reviews := l.reviews + [v]), post.id)
  {
    match ReviewGuards(l, requester, b)
    case Err(f) => Step(l, Err(f))
    case Ok((d, post)) =>
      match Verify(l, requester, post, d, now)
      case Err(f) => Step(l, Err(f))
      case Ok(verified) =>
        if !d.rating.Num? || !LinksResolve(l, d) then Refuse(l, ServerError, "Failed to create review")
        else
          var review := Review(
            NextId(l.reviews, (w: Review) => w.id), d.rating.n, d.title, d.comment.value, requester, d.revieweeId.n,
            post.id, Link(d.paymentId), Link(d.bookingId), ReviewStatus.Approved, verified, Some(now), None, None);
          Step(UpdatePostRating(l.(reviews := l.reviews + [review]), post.id), Ok(review))
  }

  /** A reviewer never gets a second review of the same listing. */
  lemma CreateKeepsOneReviewPerPost(l: Ledger, requester: nat, b: ReviewBody, now: int)
    requires OneReviewPerPost(l.reviews)
    ensures OneReviewPerPost(CreateReview(l, requester, b, now).ledger.reviews)
  {
    var s := CreateReview(l, requester, b, now);
    if s.result.Ok? {
      AppendKeepsOneReviewPerPost(l.reviews, s.result.value);
    }
  }

  /** Appending a review whose (reviewer, listing) pair is new keeps the
      pairs distinct. */
  lemma AppendKeepsOneReviewPerPost(rs: seq<Review>, v: Review)
    requires OneReviewPerPost(rs)
    requires forall w :: w in rs ==> w.reviewerId != v.reviewerId || w.postId != v.postId
    ensures OneReviewPerPost(rs + [v])
  {
    var all := rs + [v];
    forall i, j | 0 <= i < j < |all|
      ensures all[i].reviewerId != all[j].reviewerId || all[i].postId != all[j].postId
    {
      if j < |rs| {
        assert all[i] == rs[i] && all[j] == rs[j];
      } else {
        assert all[i] == rs[i] && rs[i] in rs;
      }
    }
  }

  /** A second review by the same reviewer of the same listing is refused
      and stores nothing. */
  lemma SecondReviewRefused(l: Ledger, requester: nat, b: ReviewBody, now: int)
    requires CreateReview(l, requester, b, now).result.Ok?
    ensures var l2 := CreateReview(l, requester, b, now).ledger;
      CreateReview(l2, requester, b, now) == Refuse(l2, BadRequest, "You have already reviewed this post")
  {
    var s := CreateReview(l, requester, b, now);
    var l2 := s.ledger;
    assert s.result.value in l2.reviews;
  }

  // ---------------------------------------------------------------------
  // Moderation (updateReviewStatus)
  // ---------------------------------------------------------------------

  const ReviewStatuses: seq<string> := ["pending", "approved", "rejected"]

  function StatusNamed(name: string): ReviewStatus
    requires name in ReviewStatuses
  {
    if name == "pending" then ReviewStatus.Pending
    else if name == "approved" then ReviewStatus.Approved
    else ReviewStatus.Rejected
  }

  /** Write `v` over the review row with its id. */
  function ReplaceReview(reviews: seq<Review>, v: Review): seq<Review>
  {
    ReplaceByKey(reviews, v, (x: Review) => x.id)
  }

  /** `updateReviewStatus`. `moderator` is the requester's id (0 when the
      token carries none). The moderator column is null exactly for
      "pending", the approval time is set exactly for "approved", and the
      listing's average is recomputed. */
  function UpdateReviewStatus(l: Ledger, id: Param, moderator: nat, status: Option<string>,
                              moderationReason: Option<string>, now: int): (s: Step<Review>)
    ensures s.result.Err? ==> s.ledger == l
    ensures status.None? || status.value !in ReviewStatuses ==> s.result == Fail(BadRequest, "Invalid status")
    ensures status.Some? && status.value in ReviewStatuses && id.Num? && ReviewById(l, id.n).None? ==>
      s.result == Fail(NotFound, "Review not found")
    ensures status.Some? && status.value in ReviewStatuses && !id.Num? ==>
      s.result == Fail(ServerError, "Failed to update review")
    ensures status.Some? && status.value in ReviewStatuses && id.Num? && ReviewById(l, id.n).Some? &&
            status.value != "pending" && moderator == 0 ==>
      s.result == Fail(ServerError, "Failed to update review")
    ensures status.Some? && status.value in ReviewStatuses && id.Num? && ReviewById(l, id.n).Some? &&
            (status.value == "pending" || moderator != 0) ==>
      s.result.Ok?
    ensures s.result.Ok? ==>
      var v := s.result.value;
      && status.Some? && status.value in ReviewStatuses && id.Num? && ReviewById(l, id.n).Some?
      && v == ReviewById(l, id.n).value.(status := v.status, moderationReason := v.moderationReason,
                                         moderatedById := v.moderatedById, approvedAt := v.approvedAt)
      && v.status == StatusNamed(status.value)
      && (v.moderatedById.None? <==> status.value == "pending")
      && (v.moderatedById.Some? ==> v.moderatedById.value == moderator)
      && (v.approvedAt.Some? <==> status.value == "approved")
      && (v.approvedAt.Some? ==> v.approvedAt.value == now)
      && (v.moderationReason.Some? <==> Given(moderationReason))
      && (Given(moderationReason) ==> v.moderationReason.value == Trim(moderationReason.value))
      && s.ledger == UpdatePostRating(l.(reviews := ReplaceReview(l.reviews, v)), v.postId)
  {
    if status.None? || status.value !in ReviewStatuses then Refuse(l, BadRequest, "Invalid status")
    else if !id.Num? then Refuse(l, ServerError, "Failed to update review")
    else
      match ReviewById(l, id.n)
      case None => Refuse(l, NotFound, "Review not found")
      case Some(review) =>
        if status.value != "pending" && moderator == 0 then Refuse(l, ServerError, "Failed to update review")
        else
          var v := review.(
            status := StatusNamed(status.value),
            moderationReason := if Given(moderationReason) then Some(Trim(moderationReason.value)) else None,
            moderatedById := if status.value != "pending" then Some(moderator as int) else None,
            approvedAt := if status.value == "approved" then Some(now) else None);
          Step(UpdatePostRating(l.(reviews := ReplaceReview(l.reviews, v)), v.postId), Ok(v))
  }

  /** Sending a review back to "pending" clears both the moderator and the
      approval time, whatever they were. */
  lemma BackToPendingClearsModeration(l: Ledger, id: int, moderator: nat, now: int)
    requires ReviewById(l, id).Some?
    ensures var s := UpdateReviewStatus(l, Num(id), moderator, Some("pending"), None, now);
      s.result.Ok? && s.result.value.moderatedById.None? && s.result.value.approvedAt.None?
      && s.result.value.status.Pending?
  {
  }

  /** Review ids are the primary key. */
  predicate DistinctReviewIds(reviews: seq<Review>)
  {
    forall i, j :: 0 <= i < j < |reviews| ==> reviews[i].id != reviews[j].id
  }

  /** Every stored rating is between 1 and 5. */
  predicate RatingsInScale(reviews: seq<Review>)
  {
    forall i :: 0 <= i < |reviews| ==> 1 <= reviews[i].rating <= 5
  }

  /** Moderation changes neither who reviewed what nor any rating, so it
      keeps one review per reviewer and listing, the primary key and the
      rating scale. */
  lemma ModerationKeepsReviews(l: Ledger, id: Param, moderator: nat, status: Option<string>,
                               moderationReason: Option<string>, now: int)
    requires DistinctReviewIds(l.reviews)
    ensures var r := UpdateReviewStatus(l, id, moderator, status, moderationReason, now).ledger.reviews;
      && |r| == |l.reviews|
      && (forall i :: 0 <= i < |r| ==>
            r[i].id == l.reviews[i].id && r[i].reviewerId == l.reviews[i].reviewerId
            && r[i].postId == l.reviews[i].postId && r[i].rating == l.reviews[i].rating)
      && (OneReviewPerPost(l.reviews) ==> OneReviewPerPost(r))
      && DistinctReviewIds(r)
      && (RatingsInScale(l.reviews) ==> RatingsInScale(r))
  {
    var s := UpdateReviewStatus(l, id, moderator, status, moderationReason, now);
    var r := s.ledger.reviews;
    if s.result.Ok? {
      var v := s.result.value;
      var review := ReviewById(l, id.n).value;
      assert r == ReplaceReview(l.reviews, v);
      forall i | 0 <= i < |r|
        ensures r[i].id == l.reviews[i].id && r[i].reviewerId == l.reviews[i].reviewerId
        ensures r[i].postId == l.reviews[i].postId && r[i].rating == l.reviews[i].rating
      {
        if l.reviews[i].id == v.id {
          var k :| 0 <= k < |l.reviews| && l.reviews[k] == review;
          assert i == k;
        }
      }
    }
  }

  // ---------------------------------------------------------------------
  // Deletion (deleteReview)
  // ---------------------------------------------------------------------

  /** Remove the review and recompute its listing's average. */
  function RemoveReview(l: Ledger, review: Review): (r: Ledger)
    ensures forall v :: v in r.reviews <==> v in l.reviews && v.id != review.id
  {
    var kept := l.(reviews := Filter(l.reviews, (v: Review) => v.id != review.id));
    var r := UpdatePostRating(kept, review.postId);
    assert r.reviews == kept.reviews;
    r
  }

  /** `deleteReview` as written: the admin override reads a request field
      that no middleware sets, so it never applies and only the review's
      author may delete it. */
  function DeleteReviewAsWritten(l: Ledger, id: Param, requester: nat): (s: Step<()>)
    ensures s.result.Err? ==> s.ledger == l
    ensures requester == 0 ==> s.result == Fail(Unauthorized, "Not authenticated")
    ensures requester != 0 && id.Num? && ReviewById(l, id.n).None? ==> s.result == Fail(NotFound, "Review not found")
    ensures requester != 0 && id.Num? && ReviewById(l, id.n).Some? && ReviewById(l, id.n).value.reviewerId != requester ==>
      s.result == Fail(Forbidden, "Not authorized to delete this review")
    ensures s.result.Ok? ==>
      && id.Num? && ReviewById(l, id.n).Some? && ReviewById(l, id.n).value.reviewerId == requester
      && s.ledger == RemoveReview(l, ReviewById(l, id.n).value)
  {
    DeleteWith(l, id, requester, false)
  }

  /** `deleteReview` as evidently intended: the author, or a requester whose
      role is "admin" or "support", may delete a review. */
  function DeleteReview(l: Ledger, id: Param, requester: nat, requesterIsAdmin: bool): (s: Step<()>)
    ensures s.result.Err? ==> s.ledger == l
    ensures requester == 0 ==> s.result == Fail(Unauthorized, "Not authenticated")
    ensures requester != 0 && id.Num? && ReviewById(l, id.n).None? ==> s.result == Fail(NotFound, "Review not found")
    ensures requester != 0 && id.Num? && ReviewById(l, id.n).Some? ==>
      (s.result.Ok? <==> ReviewById(l, id.n).value.reviewerId == requester || requesterIsAdmin)
    ensures s.result.Ok? ==>
      && id.Num? && ReviewById(l, id.n).Some?
      && s.ledger == RemoveReview(l, ReviewById(l, id.n).value)
  {
    DeleteWith(l, id, requester, requesterIsAdmin)
  }

  function DeleteWith(l: Ledger, id: Param, requester: nat, overrides: bool): (s: Step<()>)
    ensures s.result.Err? ==> s.ledger == l
    ensures requester == 0 ==> s.result == Fail(Unauthorized, "Not authenticated")
    ensures requester != 0 && id.Num? && ReviewById(l, id.n).None? ==> s.result == Fail(NotFound, "Review not found")
    ensures requester != 0 && id.Num? && ReviewById(l, id.n).Some? ==>
      if ReviewById(l, id.n).value.reviewerId == requester || overrides
      then s == Step(RemoveReview(l, ReviewById(l, id.n).value), Ok(()))
      else s.result == Fail(Forbidden, "Not authorized to delete this review")
    ensures s.result.Ok? ==> requester != 0 && id.Num? && ReviewById(l, id.n).Some?
  {
    if requester == 0 then Refuse(l, Unauthorized, "Not authenticated")
    else if !id.Num? then Refuse(l, ServerError, "Failed to delete review")
    else
      match ReviewById(l, id.n)
      case None => Refuse(l, NotFound, "Review not found")
      case Some(review) =>
        if review.reviewerId != requester && !overrides then Refuse(l, Forbidden, "Not authorized to delete this review")
        else Step(RemoveReview(l, review), Ok(()))
  }

  /** The discrepancy: an administrator deleting someone else's review is
      refused by the handler as written and allowed by the intended rule. */
  lemma AdminDeleteRefusedAsWritten(l: Ledger, id: int, admin: nat)
    requires admin != 0 && ReviewById(l, id).Some? && ReviewById(l, id).value.reviewerId != admin
    ensures DeleteReviewAsWritten(l, Num(id), admin).result == Fail(Forbidden, "Not authorized to delete this review")
    ensures DeleteReview(l, Num(id), admin, true).result.Ok?
  {
  }

  /** The two agree for everyone who is not an administrator. */
  lemma AsWrittenAgreesForNonAdmins(l: Ledger, id: Param, requester: nat)
    ensures DeleteReviewAsWritten(l, id, requester) == DeleteReview(l, id, requester, false)
  {
  }

  // ---------------------------------------------------------------------
  // A user's reviews (getUserReviews)
  // ---------------------------------------------------------------------

  /** The average and count of the approved reviews a user received; the
      average is null when there are none. */
  datatype RatingSummary = RatingSummary(average: Option<real>, count: nat)

  datatype UserReviews = UserReviews(reviews: seq<Review>, summary: Option<RatingSummary>)

  /** `getUserReviews` without paging: "received" lists the approved
      reviews of the user and their summary; any other type lists every
      review the user wrote, with no summary. */
  function GetUserReviews(l: Ledger, userId: Param, kind: string): (r: Result<UserReviews>)
    ensures r.Err? <==> !userId.Num?
    ensures r.Ok? && kind == "received" ==>
      && (forall v :: v in r.value.reviews <==> v in l.reviews && v.revieweeId == userId.n && v.status.Approved?)
      && r.value.summary.Some?
      && r.value.summary.value.count == |r.value.reviews|
      && (r.value.summary.value.average.None? <==> |r.value.reviews| == 0)
      && (|r.value.reviews| > 0 ==>
            r.value.summary.value.average.value * |r.value.reviews| as real == Sum(Ratings(r.value.reviews)) as real)
    ensures r.Ok? && kind != "received" ==>
      && (forall v :: v in r.value.reviews <==> v in l.reviews && v.reviewerId == userId.n)
      && r.value.summary.None?
  {
    if !userId.Num? then Fail(ServerError, "Failed to fetch user reviews")
    else if kind == "received" then
      var received := Filter(l.reviews, (v: Review) => v.revieweeId == userId.n && v.status.Approved?);
      var ratings := Ratings(received);
      Ok(UserReviews(received, Some(RatingSummary(if |ratings| == 0 then None else Some(Mean(ratings)), |received|))))
    else
      Ok(UserReviews(Filter(l.reviews, (v: Review) => v.reviewerId == userId.n), None))
  }

  /** With every stored rating between 1 and 5, a user's received average
      is between 1 and 5 too. */
  lemma ReceivedAverageInScale(l: Ledger, userId: Param)
    requires RatingsInScale(l.reviews)
    ensures var r := GetUserReviews(l, userId, "received");
      r.Ok? && r.value.summary.value.average.Some? ==> 1.0 <= r.value.summary.value.average.value <= 5.0
  {
    var r := GetUserReviews(l, userId, "received");
    if r.Ok? && r.value.summary.value.average.Some? {
      var rs := r.value.reviews;
      assert r.value.summary.value.average.value == Mean(Ratings(rs));
      assert forall v :: v in rs ==> v in l.reviews;
      InScaleSubset(rs, l.reviews);
      MeanInScale(rs);
    }
  }

  lemma InScaleSubset(rs: seq<Review>, all: seq<Review>)
    requires RatingsInScale(all) && forall v :: v in rs ==> v in all
    ensures RatingsInScale(rs)
  {
    forall i | 0 <= i < |rs| ensures 1 <= rs[i].rating <= 5 {
      assert rs[i] in all;
      var k :| 0 <= k < |all| && all[k] == rs[i];
    }
  }

  lemma MeanInScale(rs: seq<Review>)
    requires |rs| > 0 && RatingsInScale(rs)
    ensures 1.0 <= Mean(Ratings(rs)) <= 5.0
  {
    MeanWithinBounds(Ratings(rs), 1, 5);
  }

  // ---------------------------------------------------------------------
  // Routes (routes/reviewRoute.js)
  // ---------------------------------------------------------------------

  /** The token check and the administrator gate in front of the moderation
      and deletion routes: no token gives 401, a token whose account is
      gone gives 401 "User not found", and the account's stored role must
      be an administrator's. */
  function AdminRoute(l: Ledger, requester: nat): (r: Result<()>)
    ensures requester == 0 ==> r == Fail(Unauthorized, "Not authenticated")
    ensures requester != 0 && UserById(l, requester).None? ==> r == Fail(Unauthorized, "User not found")
    ensures r.Ok? <==> requester != 0 && UserById(l, requester).Some? && IsAdmin(UserById(l, requester).value.role)
    ensures requester != 0 && UserById(l, requester).Some? && r.Err? ==> r == Fail(Forbidden, "Admin access required")
  {
    if requester == 0 then Fail(Unauthorized, "Not authenticated")
    else
      match UserById(l, requester)
      case None => Fail(Unauthorized, "User not found")
      case Some(u) => AdminGate(u.role)
  }

  /** `DELETE /reviews/:id`: the administrator route, then `deleteReview`
      as written. */
  function DeleteReviewRoute(l: Ledger, id: Param, requester: nat): (s: Step<()>)
    ensures AdminRoute(l, requester).Err? ==> s == Step(l, Err(AdminRoute(l, requester).failure))
    ensures AdminRoute(l, requester).Ok? ==> s == DeleteReviewAsWritten(l, id, requester)
  {
    match AdminRoute(l, requester)
    case Err(f) => Step(l, Err(f))
    case Ok(_) => DeleteReviewAsWritten(l, id, requester)
  }

  /** Gate and handler together: a review is deleted only by an
      administrator who wrote it. An ordinary author is stopped by the
      gate and an administrator by the handler's author check. */
  lemma RoutedDeleteOnlyByAdminAuthor(l: Ledger, id: Param, requester: nat)
    ensures DeleteReviewRoute(l, id, requester).result.Ok? <==>
      && requester != 0 && UserById(l, requester).Some? && IsAdmin(UserById(l, requester).value.role)
      && id.Num? && ReviewById(l, id.n).Some? && ReviewById(l, id.n).value.reviewerId == requester
  {
  }

  /** `PUT /reviews/:id/status`: the administrator route, then
      `updateReviewStatus` with the requester as moderator. */
  function ModerateRoute(l: Ledger, id: Param, requester: nat, status: Option<string>,
                         moderationReason: Option<string>, now: int): (s: Step<Review>)
    ensures AdminRoute(l, requester).Err? ==> s == Step(l, Err(AdminRoute(l, requester).failure))
    ensures AdminRoute(l, requester).Ok? ==> s == UpdateReviewStatus(l, id, requester, status, moderationReason, now)
  {
    match AdminRoute(l, requester)
    case Err(f) => Step(l, Err(f))
    case Ok(_) => UpdateReviewStatus(l, id, requester, status, moderationReason, now)
  }

  /** Behind the gate every approval or rejection names an administrator
      as its moderator. */
  lemma RoutedModerationNamesAdmin(l: Ledger, id: Param, requester: nat, status: Option<string>,
                                   moderationReason: Option<string>, now: int)
    requires ModerateRoute(l, id, requester, status, moderationReason, now).result.Ok?
    ensures var v := ModerateRoute(l, id, requester, status, moderationReason, now).result.value;
      v.moderatedById.Some? ==>
        && v.moderatedById.value == requester
        && UserById(l, requester).Some? && IsAdmin(UserById(l, requester).value.role)
  {
  }
}

=== FILE: text.dfy ===
/** The pieces of JavaScript's string library the controllers lean on:
    the whitespace class shared by `\s` and `String.prototype.trim`, ASCII
    case mapping, ASCII digits (`\d`) and substring search. */
module Text {
  import opened Common

  /** A character in JavaScript's WhiteSpace or LineTerminator classes,
      which is what both the `\s` regex class and `trim` remove. */
  predicate IsSpace(c: char)
  {
    c == ' ' || c == '\t' || c == '\n' || c == '\r' || c == '\U{B}' || c == '\U{C}'
    || c == '\U{A0}' || c == '\U{FEFF}' || c == '\U{1680}' || ('\U{2000}' <= c <= '\U{200A}')
    || c == '\U{2028}' || c == '\U{2029}' || c == '\U{202F}' || c == '\U{205F}' || c == '\U{3000}'
  }

  /** `s` with its leading whitespace removed. */
  function TrimStart(s: string): (r: string)
    ensures |r| <= |s| && r == s[|s| - |r|..]
    ensures forall i :: 0 <= i < |s| - |r| ==> IsSpace(s[i])
    ensures r != [] ==> !IsSpace(r[0])
  {
    if |s| > 0 && IsSpace(s[0]) then TrimStart(s[1..]) else s
  }

  /** `s` with its trailing whitespace removed. */
  function TrimEnd(s: string): (r: string)
    ensures |r| <= |s| && r == s[..|r|]
    ensures forall i :: |r| <= i < |s| ==> IsSpace(s[i])
    ensures r != [] ==> !IsSpace(r[|r| - 1])
  {
    if |s| > 0 && IsSpace(s[|s| - 1]) then TrimEnd(s[..|s| - 1]) else s
  }

  /** `String.prototype.trim`: the slice of `s` left once the whitespace at
      both ends is gone. */
  function Trim(s: string): (r: string)
    ensures r != [] ==> !IsSpace(r[0]) && !IsSpace(r[|r| - 1])
    ensures var a := |s| - |TrimStart(s)|;
      && a + |r| <= |s|
      && r == s[a..a + |r|]
      && (forall i :: 0 <= i < a ==> IsSpace(s[i]))
      && (forall i :: a + |r| <= i < |s| ==> IsSpace(s[i]))
  {
    TrimEnd(TrimStart(s))
  }

  /** A string that is empty once trimmed. */
  predicate IsBlank(s: string)
  {
    Trim(s) == []
  }

  /** A string is blank exactly when every character is whitespace. */
  lemma BlankIffAllSpace(s: string)
    ensures IsBlank(s) <==> forall i :: 0 <= i < |s| ==> IsSpace(s[i])
  {
    var a := |s| - |TrimStart(s)|;
    if !IsBlank(s) {
      var r := Trim(s);
      assert s[a] == r[0];
    }
  }

  /** Trimming twice is trimming once. */
  lemma TrimIdempotent(s: string)
    ensures Trim(Trim(s)) == Trim(s)
  {
    var r := Trim(s);
    if r != [] {
      assert TrimStart(r) == r;
      assert TrimEnd(r) == r;
    }
  }

  /** `s.replace(/\s/g, "")`: every whitespace character deleted. */
  function RemoveSpaces(s: string): (r: string)
    ensures |r| <= |s|
    ensures forall i :: 0 <= i < |r| ==> !IsSpace(r[i])
    ensures forall c :: c in r <==> c in s && !IsSpace(c)
  {
    if |s| == 0 then []
    else if IsSpace(s[0]) then RemoveSpaces(s[1..])
    else [s[0]] + RemoveSpaces(s[1..])
  }

  function UpperChar(c: char): char
  {
    if 'a' <= c <= 'z' then (c as int - 'a' as int + 'A' as int) as char else c
  }

  function LowerChar(c: char): char
  {
    if 'A' <= c <= 'Z' then (c as int - 'A' as int + 'a' as int) as char else c
  }

  /** `toUpperCase` restricted to ASCII letters. */
  function ToUpper(s: string): (r: string)
    ensures |r| == |s|
  {
    seq(|s|, i requires 0 <= i < |s| => UpperChar(s[i]))
  }

  /** `toLowerCase` restricted to ASCII letters. */
  function ToLower(s: string): (r: string)
    ensures |r| == |s|
  {
    seq(|s|, i requires 0 <= i < |s| => LowerChar(s[i]))
  }

  /** Upper-casing forgets any earlier lower-casing, so text that went out
      lower-cased comes back in the same upper case as the original. */
  lemma UpperOfLower(s: string)
    ensures ToUpper(ToLower(s)) == ToUpper(s)
  {
    forall i | 0 <= i < |s|
      ensures ToUpper(ToLower(s))[i] == ToUpper(s)[i]
    {
      var c := s[i];
      if 'A' <= c <= 'Z' {
        assert LowerChar(c) as int == c as int + 32;
      }
    }
  }

  /** An ASCII digit, the regex class `\d`. */
  predicate IsDigit(c: char)
  {
    '0' <= c <= '9'
  }

  predicate AllDigits(s: string)
  {
    forall i :: 0 <= i < |s| ==> IsDigit(s[i])
  }

  lemma AllDigitsAppend(a: string, b: string)
    requires AllDigits(a) && AllDigits(b)
    ensures AllDigits(a + b)
  {
  }

  function DigitValue(c: char): nat
    requires IsDigit(c)
  {
    c as int - '0' as int
  }

  /** The decimal value of a run of digits (0 for the empty run). */
  function DigitsValue(s: string): (r: nat)
    requires AllDigits(s)
  {
    if |s| == 0 then 0 else 10 * DigitsValue(s[..|s| - 1]) + DigitValue(s[|s| - 1])
  }

  /** A digit run has a positive value exactly when one of its digits is
      not '0'. */
  lemma {:induction false} DigitsValuePositive(s: string)
    requires AllDigits(s)
    ensures DigitsValue(s) > 0 <==> exists i :: 0 <= i < |s| && s[i] != '0'
  {
    if |s| > 0 {
      var init := s[..|s| - 1];
      assert AllDigits(init);
      DigitsValuePositive(init);
      if DigitsValue(init) > 0 {
        var i :| 0 <= i < |init| && init[i] != '0';
        assert s[i] != '0';
      } else if s[|s| - 1] == '0' {
        forall i | 0 <= i < |s|
          ensures s[i] == '0'
        {
          if i < |s| - 1 {
            assert s[i] == init[i];
          }
        }
      }
    }
  }

  /** The longest prefix of `s` made of digits. */
  function DigitRun(s: string): (r: string)
    ensures |r| <= |s| && r == s[..|r|]
    ensures AllDigits(r)
    ensures |r| < |s| ==> !IsDigit(s[|r|])
  {
    if |s| > 0 && IsDigit(s[0]) then [s[0]] + DigitRun(s[1..]) else []
  }

  /** `needle` occurs in `haystack` starting at index `i`. */
  predicate OccursAt(haystack: string, needle: string, i: int)
  {
    0 <= i && i + |needle| <= |haystack| && haystack[i..i + |needle|] == needle
  }

  /** `haystack` contains `needle` as a contiguous substring. */
  predicate Contains(haystack: string, needle: string)
  {
    exists i | 0 <= i <= |haystack| - |needle| :: OccursAt(haystack, needle, i)
  }

  predicate IsHexDigit(c: char)
  {
    IsDigit(c) || 'a' <= c <= 'f' || 'A' <= c <= 'F'
  }

  predicate AllHexDigits(s: string)
  {
    forall i :: 0 <= i < |s| ==> IsHexDigit(s[i])
  }

  function HexDigitValue(c: char): (r: nat)
    requires IsHexDigit(c)
    ensures r < 16
  {
    if IsDigit(c) then DigitValue(c)
    else if 'a' <= c <= 'f' then c as int - 'a' as int + 10
    else c as int - 'A' as int + 10
  }

  /** The base-16 value of a run of hexadecimal digits. */
  function HexValue(s: string): nat
    requires AllHexDigits(s)
  {
    if |s| == 0 then 0 else 16 * HexValue(s[..|s| - 1]) + HexDigitValue(s[|s| - 1])
  }

  /** The longest prefix of `s` made of hexadecimal digits. */
  function HexRun(s: string): (r: string)
    ensures |r| <= |s| && r == s[..|r|]
    ensures AllHexDigits(r)
    ensures |r| < |s| ==> !IsHexDigit(s[|r|])
  {
    if |s| > 0 && IsHexDigit(s[0]) then [s[0]] + HexRun(s[1..]) else []
  }

  /** Text that starts with the `0x` or `0X` prefix. */
  predicate HexPrefixed(u: string)
  {
    |u| >= 2 && u[0] == '0' && (u[1] == 'x' || u[1] == 'X')
  }

  /** The unsigned part of `parseInt`: after a `0x`/`0X` prefix the longest
      run of hexadecimal digits in base 16, otherwise the longest run of
      decimal digits; None when that run is empty. */
  function ParseMagnitude(u: string): (r: Option<nat>)
  {
    if HexPrefixed(u) then
      var h := HexRun(u[2..]);
      if |h| == 0 then None else Some(HexValue(h))
    else
      var d := DigitRun(u);
      if |d| == 0 then None else Some(DigitsValue(d))
  }

  /** `parseInt(s)` without a radix: leading whitespace, an optional sign,
      then a hexadecimal literal after `0x`/`0X` or a decimal one; None
      stands for NaN. */
  function ParseInt(s: string): (r: Option<int>)
    ensures r.Some? ==> exists k :: 0 <= k < |s| && IsDigit(s[k])
  {
    var t := TrimStart(s);
    var signed := |t| > 0 && (t[0] == '+' || t[0] == '-');
    var u := if signed then t[1..] else t;
    match ParseMagnitude(u)
    case None => None
    case Some(m) =>
      var k := |s| - |t| + (if signed then 1 else 0);
      assert s[k] == u[0];
      Some(if signed && t[0] == '-' then -(m as int) else m)
  }

  /** A `0x` literal reads in base 16: "0x10" is 16, not 0. */
  lemma ParseIntOfHex(h: string)
    requires |h| > 0 && AllHexDigits(h)
    ensures ParseInt("0x" + h) == Some(HexValue(h) as int)
  {
    var s := "0x" + h;
    assert s[0] == '0' && s[1] == 'x' && !IsSpace(s[0]);
    assert TrimStart(s) == s;
    assert s[2..] == h;
    HexRunOfHexDigits(h);
    assert ParseMagnitude(s) == Some(HexValue(h));
  }

  /** A run of hexadecimal digits is its own longest hexadecimal prefix. */
  lemma {:induction false} HexRunOfHexDigits(s: string)
    requires AllHexDigits(s)
    ensures HexRun(s) == s
  {
    if |s| > 0 {
      HexRunOfHexDigits(s[1..]);
    }
  }

  /** A run of digits is its own longest digit prefix. */
  lemma {:induction false} DigitRunOfDigits(s: string)
    requires AllDigits(s)
    ensures DigitRun(s) == s
  {
    if |s| > 0 {
      DigitRunOfDigits(s[1..]);
    }
  }

  /** `ParseInt` reads back the decimal spelling of a natural number. */
  lemma ParseIntOfDigits(s: string)
    requires |s| > 0 && AllDigits(s)
    ensures ParseInt(s) == Some(DigitsValue(s) as int)
  {
    assert !IsSpace(s[0]);
    assert TrimStart(s) == s;
    assert s[0] != '+' && s[0] != '-';
    assert !HexPrefixed(s) by {
      if |s| >= 2 {
        assert IsDigit(s[1]);
      }
    }
    DigitRunOfDigits(s);
  }

  /** `s.split(sep)` for a one-character separator: the pieces between
      separators, in order. */
  function Split(s: string, sep: char): (r: seq<string>)
    ensures |r| > 0
    ensures forall i, k :: 0 <= i < |r| && 0 <= k < |r[i]| ==> r[i][k] != sep
  {
    if |s| == 0 then [""]
    else
      var rest := Split(s[1..], sep);
      if s[0] == sep then [""] + rest
      else [[s[0]] + rest[0]] + rest[1..]
  }

  /** The pieces joined back with the separator between them. */
  function Join(parts: seq<string>, sep: char): string
    requires |parts| > 0
  {
    if |parts| == 1 then parts[0] else parts[0] + [sep] + Join(parts[1..], sep)
  }

  /** Splitting loses nothing: joining the pieces rebuilds the text. */
  lemma {:induction false} JoinSplit(s: string, sep: char)
    ensures Join(Split(s, sep), sep) == s
  {
    if |s| > 0 {
      var rest := Split(s[1..], sep);
      JoinSplit(s[1..], sep);
      if s[0] != sep {
        var r := Split(s, sep);
        if |rest| == 1 {
          assert r == [[s[0]] + rest[0]];
        } else {
          assert r[1..] == rest[1..];
          assert Join(r, sep) == [s[0]] + rest[0] + [sep] + Join(rest[1..], sep);
        }
      }
    }
  }
}

=== FILE: users.dfy ===
/** Account handlers (`controllers/userController.js`): the saved-listing
    toggle, the partial account update with its profile upsert, and the
    account delete. */
module Users {
  import opened Common
  import opened Ledger

  // ---------------------------------------------------------------------
  // Saved listings (savePost)
  // ---------------------------------------------------------------------

  /** The (user, listing) pairs a saved list records. */
  function Pairs(saved: seq<SavedPost>): set<(nat, nat)>
  {
    set x | x in saved :: (x.userId, x.postId)
  }

  /** Row ids are distinct and so are (user, listing) pairs, as the
      table's keys demand. */
  predicate SavedKeys(saved: seq<SavedPost>)
  {
    forall x, y :: x in saved && y in saved && x != y ==>
      x.id != y.id && (x.userId, x.postId) != (y.userId, y.postId)
  }

  /** The saved row of a user and listing, if any. */
  function SavedEntry(saved: seq<SavedPost>, userId: nat, postId: nat): (r: Option<SavedPost>)
    ensures r.Some? ==> r.value in saved && r.value.userId == userId && r.value.postId == postId
    ensures r.None? <==> (userId, postId) !in Pairs(saved)
  {
    var r := Find(saved, (x: SavedPost) => x.userId == userId && x.postId == postId);
    if r.None? then
      assert forall x :: x in saved ==> (x.userId, x.postId) != (userId, postId);
      r
    else
      assert (userId, postId) in Pairs(saved) by { assert r.value in saved; }
      r
  }

  /** `savePost`: with a valid listing id and an existing listing, remove
      the requester's saved row for it when there is one, else add one.
      The response tells whether the listing is saved afterwards. A
      requester of 0 is the token check's refusal. */
  function SavePost(l: Ledger, postId: Param, requester: nat): (s: Step<bool>)
    ensures s.result.Err? ==> s.ledger == l
    ensures requester == 0 ==> s.result == Fail(Unauthorized, "Not authenticated")
    ensures requester != 0 && !ValidId(postId) ==> s.result == Fail(BadRequest, "Invalid post ID")
    ensures requester != 0 && ValidId(postId) && PostById(l, postId.n).None? ==> s.result == Fail(NotFound, "Post not found")
    ensures s.result.Ok? <==> requester != 0 && ValidId(postId) && PostById(l, postId.n).Some?
    ensures s.result.Ok? ==>
      && s.ledger == l.(saved := s.ledger.saved)
      && (s.result.value <==> (requester, postId.n) !in Pairs(l.saved))
  {
    if requester == 0 then Refuse(l, Unauthorized, "Not authenticated")
    else if !ValidId(postId) then Refuse(l, BadRequest, "Invalid post ID")
    else if PostById(l, postId.n).None? then Refuse(l, NotFound, "Post not found")
    else
      match SavedEntry(l.saved, requester, postId.n)
      case Some(entry) =>
        Step(l.(saved := Filter(l.saved, (x: SavedPost) => x.id != entry.id)), Ok(false))
      case None =>
        var entry := SavedPost(NextId(l.saved, (x: SavedPost) => x.id), requester, postId.n);
        Step(l.(saved := l.saved + [entry]), Ok(true))
  }

  /** Removing the one row of a pair removes exactly that pair. */
  lemma RemoveEntryPairs(saved: seq<SavedPost>, entry: SavedPost)
    requires SavedKeys(saved) && entry in saved
    ensures SavedKeys(Filter(saved, (x: SavedPost) => x.id != entry.id))
    ensures Pairs(Filter(saved, (x: SavedPost) => x.id != entry.id)) == Pairs(saved) - {(entry.userId, entry.postId)}
  {
    var kept := Filter(saved, (x: SavedPost) => x.id != entry.id);
    assert forall x :: x in kept ==> x in saved && x.id != entry.id;
    forall pr | pr in Pairs(saved) - {(entry.userId, entry.postId)}
      ensures pr in Pairs(kept)
    {
      var x :| x in saved && (x.userId, x.postId) == pr;
      var k :| 0 <= k < |saved| && saved[k] == x;
      assert saved[k] in kept;
    }
  }

  /** The toggle keeps the table's keys. */
  lemma SaveKeepsKeys(l: Ledger, postId: Param, requester: nat)
    requires SavedKeys(l.saved)
    ensures SavedKeys(SavePost(l, postId, requester).ledger.saved)
    ensures var s := SavePost(l, postId, requester);
      s.result.Ok? ==>
        Pairs(s.ledger.saved) == (if s.result.value then Pairs(l.saved) + {(requester, postId.n)}
                                  else Pairs(l.saved) - {(requester, postId.n)})
  {
    var s := SavePost(l, postId, requester);
    if s.result.Ok? {
      match SavedEntry(l.saved, requester, postId.n)
      case Some(entry) =>
        RemoveEntryPairs(l.saved, entry);
      case None =>
        var entry := SavedPost(NextId(l.saved, (x: SavedPost) => x.id), requester, postId.n);
        var after := l.saved + [entry];
        assert s.ledger.saved == after;
        assert forall x :: x in after ==> x == entry || x in l.saved;
        assert Pairs(after) == Pairs(l.saved) + {(requester, postId.n)} by {
          forall pr | pr in Pairs(after) ensures pr in Pairs(l.saved) + {(requester, postId.n)} {
            var x :| x in after && (x.userId, x.postId) == pr;
            if x != entry { assert x in l.saved; }
          }
          assert entry in after;
          forall pr | pr in Pairs(l.saved) ensures pr in Pairs(after) {
            var x :| x in l.saved && (x.userId, x.postId) == pr;
            assert x in after;
          }
        }
    }
  }

  /** Saving twice restores the saved pairs, and the two answers differ. */
  lemma ToggleTwiceRestores(l: Ledger, postId: Param, requester: nat)
    requires SavedKeys(l.saved)
    requires SavePost(l, postId, requester).result.Ok?
    ensures var once := SavePost(l, postId, requester);
      var twice := SavePost(once.ledger, postId, requester);
      && twice.result.Ok?
      && twice.result.value == !once.result.value
      && Pairs(twice.ledger.saved) == Pairs(l.saved)
  {
    var once := SavePost(l, postId, requester);
    SaveKeepsKeys(l, postId, requester);
    assert PostById(once.ledger, postId.n) == PostById(l, postId.n);
    SaveKeepsKeys(once.ledger, postId, requester);
  }

  // ---------------------------------------------------------------------
  // Account update (updateUser)
  // ---------------------------------------------------------------------

  /** An update body: account fields and the profile fields of the rest of
      the body. None stands for a field that is not sent. */
  datatype UserUpdate = UserUpdate(
    password: Option<string>,
    avatar: Option<string>,
    username: Option<string>,
    email: Option<string>,
    phone: Option<string>,
    bio: Option<string>,
    country: Option<string>,
    state: Option<string>,
    city: Option<string>)

  /** The profile upsert: an existing profile takes every field that was
      sent; a new one takes the sent value or "". */
  function UpsertProfile(profiles: seq<Profile>, userId: nat, b: UserUpdate): (r: (seq<Profile>, Profile))
    ensures r.1.userId == userId && r.1 in r.0
    ensures forall p :: p in r.0 && p.userId != userId <==> p in profiles && p.userId != userId
    ensures Find(profiles, (p: Profile) => p.userId == userId).Some? ==>
      var before := Find(profiles, (p: Profile) => p.userId == userId).value;
      r.1 == Profile(userId, OrKept(b.phone, before.phone), OrKept(b.bio, before.bio), OrKept(b.country, before.country),
                     OrKept(b.state, before.state), OrKept(b.city, before.city))
    ensures Find(profiles, (p: Profile) => p.userId == userId).None? ==>
      r.1 == Profile(userId, OrText(b.phone, ""), OrText(b.bio, ""), OrText(b.country, ""), OrText(b.state, ""), OrText(b.city, ""))
      && r.0 == profiles + [r.1]
  {
    match Find(profiles, (p: Profile) => p.userId == userId)
    case Some(before) =>
      var after := Profile(userId, OrKept(b.phone, before.phone), OrKept(b.bio, before.bio), OrKept(b.country, before.country),
                           OrKept(b.state, before.state), OrKept(b.city, before.city));
      var r := seq(|profiles|, i requires 0 <= i < |profiles| => if profiles[i].userId == userId then after else profiles[i]);
      assert before in profiles;
      var k :| 0 <= k < |profiles| && profiles[k] == before;
      assert r[k] == after;
      assert forall p :: p in r && p.userId != userId ==> p in profiles;
      assert forall i :: 0 <= i < |profiles| && profiles[i].userId != userId ==> r[i] == profiles[i];
      (r, after)
    case None =>
      var after := Profile(userId, OrText(b.phone, ""), OrText(b.bio, ""), OrText(b.country, ""), OrText(b.state, ""), OrText(b.city, ""));
      (profiles + [after], after)
  }

  /** The account row after an update: only the username, email, avatar
      and password columns can change, each only when sent as non-empty
      text; a new password is stored through the hash. */
  function UpdatedAccount(u: User, b: UserUpdate, hash: string -> string): (r: User)
    ensures r == u.(username := r.username, email := r.email, avatar := r.avatar, passwordHash := r.passwordHash)
    ensures Given(b.username) ==> r.username == b.username.value
    ensures Given(b.email) ==> r.email == b.email.value
    ensures Given(b.avatar) ==> r.avatar == b.avatar
    ensures Given(b.password) ==> r.passwordHash == hash(b.password.value)
    ensures !Given(b.username) && !Given(b.email) && !Given(b.avatar) && !Given(b.password) ==> r == u
  {
    u.(
      email := OrText(b.email, u.email),
      username := OrText(b.username, u.username),
      passwordHash := if Given(b.password) then hash(b.password.value) else u.passwordHash,
      avatar := if Given(b.avatar) then b.avatar else u.avatar)
  }

  /** A non-empty username or email different from the account's own is
      taken by another account. */
  predicate Taken(l: Ledger, u: User, b: UserUpdate)
  {
    || (Given(b.username) && b.username.value != u.username && exists v :: v in l.users && v.username == b.username.value)
    || (Given(b.email) && b.email.value != u.email && exists v :: v in l.users && v.email == b.email.value)
  }

  /** `updateUser` as written: any authenticated requester may update any
      account. The username check runs before the email check; the
      profile is always upserted. The response is the account (its
      password hash is not shown) and its profile. */
  function UpdateUser(l: Ledger, id: Param, b: UserUpdate, hash: string -> string): (s: Step<(User, Profile)>)
    ensures s.result.Err? ==> s.ledger == l
    ensures !id.Num? ==> s == Refuse(l, ServerError, "Failed to update user")
    ensures id.Num? && UserById(l, id.n).None? ==> s.result == Fail(NotFound, "User not found")
    ensures (id.Num? && UserById(l, id.n).Some? && Given(b.username) && b.username.value != UserById(l, id.n).value.username &&
             (exists v :: v in l.users && v.username == b.username.value)) ==> s.result == Fail(BadRequest, "username already exist")
    ensures (id.Num? && UserById(l, id.n).Some? &&
             !(Given(b.username) && b.username.value != UserById(l, id.n).value.username &&
               (exists v :: v in l.users && v.username == b.username.value)) &&
             Given(b.email) && b.email.value != UserById(l, id.n).value.email &&
             (exists v :: v in l.users && v.email == b.email.value)) ==> s.result == Fail(BadRequest, "email already exist")
    ensures s.result.Ok? <==> id.Num? && UserById(l, id.n).Some? && !Taken(l, UserById(l, id.n).value, b)
    ensures s.result.Ok? ==>
      var before := UserById(l, id.n).value;
      && s.result.value.0 == UpdatedAccount(before, b, hash)
      && s.ledger.users == ReplaceUser(l.users, s.result.value.0)
      && (s.ledger.profiles, s.result.value.1) == UpsertProfile(l.profiles, before.id, b)
      && s.ledger == l.(users := s.ledger.users, profiles := s.ledger.profiles)
  {
    if !id.Num? then Refuse(l, ServerError, "Failed to update user")
    else
      match UserById(l, id.n)
      case None => Refuse(l, NotFound, "User not found")
      case Some(before) =>
        if Given(b.username) && b.username.value != before.username && Find(l.users, (v: User) => v.username == b.username.value).Some? then
          Refuse(l, BadRequest, "username already exist")
        else if Given(b.email) && b.email.value != before.email && Find(l.users, (v: User) => v.email == b.email.value).Some? then
          Refuse(l, BadRequest, "email already exist")
        else
          var after := UpdatedAccount(before, b, hash);
          var (profiles, profile) := UpsertProfile(l.profiles, before.id, b);
          Step(l.(users := ReplaceUser(l.users, after), profiles := profiles), Ok((after, profile)))
  }

  /** Write `u` over the account row with its id. */
  function ReplaceUser(users: seq<User>, u: User): seq<User>
  {
    ReplaceByKey(users, u, (x: User) => x.id)
  }

  /** Distinct accounts have distinct ids, usernames and emails. */
  predicate AccountKeys(users: seq<User>)
  {
    forall i, j :: 0 <= i < j < |users| ==>
      users[i].id != users[j].id && users[i].username != users[j].username && users[i].email != users[j].email
  }

  /** An update never lets two accounts share a username or an email. */
  lemma UpdateKeepsAccountKeys(l: Ledger, id: Param, b: UserUpdate, hash: string -> string)
    requires AccountKeys(l.users)
    ensures AccountKeys(UpdateUser(l, id, b, hash).ledger.users)
  {
    var s := UpdateUser(l, id, b, hash);
    if s.result.Ok? {
      var before := UserById(l, id.n).value;
      var after := s.result.value.0;
      var us := s.ledger.users;
      forall i, j | 0 <= i < j < |us|
        ensures us[i].id != us[j].id && us[i].username != us[j].username && us[i].email != us[j].email
      {
        if l.users[i].id == before.id {
          AccountsDiffer(l.users, before, l.users[j]);
        } else if l.users[j].id == before.id {
          AccountsDiffer(l.users, before, l.users[i]);
        }
      }
    }
  }

  /** Two accounts with different ids differ in username and email. */
  lemma AccountsDiffer(users: seq<User>, x: User, y: User)
    requires AccountKeys(users) && x in users && y in users && x.id != y.id
    ensures x.username != y.username && x.email != y.email
  {
    var a :| 0 <= a < |users| && users[a] == x;
    var b :| 0 <= b < |users| && users[b] == y;
    if a > b {
      assert users[b].id != users[a].id;
    }
  }

  /** Sending the same update twice is sending it once. */
  lemma UpdatedAccountIdempotent(u: User, b: UserUpdate, hash: string -> string)
    ensures UpdatedAccount(UpdatedAccount(u, b, hash), b, hash) == UpdatedAccount(u, b, hash)
  {
  }

  /** Fields sent as empty text change nothing on the account row. */
  lemma EmptyFieldsKeepAccount(u: User, hash: string -> string)
    ensures UpdatedAccount(u, UserUpdate(Some(""), Some(""), Some(""), Some(""), None, None, None, None, None), hash) == u
  {
  }

  /** The update as evidently intended: only the account's own holder may
      change it. */
  function UpdateOwnAccount(l: Ledger, id: Param, requester: nat, b: UserUpdate, hash: string -> string): (s: Step<(User, Profile)>)
    ensures requester == 0 ==> s == Refuse(l, Unauthorized, "Not authenticated")
    ensures id.Num? && requester != 0 && id.n != requester ==> s == Refuse(l, Forbidden, "Not authorized to update this user")
    ensures requester != 0 && (!id.Num? || id.n == requester) ==> s == UpdateUser(l, id, b, hash)
    ensures s.result.Ok? ==> id.Num? && id.n == requester
  {
    if requester == 0 then Refuse(l, Unauthorized, "Not authenticated")
    else if id.Num? && id.n != requester then Refuse(l, Forbidden, "Not authorized to update this user")
    else UpdateUser(l, id, b, hash)
  }

  // ---------------------------------------------------------------------
  // Account delete (deleteUser)
  // ---------------------------------------------------------------------

  /** Remove the account, its profile, its saved rows and the listings it
      owns, in one transaction. */
  function RemoveAccount(l: Ledger, id: nat): (r: Ledger)
    ensures forall u :: u in r.users <==> u in l.users && u.id != id
    ensures forall p :: p in r.profiles <==> p in l.profiles && p.userId != id
    ensures forall x :: x in r.saved <==> x in l.saved && x.userId != id
    ensures forall p :: p in r.posts <==> p in l.posts && p.ownerId != id
    ensures r == l.(users := r.users, profiles := r.profiles, saved := r.saved, posts := r.posts)
  {
    l.(
      profiles := Filter(l.profiles, (p: Profile) => p.userId != id),
      saved := Filter(l.saved, (x: SavedPost) => x.userId != id),
      posts := Filter(l.posts, (p: Post) => p.ownerId != id),
      users := Filter(l.users, (u: User) => u.id != id))
  }

  /** Removing an account keeps the keys of the account and saved tables:
      the rows kept are a subsequence of the rows before. */
  lemma RemoveAccountKeepsKeys(l: Ledger, id: nat)
    requires AccountKeys(l.users) && SavedKeys(l.saved)
    ensures AccountKeys(RemoveAccount(l, id).users) && SavedKeys(RemoveAccount(l, id).saved)
    ensures forall u :: u in RemoveAccount(l, id).users ==> u.id != id
  {
    var users := RemoveAccount(l, id).users;
    var idx := FilterPositions(l.users, (u: User) => u.id != id);
    assert users == Filter(l.users, (u: User) => u.id != id);
    forall i, j | 0 <= i < j < |users|
      ensures users[i].id != users[j].id && users[i].username != users[j].username && users[i].email != users[j].email
    {
      assert users[i] == l.users[idx[i]] && users[j] == l.users[idx[j]];
    }
  }

  /** `deleteUser` as written: any authenticated requester may delete any
      account. */
  function DeleteUser(l: Ledger, id: Param): (s: Step<()>)
    ensures s.result.Err? ==> s.ledger == l
    ensures s.result.Ok? <==> id.Num? && UserById(l, id.n).Some?
    ensures id.Num? && UserById(l, id.n).None? ==> s.result == Fail(NotFound, "User not found")
    ensures s.result.Ok? ==> s.ledger == RemoveAccount(l, id.n)
  {
    if !id.Num? then Refuse(l, ServerError, "Failed to delete user!")
    else
      match UserById(l, id.n)
      case None => Refuse(l, NotFound, "User not found")
      case Some(u) => Step(RemoveAccount(l, u.id), Ok(()))
  }

  /** The delete as evidently intended: the account's own holder only
      (administrators have their own route). */
  function DeleteOwnAccount(l: Ledger, id: Param, requester: nat): (s: Step<()>)
    ensures s.result.Err? ==> s.ledger == l
    ensures requester == 0 ==> s.result == Fail(Unauthorized, "Not authenticated")
    ensures id.Num? && requester != 0 && id.n != requester ==> s.result == Fail(Forbidden, "Not authorized to delete this user")
    ensures s.result.Ok? <==> requester != 0 && id.Num? && id.n == requester && UserById(l, requester).Some?
    ensures s.result.Ok? ==> s.ledger == RemoveAccount(l, requester)
  {
    if requester == 0 then Refuse(l, Unauthorized, "Not authenticated")
    else if id.Num? && id.n != requester then Refuse(l, Forbidden, "Not authorized to delete this user")
    else DeleteUser(l, id)
  }

  /** The discrepancy: as written, a signed-in stranger deletes someone
      else's account; the intended rule refuses and keeps it. */
  lemma StrangerDeletesAccount(l: Ledger, victim: nat, stranger: nat)
    requires UserById(l, victim).Some? && stranger != 0 && stranger != victim
    ensures DeleteUser(l, Num(victim)).result.Ok?
    ensures UserById(DeleteUser(l, Num(victim)).ledger, victim).None?
    ensures DeleteOwnAccount(l, Num(victim), stranger) == Refuse(l, Forbidden, "Not authorized to delete this user")
  {
  }

  /** The same gap in the update: a stranger may rename someone else's
      account. */
  lemma StrangerRenamesAccount(l: Ledger, victim: nat, stranger: nat, name: string, hash: string -> string)
    requires UserById(l, victim).Some? && stranger != 0 && stranger != victim && name != ""
    requires forall v :: v in l.users ==> v.username != name
    ensures var b := UserUpdate(None, None, Some(name), None, None, None, None, None, None);
      && UpdateUser(l, Num(victim), b, hash).result.Ok?
      && UpdateUser(l, Num(victim), b, hash).result.value.0.username == name
      && UpdateOwnAccount(l, Num(victim), stranger, b, hash).result == Fail(Forbidden, "Not authorized to update this user")
  {
  }
}

=== FILE: validation.dfy ===
/** The payment controller's field validators (`paymentValidation` and
    `cardValidation`), together with the part of JavaScript's `parseFloat`
    the amount check depends on. */
module Validation {
  import opened Common
  import opened Text

  /** The `amount` field of a request body: absent (or a JSON value such as
      null or a boolean that parseFloat turns into NaN), a JSON number, or
      text. */
  datatype AmountInput = NoAmount | AmountNumber(number: real) | AmountText(text: string)

  /** The numeric prefix `parseFloat` reads from text: a sign, the digits
      before and after an optional decimal point, and an optional exponent. */
  datatype Decimal = Decimal(negative: bool, intDigits: string, fracDigits: string, exponent: int)

  function Pow10(k: nat): (r: nat)
    ensures r >= 1
  {
    if k == 0 then 1 else 10 * Pow10(k - 1)
  }

  /** 10 raised to an integer power, as an exact rational. */
  function Scale(e: int): (r: real)
    ensures r > 0.0
  {
    if e >= 0 then Pow10(e) as real else 1.0 / Pow10(-e) as real
  }

  /** The exponent suffix `e`/`E`, optional sign, at least one digit; a
      suffix that does not complete is not read and counts as 0. */
  function ScanExponent(s: string): int
  {
    if |s| == 0 || (s[0] != 'e' && s[0] != 'E') then 0
    else
      var signed := |s| > 1 && (s[1] == '+' || s[1] == '-');
      var digits := DigitRun(if signed then s[2..] else s[1..]);
      if |digits| == 0 then 0
      else if signed && s[1] == '-' then -(DigitsValue(digits) as int)
      else DigitsValue(digits)
  }

  /** The longest decimal prefix of `s` after leading whitespace, or None
      when there is not a single digit to read (parseFloat's NaN). */
  function ScanDecimal(s: string): (r: Option<Decimal>)
    ensures r.Some? ==> WellFormed(r.value) && |r.value.intDigits| + |r.value.fracDigits| > 0
  {
    var t := TrimStart(s);
    var signed := |t| > 0 && (t[0] == '+' || t[0] == '-');
    var u := if signed then t[1..] else t;
    var intDigits := DigitRun(u);
    var rest := u[|intDigits|..];
    var pointed := |rest| > 0 && rest[0] == '.';
    var fracDigits := if pointed then DigitRun(rest[1..]) else [];
    var tail := if pointed then rest[1 + |fracDigits|..] else rest;
    if |intDigits| + |fracDigits| == 0 then None
    else Some(Decimal(signed && t[0] == '-', intDigits, fracDigits, ScanExponent(tail)))
  }

  /** The digit fields of a decimal prefix hold only digits. */
  predicate WellFormed(d: Decimal)
  {
    AllDigits(d.intDigits) && AllDigits(d.fracDigits)
  }

  /** The mantissa digits of a decimal prefix, the point removed. */
  function Mantissa(d: Decimal): (r: string)
    requires WellFormed(d)
    ensures AllDigits(r)
  {
    AllDigitsAppend(d.intDigits, d.fracDigits);
    d.intDigits + d.fracDigits
  }

  /** The exact value a decimal prefix denotes. */
  function DecimalValue(d: Decimal): real
    requires WellFormed(d)
  {
    var magnitude := DigitsValue(Mantissa(d)) as real * Scale(d.exponent - |d.fracDigits|);
    if d.negative then -magnitude else magnitude
  }

  /** A number `parseFloat` can produce: a finite value (exact, see
      `MinorUnits`) or an infinity. NaN is None around it. */
  datatype Float = Finite(x: real) | Infinity(negative: bool)

  /** The `Infinity` spelling `parseFloat` accepts: after leading
      whitespace and an optional sign, text beginning with exactly
      "Infinity" (letter case matters). The result says whether it was
      negated. */
  function ScanInfinity(s: string): (r: Option<bool>)
  {
    var t := TrimStart(s);
    var signed := |t| > 0 && (t[0] == '+' || t[0] == '-');
    var u := if signed then t[1..] else t;
    if |u| >= 8 && u[..8] == "Infinity" then Some(signed && t[0] == '-') else None
  }

  /** `parseFloat(text)`: the longest decimal prefix, else an infinity;
      None stands for NaN. A decimal prefix needs a digit, so the two
      readings never compete. */
  function ParseFloat(s: string): Option<Float>
  {
    match ScanDecimal(s)
    case Some(d) => Some(Finite(DecimalValue(d)))
    case None =>
      match ScanInfinity(s)
      case Some(negative) => Some(Infinity(negative))
      case None => None
  }

  /** `parseFloat(value)` for any request value (JSON has no infinities). */
  function AmountOf(v: AmountInput): Option<Float>
  {
    match v
    case NoAmount => None
    case AmountNumber(x) => Some(Finite(x))
    case AmountText(t) => ParseFloat(t)
  }

  /** `x > 0` on a parsed number. */
  predicate Positive(f: Float)
  {
    match f
    case Finite(x) => x > 0.0
    case Infinity(negative) => !negative
  }

  /** `paymentValidation.amount`: the value parses to a number above 0. */
  predicate AmountValid(v: AmountInput)
  {
    AmountOf(v).Some? && Positive(AmountOf(v).value)
  }

  /** `Infinity`, signed or not and followed by anything, reads as an
      infinity of that sign: so "Infinity" passes the amount check and
      "-Infinity" does not. */
  lemma SignedInfinity(sign: string, rest: string)
    requires sign == "" || sign == "+" || sign == "-"
    ensures ParseFloat(sign + "Infinity" + rest) == Some(Infinity(sign == "-"))
    ensures AmountValid(AmountText(sign + "Infinity" + rest)) <==> sign != "-"
  {
    var s := sign + "Infinity" + rest;
    var u := "Infinity" + rest;
    assert !IsSpace(s[0]);
    assert TrimStart(s) == s;
    assert u == s[|sign|..];
    assert u[0] == 'I' && !IsDigit(u[0]) && u[0] != '.';
    assert DigitRun(u) == [];
    assert ScanDecimal(s).None?;
    assert u[..8] == "Infinity";
    assert ScanInfinity(s) == Some(sign == "-");
  }

  /** The spelling must be exact: lower case is NaN. */
  lemma LowerCaseInfinityRefused()
    ensures !AmountValid(AmountText("infinity"))
  {
    var s := "infinity";
    assert !IsSpace(s[0]) && !IsDigit(s[0]) && s[0] != '.' && s[0] != '+' && s[0] != '-';
    assert TrimStart(s) == s;
    assert DigitRun(s) == [];
    assert ScanDecimal(s).None?;
    assert s[..8] != "Infinity" by { assert s[0] != 'I'; }
  }

  /** A decimal prefix denotes a positive number exactly when it is not
      negated and some mantissa digit is not '0'; the exponent never
      matters. */
  lemma DecimalPositive(d: Decimal)
    requires WellFormed(d)
    ensures DecimalValue(d) > 0.0 <==>
      !d.negative && exists i :: 0 <= i < |Mantissa(d)| && Mantissa(d)[i] != '0'
  {
    var m := Mantissa(d);
    DigitsValuePositive(m);
    var n := DigitsValue(m);
    var scale := Scale(d.exponent - |d.fracDigits|);
    SignedScaledSign(d.negative, n, scale);
  }

  /** A signed multiple of a natural number by a positive factor is above 0
      exactly when it is not negated and the number is not 0. */
  lemma SignedScaledSign(negative: bool, n: nat, scale: real)
    requires scale > 0.0
    ensures var magnitude := n as real * scale;
      (if negative then -magnitude else magnitude) > 0.0 <==> !negative && n > 0
  {
    if n > 0 {
      assert n as real >= 1.0;
      assert n as real * scale >= scale;
    }
  }

  /** Text passes the amount check exactly when parseFloat finds a decimal
      prefix that is not negated and has a non-zero mantissa digit, or,
      without any decimal prefix, a positive `Infinity`: what follows the
      prefix, and the exponent, never matter. */
  lemma AmountTextValid(t: string)
    ensures AmountValid(AmountText(t)) <==>
      || (ScanDecimal(t).Some? && !ScanDecimal(t).value.negative &&
          exists i :: 0 <= i < |Mantissa(ScanDecimal(t).value)| && Mantissa(ScanDecimal(t).value)[i] != '0')
      || (ScanDecimal(t).None? && ScanInfinity(t) == Some(false))
  {
    if ScanDecimal(t).Some? {
      DecimalPositive(ScanDecimal(t).value);
    }
  }

  /** `Math.round(x * 100)`: the nearest integer number of minor units,
      halves rounded up. */
  function MinorUnits(x: real): (r: int)
    ensures r as real - 0.5 <= x * 100.0 < r as real + 0.5
  {
    (x * 100.0 + 0.5).Floor
  }

  const SupportedCurrencies: seq<string> := ["USD", "EUR", "GBP", "NGN"]

  /** `paymentValidation.currency`: upper-cased, one of the supported codes
      (an absent value fails). */
  predicate CurrencyValid(v: Option<string>)
  {
    v.Some? && ToUpper(v.value) in SupportedCurrencies
  }

  /** The currency check ignores letter case: lower-casing a code first
      changes nothing, and every accepted code is three characters long. */
  lemma CurrencyCaseInsensitive(s: string)
    ensures CurrencyValid(Some(s)) <==> CurrencyValid(Some(ToLower(s)))
    ensures CurrencyValid(Some(s)) ==> |s| == 3
  {
    UpperOfLower(s);
  }

  const PaymentMethods: seq<string> := ["credit_card", "debit_card", "bank_transfer", "digital_wallet"]

  /** `paymentValidation.paymentMethod`: exact membership, case-sensitive. */
  predicate PaymentMethodValid(v: Option<string>)
  {
    v.Some? && v.value in PaymentMethods
  }

  /** `paymentValidation.description`: absent or empty, or at most 500
      characters. */
  predicate DescriptionValid(v: Option<string>)
  {
    !Given(v) || |v.value| <= 500
  }

  /** `cardValidation.cardNumber`: with whitespace removed, 13 to 19 digits. */
  predicate CardNumberValid(s: string)
  {
    var d := RemoveSpaces(s);
    13 <= |d| <= 19 && AllDigits(d)
  }

  /** A card number is accepted exactly when it consists of digits and
      whitespace only and its digits number 13 to 19. */
  lemma CardNumberShape(s: string)
    ensures CardNumberValid(s) <==>
      (forall i :: 0 <= i < |s| ==> IsDigit(s[i]) || IsSpace(s[i])) && 13 <= |RemoveSpaces(s)| <= 19
  {
    var d := RemoveSpaces(s);
    if AllDigits(d) {
      forall i | 0 <= i < |s|
        ensures IsDigit(s[i]) || IsSpace(s[i])
      {
        if !IsSpace(s[i]) {
          assert s[i] in d;
        }
      }
    }
    if forall i :: 0 <= i < |s| ==> IsDigit(s[i]) || IsSpace(s[i]) {
      forall i | 0 <= i < |d|
        ensures IsDigit(d[i])
      {
        assert d[i] in s;
      }
    }
  }

  /** `cardValidation.expiryMonth`: exactly "01" to "12". */
  predicate ExpiryMonthValid(s: string)
  {
    |s| == 2 && ((s[0] == '0' && '1' <= s[1] <= '9') || (s[0] == '1' && '0' <= s[1] <= '2'))
  }

  /** The month pattern accepts exactly the two-digit spellings of 1..12. */
  lemma ExpiryMonthMeaning(s: string)
    ensures ExpiryMonthValid(s) <==> |s| == 2 && AllDigits(s) && 1 <= DigitsValue(s) <= 12
  {
    if |s| == 2 && AllDigits(s) {
      var first := s[..1];
      assert first[..0] == [] && first[0] == s[0];
      assert DigitsValue(first) == DigitValue(s[0]);
      assert DigitsValue(s) == 10 * DigitValue(s[0]) + DigitValue(s[1]);
    }
  }

  /** `cardValidation.expiryYear`: four digits, not before the current year. */
  predicate ExpiryYearValid(s: string, currentYear: int)
  {
    |s| == 4 && AllDigits(s) && DigitsValue(s) >= currentYear
  }

  /** `cardValidation.holderName`: a string of 2 to 100 characters (None
      stands for a value that is not a string). */
  predicate HolderNameValid(v: Option<string>)
  {
    v.Some? && 2 <= |v.value| <= 100
  }

  /** `cardValidation.cvc`: three or four digits. */
  predicate CvcValid(s: string)
  {
    3 <= |s| <= 4 && AllDigits(s)
  }

  /** Worked cases for the month and security-code checks. */
  lemma CardExamples()
    ensures ExpiryMonthValid("09") && !ExpiryMonthValid("9") && !ExpiryMonthValid("13")
    ensures CvcValid("123") && !CvcValid("12a")
  {
    assert "12a"[2] == 'a';
  }
}
